=== FILE: README.md ===
# Foundry agents governance dashboard — a Dafny model

The dashboard lists the AI agents of every Azure AI Foundry project a user
can reach, draws them as a graph (agent → model, agent → tool →
connection), and shows KPIs and charts. This project models its core:

- **Browser** (`src/frontend/static/js/graph.js`):
  - the global loading indicator;
  - `loadAllData` with its resource cache;
  - the chunked fan-out `fetchAgentsForProjects` (five projects at a time);
  - the four-field case-insensitive filter;
  - the element list `renderGlobalGraph` hands to Cytoscape;
  - the KPI cards and the three chart histograms;
  - the leading-slash strip of a project id on its way to the access endpoint.
- **Backend** (`src/backend/foundry_client.py`):
  - the agent normaliser `parse_agent_graph_data`;
  - the hub and project derivation of `get_foundry_resources`;
  - the pure parts of `get_agents`: the URL, the unique-principal access count, and assembling the parsed agents;
  - the leading-slash restore of `api.py`.

Python values are modelled by a `Json` datatype with Python's semantics for `dict.get`, `[]`, `in`, truthiness, iteration and `str()`. An exception is an `Err` value. Where the source catches it, the model does the same: a loop that raises keeps what it appended before. Network responses, completion orders and timers are parameters. Each module file carries its own doc comments.

Module layout:

- `text.dfy`: ASCII lower-casing, substring search, split and join, rstrip, decimal digits.
- `json.dfy`: `Optional` and `Json`.
- `seqs.dfy`: repetition-free sequences and `len(set(...))`.
- `records.dfy`: the browser's agent, tool and project records.
- `agent_parser.dfy`: `AgentParser` and its properties.
- `foundry_resources.dfy`: the project derivation.
- `agents_api.dfy`: `AgentsApi`, `AgentsApiProperties` and `AccessPath`.
- `filter.dfy`: the filter, its properties and examples.
- `node_keys.dfy`: graph node ids.
- `graph_builder.dfy` and `graph_properties.dfy`: the element list and its guarantees.
- `metrics.dfy`: histograms, KPIs and utilization.
- `loading.dfy`: the loading indicator.
- `fanout.dfy`: chunked fetching.
- `dashboard.dfy`: the page state, `loadAllData` and the views.

The graph's model-node existence check uses the id `{agent id}_model`. It therefore only suppresses a model node when two ids collide. When agent ids are distinct and never equal a synthesized id, every model gets its own node: `GraphProperties.ModelNodeIsNew` and `GraphProperties.BuildEmitsPlannedNodes` state this.

## Model

| member | source | states |
|---|---|---|
| Text.LowerKeepsLowercase | src/frontend/static/js/graph.js:304-307 | text without capital letters is unchanged by lower-casing |
| Text.LongerNeverContained | src/frontend/static/js/graph.js:316-319 | a needle longer than the text is never found by `includes` |
| Text.OccurrenceGivesContains | src/frontend/static/js/graph.js:316-319 | an occurrence at some index makes `includes` true |
| Text.ContainsGivesOccurrence | src/frontend/static/js/graph.js:316-319 | when `includes` is true, the needle sits at some index |
| Text.ContainsIffOccurrence | src/frontend/static/js/graph.js:316-319 | `includes` holds exactly when the needle occurs at some index |
| Text.Split | src/backend/foundry_client.py:294 | `split` always yields at least one segment |
| Text.SplitJoinRoundTrip | src/backend/foundry_client.py:294 | joining the segments of `split(c)` with `c` gives back the string, and no segment contains `c` |
| Text.LastSegmentIsMaximalSuffix | src/backend/foundry_client.py:294 | `split('/')[-1]` is the longest suffix without `/`: it is preceded by `/` or is the whole string |
| Text.LastSegmentShorterWhenSplit | src/backend/foundry_client.py:294 | when the string contains the separator, its last segment is a proper suffix |
| Text.StripTrailing | src/backend/foundry_client.py:192 | `rstrip('/')` is a prefix that does not end in `/`, and only `/` was removed |
| Text.NatText | src/frontend/static/js/graph.js:491 | the decimal rendering of an index is a non-empty run of digits |
| Text.NatTextRoundTrip | src/frontend/static/js/graph.js:491 | reading the decimal rendering back gives the number |
| Text.NatTextInjective | src/frontend/static/js/graph.js:491 | distinct tool indices render differently |
| Text.MissingCharNotContained | src/frontend/static/js/graph.js:387-390 | a needle with a character the text lacks is never found by `includes` |
| Json.Or | src/backend/foundry_client.py:278 | `a or b` is one of its operands, truthy exactly when either is, and the left one whenever that one is truthy |
| Json.OrAssociative | src/backend/foundry_client.py:224 | a chain of `or`s gives the first truthy operand, or the last operand when none is truthy, however it is grouped |
| Json.Lookup | src/backend/foundry_client.py:276-277 | `get` returns the default for a missing key, else a value stored under the key |
| Json.DictGet | src/backend/foundry_client.py:272-273 | `get` succeeds exactly on dicts; a missing key gives the default |
| Json.Subscript | src/backend/foundry_client.py:62-66 | `d[k]` succeeds exactly on a dict holding `k` |
| Json.DictGetByValue | src/backend/foundry_client.py:326 | `get` with a decoded key fails on non-dicts and on unhashable keys |
| Json.In | src/backend/foundry_client.py:318 | `in` is substring search on strings, key search on dicts, and raises on numbers, booleans and None |
| Json.InEither | src/backend/foundry_client.py:335 | `a in c or b in c` raises exactly when the first test raises, else it is the disjunction |
| Json.First | src/backend/foundry_client.py:315 | `x[0]` of a non-empty list is its head |
| Json.Iterate | src/backend/foundry_client.py:286 | `for` over a list visits its items; iterating fails exactly on non-iterables |
| Json.LowerOf | src/backend/foundry_client.py:55 | `.lower()` exists only on strings and lower-cases them |
| Json.SplitOf | src/backend/foundry_client.py:294 | `.split(c)` exists only on strings and its segments join back to the string |
| Json.At | src/backend/foundry_client.py:67 | `parts[i]` succeeds exactly for an index in range |
| Seqs.DistinctCountBound | src/backend/foundry_client.py:210-211 | `len(set(xs))` is at most `len(xs)`, with equality exactly when no element repeats |
| Seqs.DistinctCountIsFirstOccurrences | src/backend/foundry_client.py:210-211 | `len(set(xs))` is the number of positions whose element does not occur earlier, i.e. one per distinct element |
| Seqs.DistinctConcat | src/frontend/static/js/graph.js:456 | two repetition-free lists with no common element concatenate without repetition |
| AgentParser.ParseTool | src/backend/foundry_client.py:286-290 | a parsed tool comes from a dict, keeps its `type` (default "unknown"), and has a name exactly when the dict has one |
| AgentParser.ParseTools | src/backend/foundry_client.py:286-344 | one parsed entry per raw tool, in order; the parse fails exactly when some tool fails |
| AgentParser.ResourceIdIsLastQualifying | src/backend/foundry_client.py:340-342 | `resource_id` is the last segment of the last non-reserved string field containing `/subscriptions/`; it is absent when no field qualifies |
| AgentParser.EntriesOf | src/backend/foundry_client.py:352-356 | a dict resource gives one entry per sub-key, any other value gives one entry, all typed by the resource key |
| AgentParser.FlattenResourcesCountAndKeys | src/backend/foundry_client.py:346-356 | the resource entries number one per sub-key or value, and each entry's type is a key of the resources |
| AgentParser.ParseResources | src/backend/foundry_client.py:346-356 | falsy resources give no entries; truthy non-dict resources raise; otherwise the entry count and keys are as promised |
| AgentParser.ParseAgent | src/backend/foundry_client.py:259-369 | a parsed agent comes from a dict with a dict definition, and its model is always truthy |
| AgentParser.RecordJson | src/backend/foundry_client.py:363-369 | the returned dict has exactly the keys id, name, model, tools and resources, with one tool dict per parsed tool |
| AgentParserProperties.ParseToolSteps | src/backend/foundry_client.py:292-337 | a tool's connection is the connection_id segment, overridden by the type rule, then by the index rule |
| AgentParserProperties.ConnectionSteps | src/backend/foundry_client.py:292-337 | the three connection steps, each succeeding, compose to the tool's connection |
| AgentParserProperties.McpConnectionRule | src/backend/foundry_client.py:299-306 | MCP tools take server_label, else project_connection_id, else server_url, else the connection_id segment |
| AgentParserProperties.FileSearchStep | src/backend/foundry_client.py:309-315 | file_search takes "VS: " plus the first vector store id when the list is non-empty, else keeps the connection |
| AgentParserProperties.FileSearchConnectionRule | src/backend/foundry_client.py:309-315 | a file_search tool shows its first vector store, or else the connection_id segment |
| AgentParserProperties.MemoryConnectionRule | src/backend/foundry_client.py:318-333 | a memory or other search tool takes its own memory_store_name, else that of the resources under its type, or of the memory_search resources when that entry is empty, else the connection_id segment |
| AgentParserProperties.IndexConnectionOverrides | src/backend/foundry_client.py:335-337 | an azure_ai_search or cognitive_search tool with index_name always shows "Index: " and the name |
| AgentParserProperties.SpecificKeepsPlain | src/backend/foundry_client.py:298-318 | the type chain leaves the connection alone for a string type that is not mcp or file_search and mentions neither memory nor search |
| AgentParserProperties.IndexKeepsPlain | src/backend/foundry_client.py:335 | the index rule leaves the connection alone for other string types |
| AgentParserProperties.PlainToolKeepsIdConnection | src/backend/foundry_client.py:293-294 | a type mentioning none of mcp, memory or search keeps the connection_id segment, or has no connection |
| AgentParserProperties.NotContainedInLonger | src/backend/foundry_client.py:335 | a text without "search" contains neither index-search type |
| AgentParserProperties.OccursWithin | src/backend/foundry_client.py:335 | an occurrence inside an occurrence is an occurrence |
| AgentParserProperties.SearchInsideToolTypes | src/backend/foundry_client.py:309-335 | file_search, azure_ai_search and cognitive_search each contain "search" |
| AgentParserProperties.ParseAgentFields | src/backend/foundry_client.py:272-281 | model precedence is definition, then agent, then "Unknown Model"; name and id default only when absent; tools come from the definition, else the agent, one per raw tool |
| AgentParserProperties.SpecificParses | src/backend/foundry_client.py:298-333 | the type chain cannot raise on a string type and well-formed resources |
| AgentParserProperties.WellFormedToolParses | src/backend/foundry_client.py:286-344 | a dict tool with a string type, a string connection_id and well-formed file_search resources never raises |
| AgentParserProperties.WellFormedAgentParses | src/backend/foundry_client.py:259-369 | a well-formed agent document never makes the normaliser raise |
| FoundryResources.HubFromItem | src/backend/foundry_client.py:53-72 | an account becomes a hub exactly when its lower-cased kind is "aiservices"; the hub's id, name and location are the account's, its resource group is the id's fifth `/` segment, and its endpoint and defaultProject are read from the account's properties |
| FoundryResources.CollectHubs | src/backend/foundry_client.py:53-74 | the hub loop yields at most one hub per account, each built from a listed account of kind AIServices |
| FoundryResources.CollectHubsKeepsExactlyAiServices | src/backend/foundry_client.py:53-72 | with no raising item, there is one hub per AIServices account |
| FoundryResources.ProjectFromWorkspace | src/backend/foundry_client.py:81-109 | a workspace becomes a project exactly when its lower-cased kind is "project"; the project's id, name and location are the workspace's, its resource group is the id's fifth `/` segment, its hubId is the properties' hubResourceId, and its endpoint follows the endpoint precedence |
| FoundryResources.CollectWorkspaceProjects | src/backend/foundry_client.py:80-111 | at most one project per workspace, each built from a listed workspace of kind project |
| FoundryResources.CollectWorkspaceProjectsKeepsExactlyProjects | src/backend/foundry_client.py:80-111 | with no raising workspace, there is one project per workspace of kind project |
| FoundryResources.ChildProject | src/backend/foundry_client.py:127-141 | a child project takes its id, name and location from the listed item, its resource group from the id, its endpoint `https://{hub name}.services.ai.azure.com/api/projects/{project name}`, and its hub's id |
| FoundryResources.OkPrefix | src/backend/foundry_client.py:126-143 | a loop inside a `try` keeps exactly the values of the iterations before the first one that raises |
| FoundryResources.CollectChildProjects | src/backend/foundry_client.py:126-143 | the child projects are, in order, those of the listed items before the first item that raises, each linked to the hub's id |
| FoundryResources.CollectChildProjectsKeepsAll | src/backend/foundry_client.py:126-141 | when no listed item raises, there is one child project per item, in order |
| FoundryResources.ChildProjectsOfHubs | src/backend/foundry_client.py:118-144 | every child project is the project of some item in the listing of a hub whose listing came back, and is linked to that hub |
| FoundryResources.ChildProjectsOfHubsComplete | src/backend/foundry_client.py:118-144 | every item of a hub listing that came back and raised nowhere gives a child project |
| FoundryResources.SelfProjects | src/backend/foundry_client.py:148-167 | a hub becomes its own project only when no listed project has its id |
| FoundryResources.SelfProjectsExactlyUnlisted | src/backend/foundry_client.py:146-167 | self-projects are exactly the hubs with unlisted ids |
| FoundryResources.GetFoundryResources | src/backend/foundry_client.py:32-173 | without a management token nothing is listed; every hub is of kind AIServices |
| FoundryResourcesProperties.EndpointStep | src/backend/foundry_client.py:89-99 | endpoint precedence: hub Agents API endpoint, then discoveryUrl, then the azureml endpoint |
| FoundryResourcesProperties.WorkspaceEndpointPrecedence | src/backend/foundry_client.py:82-107 | a listed workspace project's endpoint follows that precedence |
| FoundryResourcesProperties.SelfProjectsOnlyForUnlistedHubs | src/backend/foundry_client.py:145-169 | projects are the listed ones, then one per hub whose id is unlisted, with an endpoint naming defaultProject, else the hub name |
| AgentsApi.AgentsUrl | src/backend/foundry_client.py:191-195 | the URL is the endpoint without trailing slashes followed by `/agents`, on both branches |
| AgentsApi.Principals | src/backend/foundry_client.py:210 | one principal per assignment, in order; fails exactly when one assignment lacks it |
| AgentsApi.PrincipalOf | src/backend/foundry_client.py:210 | `r["properties"]["principalId"]` succeeds exactly on a dict whose properties dict holds a hashable principalId, and gives that value |
| AgentsApi.AccessCount | src/backend/foundry_client.py:209-211 | counting fails exactly when some assignment lacks a hashable principal; otherwise the count is the number of distinct principals as Python's set compares them (`True == 1`, `False == 0`): at most the number of assignments, and equal exactly when no two principals are equal |
| AgentsApi.ListedItems | src/backend/foundry_client.py:224 | the items are the truthy `value`, else the truthy `data`, else `[]`; a response that is not a dict raises |
| AgentsApi.FullAgent | src/backend/foundry_client.py:227-233 | an item that is not a dict raises; the parsed document is the item itself, or a truthy detail response fetched for the item's truthy id |
| AgentsApi.Collect | src/backend/foundry_client.py:226-240 | the loop succeeds exactly when every iteration does, and then holds one agent per iteration, in order, that iteration's record tagged with the access count and project id |
| AgentsApi.ParseListed | src/backend/foundry_client.py:226-240 | one agent per item, in order, each the parsed document with the access count and project id; the loop fails exactly when some item fails |
| AgentsApi.GetAgents | src/backend/foundry_client.py:187-246 | the call fails exactly when counting access fails (that happens outside the `try`); every agent carries the project id and the access count, 0 without a project id; when every listed item parses there is one agent per item, in order; a non-empty result means every item parsed, so any failure inside the `try` gives `[]` |
| AgentsApiProperties.WellFormedListingParses | src/backend/foundry_client.py:213-242 | when access counting succeeds and every listed document is well formed, there is one parsed agent per listed item, in order |
| AccessPath.StripOneLeadingSlash | src/frontend/static/js/graph.js:190 | exactly one leading `/` is removed |
| AccessPath.EnsureLeadingSlash | src/backend/api.py:59-60 | the id starts with `/`, which is added only when missing |
| AccessPath.ResourceIdRoundTrip | src/backend/api.py:59-60 | the API receives the browser's id exactly when it starts with one `/`; `//` loses one, no `/` gains one |
| Records.OrEmpty | src/frontend/static/js/graph.js:311-313 | `s \|\| ""` is the string when truthy, else empty |
| Filter.Lowered | src/frontend/static/js/graph.js:304-307 | lower-casing keeps each criterion empty or non-empty |
| Filter.Apply | src/frontend/static/js/graph.js:310-320 | the filtered list holds exactly the loaded agents that match, and is no longer |
| FilterProperties.ShiftEmbeds | src/frontend/static/js/graph.js:310 | an embedding into the tail shifts to one into the whole list |
| FilterProperties.KeptPositions | src/frontend/static/js/graph.js:310 | the kept positions embed the result into the input, in increasing order |
| FilterProperties.FilterIsSubsequence | src/frontend/static/js/graph.js:310 | the result keeps the agents' relative order |
| FilterProperties.FilterConcat | src/frontend/static/js/graph.js:310-320 | filtering distributes over concatenation |
| FilterProperties.FilterIdempotent | src/frontend/static/js/graph.js:310-320 | filtering the filtered list again changes nothing |
| FilterProperties.EmptyCriteriaKeepAll | src/frontend/static/js/graph.js:316-319 | with every input empty, every agent is shown |
| FilterProperties.MatchesMeaning | src/frontend/static/js/graph.js:311-319 | each criterion is empty or occurs in the lowered field; all four are required |
| FilterProperties.AcceptsMeaning | src/frontend/static/js/graph.js:316-319 | one criterion reads as "empty, or occurring at some index" |
| FilterProperties.PartOccursInJoin | src/frontend/static/js/graph.js:314 | every tool name occurs in the space-joined tool text |
| FilterProperties.ToolNameIsFound | src/frontend/static/js/graph.js:314-319 | typing one of an agent's tool names into the tool filter keeps that agent |
| FilterExamples.TurboMatches | src/frontend/static/js/graph.js:313-318 | model filter "gpt-4" matches "gpt-4-turbo" |
| FilterExamples.ModelOnlyMatch | src/frontend/static/js/graph.js:311-319 | with only a model filter, a tool-less agent matches when its lowered model contains the lowered input |
| FilterExamples.ClaudeRejected | src/frontend/static/js/graph.js:313-318 | model filter "gpt-4" rejects "claude" |
| FilterExamples.ApplyPair | src/frontend/static/js/graph.js:310-320 | for two tool-less agents, only the matching one is kept |
| FilterExamples.ModelFilterExample | src/frontend/static/js/graph.js:310-320 | filtering [gpt-4-turbo, claude] by "gpt-4" gives [gpt-4-turbo] |
| NodeKeys.DigitSuffixLength | src/frontend/static/js/graph.js:491 | the longest all-digit suffix |
| NodeKeys.DigitSuffixAfterSeparator | src/frontend/static/js/graph.js:491 | after `_tool_` the digit suffix is exactly the rendered index |
| NodeKeys.DecodeToolRoundTrip | src/frontend/static/js/graph.js:491 | `{a}_tool_{i}` reads back as `(a, i)` |
| NodeKeys.DecodeRoundTrip | src/frontend/static/js/graph.js:470 | every synthesized id (`_model`, `_tool_i`, `_tool_i_conn`) decodes to the key it came from |
| NodeKeys.SynthesizedTextInjective | src/frontend/static/js/graph.js:515 | distinct synthesized keys render to distinct ids, whatever the agent ids |
| GraphBuilder.ToolIconFor | src/frontend/static/js/graph.js:493-497 | a tool's icon is decided by the first of search, code, retrieval, mcp in its lowered type, else the wrench |
| GraphBuilder.ConnectionIconFor | src/frontend/static/js/graph.js:516-521 | a connection's icon: github, then search, then database or sql, else the folder |
| GraphBuilder.NodeKeysOf | src/frontend/static/js/graph.js:446 | there are no more node keys than elements |
| GraphBuilder.CountsOfAppend | src/frontend/static/js/graph.js:446 | node keys and edge counts add over concatenation |
| GraphBuilder.NodeThenEdge | src/frontend/static/js/graph.js:509-511 | a node and an edge add one key and one edge |
| GraphBuilder.AddModel | src/frontend/static/js/graph.js:468-486 | an agent with a model adds its model node unless a node with that id exists, and exactly one edge; an agent without one adds nothing |
| GraphBuilder.AddTool | src/frontend/static/js/graph.js:489-535 | tool elements are appended after what was there |
| GraphBuilder.AddToolCounts | src/frontend/static/js/graph.js:489-535 | a tool adds its node, its connection node when it names one, and one edge per node |
| GraphBuilder.AddTools | src/frontend/static/js/graph.js:489 | the tools' elements are appended after what was there |
| GraphBuilder.AddToolsKeys | src/frontend/static/js/graph.js:489-536 | the tools add their planned node keys: tool by tool, each tool's node then its connection node when it names one |
| GraphBuilder.AddToolsEdges | src/frontend/static/js/graph.js:489-536 | the tools add one edge per planned node key: agent to tool, and tool to connection |
| GraphBuilder.AddAgent | src/frontend/static/js/graph.js:456-466 | an agent's node is appended right after what was there, followed by its model and tool elements |
| GraphBuilder.Build | src/frontend/static/js/graph.js:443-540 | every agent has its node among the elements |
| GraphProperties.ToolKeysMembers | src/frontend/static/js/graph.js:489-535 | the tool keys are exactly the tool and connection keys of the first n tools |
| GraphProperties.ToolKeysDistinct | src/frontend/static/js/graph.js:491 | tool keys never repeat |
| GraphProperties.ToolKeysLength | src/frontend/static/js/graph.js:489-535 | one key per tool plus one per connection |
| GraphProperties.PlannedKeysFacts | src/frontend/static/js/graph.js:456-536 | an agent plans exactly its own keys, without repetition, one per agent, model, tool and connection |
| GraphProperties.AllPlannedMembers | src/frontend/static/js/graph.js:456 | the planned keys are those of some agent |
| GraphProperties.EarlierKeysDiffer | src/frontend/static/js/graph.js:456 | with distinct agent ids, an earlier agent's keys never belong to a later one |
| GraphProperties.AllPlannedDistinct | src/frontend/static/js/graph.js:456-537 | with distinct agent ids, planned keys never repeat |
| GraphProperties.AllPlannedLength | src/frontend/static/js/graph.js:456-537 | one planned key per agent, model, tool and connection |
| GraphProperties.KeyTextInjective | src/frontend/static/js/graph.js:460 | with no id clash, distinct keys render to distinct ids |
| GraphProperties.PlannedTextsDistinct | src/frontend/static/js/graph.js:456-537 | under both id assumptions, planned ids are unique strings |
| GraphProperties.HasNodeIdMeans | src/frontend/static/js/graph.js:472 | `elements.find` by id succeeds exactly when some node key renders to that id |
| GraphProperties.ModelNodeIsNew | src/frontend/static/js/graph.js:469-482 | under both id assumptions the existence check never suppresses a model node |
| GraphProperties.AgentNodeCounts | src/frontend/static/js/graph.js:458-466 | the agent node adds its key and no edge |
| GraphProperties.NoIdClashOfPrefix | src/frontend/static/js/graph.js:456 | both id assumptions hold for a prefix of the agents |
| GraphProperties.AddAgentKeys | src/frontend/static/js/graph.js:456-537 | an agent whose model id is new adds exactly its planned keys |
| GraphProperties.BuildEmitsPlannedNodes | src/frontend/static/js/graph.js:443-540 | under both id assumptions the builder emits exactly the planned nodes, in order |
| GraphProperties.BuildEdgeCount | src/frontend/static/js/graph.js:443-540 | one edge per model, tool and connection, whatever the ids |
| GraphProperties.BuildNodeIdsUnique | src/frontend/static/js/graph.js:443-540 | under both id assumptions node ids are unique |
| GraphProperties.BuildNodeCount | src/frontend/static/js/graph.js:443-540 | under both id assumptions, one node per agent, model, tool and connection |
| GraphProperties.NodeBeforeInPrefix | src/frontend/static/js/graph.js:446 | appending does not change which nodes precede a position |
| GraphProperties.Push | src/frontend/static/js/graph.js:446 | pushing a linked edge or a fresh model node keeps the list sound |
| GraphProperties.AddModelSound | src/frontend/static/js/graph.js:468-486 | the model step keeps every edge linked and model nodes fresh |
| GraphProperties.ConnectionPartSound | src/frontend/static/js/graph.js:513-535 | the connection step keeps the list sound |
| GraphProperties.ToolPartSound | src/frontend/static/js/graph.js:499-511 | the tool node and its edge keep the list sound |
| GraphProperties.AddToolSound | src/frontend/static/js/graph.js:489-535 | one tool keeps the list sound |
| GraphProperties.AddToolsSound | src/frontend/static/js/graph.js:489-536 | all tools keep the list sound |
| GraphProperties.BuildSound | src/frontend/static/js/graph.js:443-540 | every edge joins ids of nodes emitted before it, and no model node repeats an earlier id, for any agents |
| GraphExamples.SingleToolAgent | src/frontend/static/js/graph.js:456-537 | a model-less one-tool agent gives agent node, tool node, tool edge, then its connection part |
| GraphExamples.FileSearchIcon | src/frontend/static/js/graph.js:494 | a file_search tool gets the search icon |
| GraphExamples.SearchTypeIcon | src/frontend/static/js/graph.js:494 | any type whose lowered form contains "search" gets the search icon |
| GraphExamples.FileSearchParts | src/frontend/static/js/graph.js:489-535 | the file_search tool node has label file_search and the search icon, and no connection |
| GraphExamples.FirstToolId | src/frontend/static/js/graph.js:491 | the first tool of agent a1 has id `a1_tool_0` |
| GraphExamples.FileSearchAgentGraph | src/frontend/static/js/graph.js:443-540 | an agent with one file_search tool draws three elements: agent, tool with search icon, edge |
| GraphExamples.GithubConnectionIcon | src/frontend/static/js/graph.js:519 | a connection named github-conn gets the GitHub icon |
| GraphExamples.GithubParts | src/frontend/static/js/graph.js:513-535 | the github-conn connection node and its tool edge |
| GraphExamples.GithubToolGraph | src/frontend/static/js/graph.js:443-540 | a tool with a GitHub connection draws tool and connection nodes and both edges |
| Histogram.Bump | src/frontend/static/js/graph.js:357 | `counts[k] = (counts[k] \|\| 0) + 1` raises k by one, keeps the others, and appends a new key |
| Histogram.TallyCounts | src/frontend/static/js/graph.js:354-358 | each label's count is its number of occurrences, counts add up to the labels, and keys are exactly the labels, once each |
| Metrics.ModelHistogramCounts | src/frontend/static/js/graph.js:354-358 | the model chart counts every agent once, under its label |
| Metrics.ToolCategory | src/frontend/static/js/graph.js:386-390 | a tool's category is never empty and is one of the four chart names or the tool's own type ("custom" when it has none); the first of search, code, function, mcp found in the type (case-sensitive) decides which name |
| Metrics.ToolCategoryFixedPoint | src/frontend/static/js/graph.js:386-390 | a tool whose type is already a category falls into that same category: no category name contains a word that would rename it |
| Metrics.ToolLabels | src/frontend/static/js/graph.js:384-394 | one category per tool of every agent |
| Metrics.ToolHistogramCounts | src/frontend/static/js/graph.js:383-394 | the tool chart counts every tool once, under its category |
| Metrics.PresentModels | src/frontend/static/js/graph.js:333 | the truthy models, one per agent that has one |
| Metrics.ModelCountBound | src/frontend/static/js/graph.js:333 | no more agents with a model than agents |
| Metrics.ActiveModels | src/frontend/static/js/graph.js:333 | the active-model KPI is the number of distinct truthy models, equal to the number of agents with a model exactly when none share one |
| Metrics.Put | src/frontend/static/js/graph.js:250 | caching keeps the new entry and every entry of another subscription; an existing subscription keeps the cache's length and a new one is appended |
| Metrics.PutKeepsPlace | src/frontend/static/js/graph.js:250 | an existing subscription keeps its place: its entry is overwritten where it stands and nothing else moves |
| Metrics.PutReadsBack | src/frontend/static/js/graph.js:250 | after caching, the subscription reads back as the new snapshot and every other subscription reads as before |
| Metrics.PutKeepsKeysUnique | src/frontend/static/js/graph.js:250 | caching never makes a subscription appear twice |
| Metrics.CachedProjects | src/frontend/static/js/graph.js:365-366 | a project is counted exactly when some cached snapshot lists it |
| Metrics.ActiveEndpoints | src/frontend/static/js/graph.js:363-374 | an endpoint is active exactly when it is a cached project's and some loaded agent points at it |
| Metrics.EndpointSetBound | src/frontend/static/js/graph.js:363-374 | there are no more endpoints than projects |
| Metrics.SubsetCardinality | src/frontend/static/js/graph.js:376 | a subset is no larger |
| Metrics.EmptyProjects | src/frontend/static/js/graph.js:376 | active plus empty projects equals the total, so the empty count is never negative |
| MetricsExamples.CachedScenarioProjects | src/frontend/static/js/graph.js:365-366 | a one-subscription cache lists its two projects |
| MetricsExamples.UtilizationScenario | src/frontend/static/js/graph.js:361-380 | two projects, one agent in the first: one active, one empty |
| MetricsExamples.ModelScenario | src/frontend/static/js/graph.js:354-358 | one gpt-4 agent charts as `{"gpt-4": 1}` |
| MetricsExamples.FileSearchCategory | src/frontend/static/js/graph.js:387 | file_search charts as "File Search" |
| MetricsExamples.ToolScenario | src/frontend/static/js/graph.js:383-394 | one file_search tool charts as `{"File Search": 1}` |
| Loading.TimerFires | src/frontend/static/js/graph.js:52-56 | an expiring hide timer hides the indicator only with nothing in flight |
| Loading.EndUndoesStart | src/frontend/static/js/graph.js:29-57 | a start followed by an end restores the counter and keeps the indicator visible; from idle it shows "ready" and schedules one hide; with an outer load in flight "ready" stays hidden |
| Loading.Step | src/frontend/static/js/graph.js:29-59 | every event keeps the state valid, and only a timer with nothing in flight hides the indicator |
| Loading.RunValid | src/frontend/static/js/graph.js:29-59 | from any valid state, every interleaving of starts, ends and timers stays valid, so the counter is never negative |
| Loading.StartsCount | src/frontend/static/js/graph.js:35 | n starts raise the counter by n |
| Loading.EndsCount | src/frontend/static/js/graph.js:42-46 | n ends lower it by n, and reaching zero shows "ready" |
| Loading.RunAppend | src/frontend/static/js/graph.js:29-59 | running two event lists in turn is running their concatenation |
| Loading.BalancedLoads | src/frontend/static/js/graph.js:29-59 | n overlapping loads that all finish restore the counter and, from idle, show "ready" |
| Fanout.FlattenAppend | src/frontend/static/js/graph.js:280-281 | flattening distributes over concatenation |
| Fanout.Chunks | src/frontend/static/js/graph.js:279-281 | every chunk holds one to five projects |
| Fanout.ChunksFlatten | src/frontend/static/js/graph.js:280-281 | chunking loses and reorders nothing |
| Fanout.ChunksShape | src/frontend/static/js/graph.js:279-281 | only the last chunk may be short, and there are ceil(n/5) chunks |
| Fanout.Decorate | src/frontend/static/js/graph.js:289-290 | decorating sets the project name and endpoint and nothing else |
| Fanout.Contribution | src/frontend/static/js/graph.js:283-297 | a failed or non-ok request adds nothing; a listing adds one agent per listed agent, in order, each carrying the project's name and endpoint and otherwise unchanged |
| Fanout.Contributions | src/frontend/static/js/graph.js:276-301 | the reference result holds exactly the agents some project contributes |
| Fanout.RangeMembers | src/frontend/static/js/graph.js:280 | a position is in the range exactly when lo <= j < hi |
| Fanout.VisitChunk | src/frontend/static/js/graph.js:280-299 | visiting the next chunk extends the visited positions to the next boundary |
| Fanout.RangeAppend | src/frontend/static/js/graph.js:280 | adjacent ranges concatenate |
| Fanout.FetchedAppend | src/frontend/static/js/graph.js:282-298 | the agents of two position lists concatenate |
| Fanout.PositionOf | src/frontend/static/js/graph.js:282-298 | a permutation holds the last position somewhere |
| Fanout.RemoveMatching | src/frontend/static/js/graph.js:282-298 | removing a matching position keeps two lists permutations of each other |
| Fanout.FetchedSplit | src/frontend/static/js/graph.js:282-298 | moving one position to the end permutes the fetched agents |
| Fanout.FetchedMiddle | src/frontend/static/js/graph.js:282-298 | the same, stated at an index |
| Fanout.FetchedLast | src/frontend/static/js/graph.js:282-298 | the last position contributes last |
| Fanout.FetchedPermutation | src/frontend/static/js/graph.js:282-298 | any completion order inside a chunk gives the same agents, up to order |
| Fanout.FetchedInOrder | src/frontend/static/js/graph.js:276-301 | positions in request order give the unchunked per-project result |
| Fanout.ChunksFrom | src/frontend/static/js/graph.js:281 | the chunks from i are the slice i..i+5 followed by the rest |
| Fanout.CollectChunk | src/frontend/static/js/graph.js:282-298 | one chunk appends each project's agents in completion order |
| Fanout.BatchStep | src/frontend/static/js/graph.js:280-281 | sending the chunk at i extends the batches sent towards the full chunk list |
| Fanout.AllVisited | src/frontend/static/js/graph.js:276-301 | once every position is visited, the agents are the reference's, up to order, and in order when visited in order |
| Fanout.FetchedAll | src/frontend/static/js/graph.js:276-301 | visiting every position in order gives the reference result |
| Fanout.ProgressStep | src/frontend/static/js/graph.js:280-299 | one loop iteration keeps the fan-out invariant |
| Fanout.ChunkRangeAt | src/frontend/static/js/graph.js:280-281 | the k-th chunk's positions are i..min(i+5, n) |
| Fanout.InOrderStep | src/frontend/static/js/graph.js:280-299 | in-order chunks keep the visited positions in order |
| Fanout.FetchAgentsForProjects | src/frontend/static/js/graph.js:276-301 | the chunks sent are the slices of five; the agents are every project's decorated agents, up to order, and in project order when each chunk settles in request order |
| Dashboard.CacheAfter | src/frontend/static/js/graph.js:244-250 | every subscription whose resources arrived is cached, and entries of other subscriptions are kept |
| Dashboard.CacheAfterReadsBack | src/frontend/static/js/graph.js:244-250 | after loading, each subscription reads back as the last snapshot that arrived for it in subscription order, or as before when none did; no subscription is cached twice |
| Dashboard.LoadSubscription | src/frontend/static/js/graph.js:245-261 | a failed resources request adds nothing and caches nothing; otherwise the snapshot is cached and the projects' agents fetched |
| Dashboard.LoadAll | src/frontend/static/js/graph.js:238-274 | a failed subscriptions request keeps agents and cache; otherwise the agents are every subscription's, in order up to chunk completion, and the cache is the old one with every arrived snapshot stored; the loading counter goes up and down once |
| Dashboard.KpisOf | src/frontend/static/js/graph.js:331-349 | total agents, active models at most the agents with a model, and active plus empty projects equal the cached projects |
| Dashboard.Visible | src/frontend/static/js/graph.js:303-320 | the filter's result is exactly the matching agents, in load order, and the filter throws exactly when a tool has neither name nor type |
| Dashboard.GraphOf | src/frontend/static/js/graph.js:323 | the graph is drawn exactly when no visible tool lacks a type, and its edges join earlier nodes |
| Dashboard.TableOf | src/frontend/static/js/graph.js:322-326 | the table is redrawn exactly when the graph is drawn, since the graph comes first; it lists exactly the matching agents, in load order, the same ones the graph draws |
| Dashboard.SetCriteria | src/frontend/static/js/graph.js:70 | typing in a filter leaves the KPIs and charts unchanged |
| Dashboard.ClearFilters | src/frontend/static/js/graph.js:76-83 | clearing the filters keeps agents, cache and KPIs; when every tool has a name or type the filter keeps every loaded agent; when every tool also has a type, the graph and the table show all of them |
| Dashboard.RefilterStable | src/frontend/static/js/graph.js:303-327 | re-filtering the shown rows with the same inputs shows the same rows |

## Left out

- Lower-casing is ASCII-only. JavaScript `toLowerCase` and Python `lower` are Unicode-aware.
- Numbers are integers. Floats and their `str()` rendering are not modelled.
- `repr` of strings inside lists and dicts does not escape quotes.
- JSON objects are assumed to have distinct keys, as `json.loads` yields them.
- JavaScript orders integer-like object keys numerically. The histograms keep pure insertion order.
- I/O, HTTP, tokens, `print`, timeouts and request parameters are parameters or absent. The `api-version` and `limit` of `get_agents` are among the absent ones.
- The DOM, Chart.js rendering, Cytoscape layout, `renderGlobalTable` and `openAccessDrawer` HTML are left out. Only the element list and the chart data are modelled.
- Real time is left out. A hide timer's expiry is an explicit event.
- Concurrency is given as parameters:
  - how each chunk's requests settle;
  - how subscription branches finish.
- `Dashboard.LoadAll`: stores snapshots in subscription order. The source stores each one as its response arrives. When responses arrive out of order, the order of the cache entries differs. For a repeated subscription id, the snapshot kept can differ too.
- An exception in the middle of decorating a project's agents is not modelled. An example is a `null` agent, which would keep the agents before it.
- A non-array `projects` value or subscriptions list is not modelled.
- `Dashboard.Visible`: the source throws on a tool with neither name nor type. The model returns `None` instead of modelling the exception's effect on the page.
- `Dashboard.GraphOf`: the source throws on a tool without a type. The model returns `None` in the same way.
- `Dashboard.Visible`, `Dashboard.TableOf`: agent records hold strings for name, model, tool type and connection. In the source, a non-string JSON value in one of those fields makes `toLowerCase` throw inside the filter. The model does not represent such values.
- `Histogram.Bump`: the chart counts live in a plain JavaScript object. A label such as `constructor` or `__proto__` would read or replace an inherited prototype value. The model treats every label as an ordinary key.
- The hub's `type` constant is not modelled.
- The `hub_endpoints` dictionary is not modelled, because nothing reads it.
- The unused timestamps `created_at` and `last_run_at` are not modelled.
- `get_subscriptions`, `get_role_assignments` and `get_agent_details` are I/O. Their results are parameters.
- `src/backend/debug_endpoints.py` is not part of this model.
- `Metrics.ActiveModels`, `Dashboard.KpisOf`: the active-model count is bounded by the agents with a model, as the source's set size is. The exact distinct-model count is stated on `Metrics.ActiveModels` only.
- `GraphProperties.BuildEmitsPlannedNodes`, `GraphProperties.BuildNodeIdsUnique`, `GraphProperties.BuildNodeCount`: these hold only when agent ids are distinct and never equal a synthesized id. The source does not check either condition.

=== FILE: agent_parser.dfy ===
/** The backend's agent normaliser (`parse_agent_graph_data` in
    src/backend/foundry_client.py): turns one raw agent document into the
    record `{id, name, model, tools, resources}` the graph view consumes. */
module AgentParser {
  import opened Text
  import opened Optional
  import opened Json

  /** One entry of the parsed `tools` list. `name`, `connection` and
      `resourceId` are the keys a tool dict may or may not carry. */
  datatype ToolInfo = ToolInfo(
    toolType: Json,
    name: Option<Json>,
    connection: Option<Json>,
    resourceId: Option<string>)

  /** One entry of the parsed `resources` list. */
  datatype ResourceEntry = ResourceEntry(resourceType: string, detail: string)

  /** The normalised agent. */
  datatype AgentRecord = AgentRecord(
    id: Json,
    name: Json,
    model: Json,
    tools: seq<ToolInfo>,
    resources: seq<ResourceEntry>)

  const DefaultName: Json := JStr("Unknown Agent")
  const DefaultId: Json := JStr("unknown")
  const DefaultModel: Json := JStr("Unknown Model")
  const DefaultToolType: Json := JStr("unknown")

  /** Keys the resource-id fallback scan skips. */
  const ReservedToolKeys: seq<string> :=
    ["type", "name", "connection_id", "server_label", "server_url", "project_connection_id"]

  // ---------------------------------------------------------------------
  // Tools

  /** The connection named by `connection_id`: its last `/` segment. */
  function ConnectionFromId(t: seq<(string, Json)>): Result<Option<Json>> {
    if HasKey(t, "connection_id") then
      var parts :- SplitOf(Lookup(t, "connection_id", JNull), '/');
      Ok(Some(JStr(parts[|parts| - 1])))
    else Ok(None)
  }

  /** MCP tools: the first key present among server_label,
      project_connection_id and server_url replaces the connection. */
  function McpConnection(t: seq<(string, Json)>, current: Option<Json>): Option<Json> {
    if HasKey(t, "server_label") then Some(Lookup(t, "server_label", JNull))
    else if HasKey(t, "project_connection_id") then Some(Lookup(t, "project_connection_id", JNull))
    else if HasKey(t, "server_url") then Some(Lookup(t, "server_url", JNull))
    else current
  }

  /** file_search tools: the first vector store of the agent's
      `file_search` resources, when that list is non-empty. */
  function FileSearchConnection(rawResources: Json, current: Option<Json>): Result<Option<Json>> {
    var fs :- DictGet(rawResources, "file_search", EmptyObject);
    var ids :- DictGet(fs, "vector_store_ids", JArr([]));
    if Truthy(ids) then
      var first :- First(ids);
      Ok(Some(JStr("VS: " + PyStr(first))))
    else Ok(current)
  }

  /** Memory / search tools: `memory_store_name` from the tool itself, or
      from the resources stored under the tool's type (falling back to the
      `memory_search` resources when that entry is empty). */
  function MemoryConnection(t: seq<(string, Json)>, tType: Json, rawResources: Json,
                            current: Option<Json>): Result<Option<Json>> {
    if HasKey(t, "memory_store_name") then Ok(Some(Lookup(t, "memory_store_name", JNull)))
    else
      var found :- DictGetByValue(rawResources, tType, EmptyObject);
      var mem :=
        if !Truthy(found) && HasKey(rawResources.fields, "memory_search")
        then Lookup(rawResources.fields, "memory_search", JNull)
        else found;
      if mem.JObj? && HasKey(mem.fields, "memory_store_name")
      then Ok(Some(Lookup(mem.fields, "memory_store_name", JNull)))
      else Ok(current)
  }

  /** The type-specific `if / elif / elif` chain. */
  function SpecificConnection(t: seq<(string, Json)>, tType: Json, rawResources: Json,
                              current: Option<Json>): Result<Option<Json>> {
    if tType == JStr("mcp") then Ok(McpConnection(t, current))
    else if tType == JStr("file_search") then FileSearchConnection(rawResources, current)
    else
      var memoryOrSearch :- InEither("memory", "search", tType);
      if memoryOrSearch then MemoryConnection(t, tType, rawResources, current)
      else Ok(current)
  }

  /** Azure AI Search / Cognitive Search tools with an `index_name`. */
  function IndexConnection(t: seq<(string, Json)>, tType: Json, current: Option<Json>): Result<Option<Json>> {
    var isSearchIndex :- InEither("azure_ai_search", "cognitive_search", tType);
    if isSearchIndex then Ok(IndexNamed(t, current)) else Ok(current)
  }

  function IndexNamed(t: seq<(string, Json)>, current: Option<Json>): Option<Json> {
    if HasKey(t, "index_name") then Some(JStr("Index: " + PyStr(Lookup(t, "index_name", JNull))))
    else current
  }

  /** A tool entry that names an Azure resource by full id. */
  predicate NamesResource(field: (string, Json)) {
    && field.0 !in ReservedToolKeys
    && field.1.JStr?
    && Contains(field.1.s, "/subscriptions/")
  }

  /** The last qualifying entry's id segment wins. */
  function ResourceIdScan(fields: seq<(string, Json)>, current: Option<string>): Option<string> {
    if |fields| == 0 then current
    else
      var next := if NamesResource(fields[0]) then Some(LastSegment(fields[0].1.s, '/')) else current;
      ResourceIdScan(fields[1..], next)
  }

  lemma {:induction false} ResourceIdIsLastQualifying(fields: seq<(string, Json)>, current: Option<string>)
    ensures var r := ResourceIdScan(fields, current);
      && (r == current || exists i :: 0 <= i < |fields| && NamesResource(fields[i]) && r == Some(LastSegment(fields[i].1.s, '/')))
      && (forall i :: 0 <= i < |fields| && NamesResource(fields[i])
            && (forall j :: i < j < |fields| ==> !NamesResource(fields[j]))
            ==> r == Some(LastSegment(fields[i].1.s, '/')))
      && ((forall i :: 0 <= i < |fields| ==> !NamesResource(fields[i])) ==> r == current)
  {
    if |fields| > 0 {
      var next := if NamesResource(fields[0]) then Some(LastSegment(fields[0].1.s, '/')) else current;
      ResourceIdIsLastQualifying(fields[1..], next);
      var r := ResourceIdScan(fields, current);
      assert r == ResourceIdScan(fields[1..], next);
      if r != current && r != next {
        var i :| 0 <= i < |fields[1..]| && NamesResource(fields[1..][i]) && r == Some(LastSegment(fields[1..][i].1.s, '/'));
        assert fields[i + 1] == fields[1..][i];
      }
      forall i | 0 <= i < |fields| && NamesResource(fields[i])
          && (forall j :: i < j < |fields| ==> !NamesResource(fields[j]))
        ensures r == Some(LastSegment(fields[i].1.s, '/'))
      {
        if i > 0 {
          assert fields[1..][i - 1] == fields[i];
          forall j | i - 1 < j < |fields[1..]|
            ensures !NamesResource(fields[1..][j])
          {
            assert fields[1..][j] == fields[j + 1];
          }
        } else {
          forall j | 0 <= j < |fields[1..]|
            ensures !NamesResource(fields[1..][j])
          {
            assert fields[1..][j] == fields[j + 1];
          }
        }
      }
      if forall i :: 0 <= i < |fields| ==> !NamesResource(fields[i]) {
        forall j | 0 <= j < |fields[1..]|
          ensures !NamesResource(fields[1..][j])
        {
          assert fields[1..][j] == fields[j + 1];
        }
      }
    }
  }

  /** One raw tool dict to its parsed entry. */
  function ParseTool(t: Json, rawResources: Json): (r: Result<ToolInfo>)
    ensures r.Ok? ==> t.JObj? && r.value.toolType == Lookup(t.fields, "type", DefaultToolType)
    ensures r.Ok? ==> (r.value.name.Some? <==> HasKey(t.fields, "name"))
  {
    if !t.JObj? then Err(AttributeError)
    else
      var tType := Lookup(t.fields, "type", DefaultToolType);
      var name := if HasKey(t.fields, "name") then Some(Lookup(t.fields, "name", JNull)) else None;
      var connection :- ToolConnection(t.fields, tType, rawResources);
      Ok(ToolInfo(tType, name, connection, ResourceIdScan(t.fields, None)))
  }

  /** The connection of a tool: the connection_id segment, then the
      type-specific rule, then the index rule, each overriding the last. */
  function ToolConnection(t: seq<(string, Json)>, tType: Json, rawResources: Json): Result<Option<Json>> {
    var fromId :- ConnectionFromId(t);
    var specific :- SpecificConnection(t, tType, rawResources, fromId);
    IndexConnection(t, tType, specific)
  }

  /** Every raw tool in order; the first failing tool aborts the parse. */
  function ParseTools(ts: seq<Json>, rawResources: Json): (r: Result<seq<ToolInfo>>)
    ensures r.Ok? <==> forall i :: 0 <= i < |ts| ==> ParseTool(ts[i], rawResources).Ok?
    ensures r.Ok? ==> |r.value| == |ts|
    ensures r.Ok? ==> forall i :: 0 <= i < |ts| ==> ParseTool(ts[i], rawResources) == Ok(r.value[i])
  {
    if |ts| == 0 then Ok([])
    else
      var head :- ParseTool(ts[0], rawResources);
      var tail :- ParseTools(ts[1..], rawResources);
      assert forall i :: 1 <= i < |ts| ==> ts[i] == ts[1..][i - 1];
      Ok([head] + tail)
  }

  // ---------------------------------------------------------------------
  // Resources

  /** The entries one `tool_resources` item contributes. */
  function EntriesOf(key: string, v: Json): (r: seq<ResourceEntry>)
    ensures |r| == (if v.JObj? then |v.fields| else 1)
    ensures forall e :: e in r ==> e.resourceType == key
  {
    if v.JObj? then seq(|v.fields|, i requires 0 <= i < |v.fields| =>
                      ResourceEntry(key, v.fields[i].0 + ": " + PyStr(v.fields[i].1)))
    else [ResourceEntry(key, PyStr(v))]
  }

  function FlattenResources(fields: seq<(string, Json)>): seq<ResourceEntry> {
    if |fields| == 0 then [] else EntriesOf(fields[0].0, fields[0].1) + FlattenResources(fields[1..])
  }

  /** How many entries the source promises: one per sub-key of a dict
      value, one per any other value. */
  function ExpectedEntryCount(fields: seq<(string, Json)>): nat {
    if |fields| == 0 then 0
    else (if fields[0].1.JObj? then |fields[0].1.fields| else 1) + ExpectedEntryCount(fields[1..])
  }

  lemma {:induction false} FlattenResourcesCountAndKeys(fields: seq<(string, Json)>)
    ensures |FlattenResources(fields)| == ExpectedEntryCount(fields)
    ensures forall e :: e in FlattenResources(fields) ==> HasKey(fields, e.resourceType)
  {
    if |fields| > 0 {
      FlattenResourcesCountAndKeys(fields[1..]);
      forall e | e in FlattenResources(fields)
        ensures HasKey(fields, e.resourceType)
      {
        if e in EntriesOf(fields[0].0, fields[0].1) {
          assert fields[0].0 == e.resourceType;
        } else {
          assert e in FlattenResources(fields[1..]);
          var i :| 0 <= i < |fields[1..]| && fields[1..][i].0 == e.resourceType;
          assert fields[i + 1].0 == e.resourceType;
        }
      }
    }
  }

  /** `resources`: empty for a falsy value, otherwise the dict's items. */
  function ParseResources(raw: Json): (r: Result<seq<ResourceEntry>>)
    ensures !Truthy(raw) ==> r == Ok([])
    ensures Truthy(raw) ==> (r.Ok? <==> raw.JObj?)
    ensures r.Ok? && raw.JObj? ==> |r.value| == ExpectedEntryCount(raw.fields)
    ensures r.Ok? ==> forall e :: e in r.value ==> raw.JObj? && HasKey(raw.fields, e.resourceType)
  {
    if !Truthy(raw) then Ok([])
    else if !raw.JObj? then Err(AttributeError)
    else
      FlattenResourcesCountAndKeys(raw.fields);
      Ok(FlattenResources(raw.fields))
  }

  // ---------------------------------------------------------------------
  // The whole agent

  /** `agent.get('versions', {}).get('latest', {}).get('definition', {})`. */
  function Definition(agent: Json): Result<Json>
    requires agent.JObj?
  {
    var versions := Lookup(agent.fields, "versions", EmptyObject);
    var latest :- DictGet(versions, "latest", EmptyObject);
    DictGet(latest, "definition", EmptyObject)
  }

  /** `definition.get("tools") or agent.get("tools", [])`. */
  function RawTools(agent: Json, definition: Json): Json
    requires agent.JObj? && definition.JObj?
  {
    Or(Lookup(definition.fields, "tools", JNull), Lookup(agent.fields, "tools", JArr([])))
  }

  /** `definition.get("tool_resources") or agent.get("resources", {})`. */
  function RawResources(agent: Json, definition: Json): Json
    requires agent.JObj? && definition.JObj?
  {
    Or(Lookup(definition.fields, "tool_resources", JNull), Lookup(agent.fields, "resources", EmptyObject))
  }

  function ParseAgent(agent: Json): (r: Result<AgentRecord>)
    ensures r.Ok? ==> agent.JObj? && Definition(agent).Ok? && Definition(agent).value.JObj?
    ensures r.Ok? ==> Truthy(r.value.model)
  {
    if !agent.JObj? then Err(AttributeError)
    else
      var definition :- Definition(agent);
      var name := Lookup(agent.fields, "name", DefaultName);
      var id := Lookup(agent.fields, "id", DefaultId);
      var defModel :- DictGet(definition, "model", JNull);
      var model := Or(defModel, Or(Lookup(agent.fields, "model", JNull), DefaultModel));
      var items :- Iterate(RawTools(agent, definition));
      var tools :- ParseTools(items, RawResources(agent, definition));
      var resources :- ParseResources(RawResources(agent, definition));
      Ok(AgentRecord(id, name, model, tools, resources))
  }

  /** The parsed record as the JSON object the API returns. */
  function ToolJson(t: ToolInfo): Json {
    JObj([("type", t.toolType)]
      + (if t.name.Some? then [("name", t.name.value)] else [])
      + (if t.connection.Some? then [("connection", t.connection.value)] else [])
      + (if t.resourceId.Some? then [("resource_id", JStr(t.resourceId.value))] else []))
  }

  function ResourceJson(e: ResourceEntry): Json {
    JObj([("type", JStr(e.resourceType)), ("detail", JStr(e.detail))])
  }

  function RecordJson(a: AgentRecord): (r: Json)
    ensures r.JObj? && |r.fields| == 5
    ensures forall k :: HasKey(r.fields, k) <==> k in {"id", "name", "model", "tools", "resources"}
    ensures r.fields[3].1.JArr? && |r.fields[3].1.items| == |a.tools|
  {
    var fs := [("id", a.id), ("name", a.name), ("model", a.model),
               ("tools", JArr(seq(|a.tools|, i requires 0 <= i < |a.tools| => ToolJson(a.tools[i])))),
               ("resources", JArr(seq(|a.resources|, i requires 0 <= i < |a.resources| => ResourceJson(a.resources[i]))))];
    assert forall k :: HasKey(fs, k) <==> k in {"id", "name", "model", "tools", "resources"} by {
      forall k ensures HasKey(fs, k) <==> k in {"id", "name", "model", "tools", "resources"} {
        if k == "id" { assert fs[0].0 == k; }
        if k == "name" { assert fs[1].0 == k; }
        if k == "model" { assert fs[2].0 == k; }
        if k == "tools" { assert fs[3].0 == k; }
        if k == "resources" { assert fs[4].0 == k; }
      }
    }
    JObj(fs)
  }
}

/** Properties of the agent normaliser. */
module AgentParserProperties {
  import opened Text
  import opened Optional
  import opened Json
  import opened AgentParser

  /** The connection `connection_id` yields, when it is present. */
  function IdConnection(t: seq<(string, Json)>): Option<Json>
    requires HasKey(t, "connection_id") ==> Lookup(t, "connection_id", JNull).JStr?
  {
    if HasKey(t, "connection_id") then Some(JStr(LastSegment(Lookup(t, "connection_id", JNull).s, '/')))
    else None
  }

  /** A tool type that is one of the index-backed search kinds. */
  predicate IsIndexType(tType: Json) {
    tType.JStr? && (Contains(tType.s, "azure_ai_search") || Contains(tType.s, "cognitive_search"))
  }

  /** The three connection steps of a successful tool parse, in order. */
  lemma ParseToolSteps(t: Json, rawResources: Json)
    requires ParseTool(t, rawResources).Ok?
    ensures t.JObj?
    ensures var f := t.fields;
      var tType := Lookup(f, "type", DefaultToolType);
      && (HasKey(f, "connection_id") ==> Lookup(f, "connection_id", JNull).JStr?)
      && ConnectionFromId(f) == Ok(IdConnection(f))
      && SpecificConnection(f, tType, rawResources, IdConnection(f)).Ok?
      && var specific := SpecificConnection(f, tType, rawResources, IdConnection(f)).value;
         && IndexConnection(f, tType, specific).Ok?
         && ParseTool(t, rawResources).value.connection == IndexConnection(f, tType, specific).value
  {
    var f := t.fields;
    var tType := Lookup(f, "type", DefaultToolType);
    assert ToolConnection(f, tType, rawResources).Ok?;
    ConnectionSteps(f, tType, rawResources);
  }

  /** The connection_id step, when it succeeds, is `IdConnection`. */
  lemma IdStep(f: seq<(string, Json)>)
    requires ConnectionFromId(f).Ok?
    ensures HasKey(f, "connection_id") ==> Lookup(f, "connection_id", JNull).JStr?
    ensures ConnectionFromId(f) == Ok(IdConnection(f))
  {
    if HasKey(f, "connection_id") {
      var cid := Lookup(f, "connection_id", JNull);
      assert SplitOf(cid, '/').Ok?;
      assert cid.JStr?;
      var parts := Split(cid.s, '/');
      assert SplitOf(cid, '/') == Ok(parts);
      assert ConnectionFromId(f) == Ok(Some(JStr(parts[|parts| - 1])));
    }
  }

  lemma ConnectionSteps(f: seq<(string, Json)>, tType: Json, rawResources: Json)
    requires ToolConnection(f, tType, rawResources).Ok?
    ensures HasKey(f, "connection_id") ==> Lookup(f, "connection_id", JNull).JStr?
    ensures ConnectionFromId(f) == Ok(IdConnection(f))
    ensures SpecificConnection(f, tType, rawResources, IdConnection(f)).Ok?
    ensures var specific := SpecificConnection(f, tType, rawResources, IdConnection(f)).value;
      ToolConnection(f, tType, rawResources) == IndexConnection(f, tType, specific)
  {
    assert ConnectionFromId(f).Ok?;
    IdStep(f);
  }

  /** MCP tools: the first present key among server_label,
      project_connection_id and server_url, else the connection_id segment. */
  lemma McpConnectionRule(t: Json, rawResources: Json)
    requires ParseTool(t, rawResources).Ok?
    requires t.JObj? && Lookup(t.fields, "type", DefaultToolType) == JStr("mcp")
    ensures HasKey(t.fields, "connection_id") ==> Lookup(t.fields, "connection_id", JNull).JStr?
    ensures var f := t.fields;
      var c := ParseTool(t, rawResources).value.connection;
      && (HasKey(f, "server_label") ==> c == Some(Lookup(f, "server_label", JNull)))
      && (!HasKey(f, "server_label") && HasKey(f, "project_connection_id") ==>
            c == Some(Lookup(f, "project_connection_id", JNull)))
      && (!HasKey(f, "server_label") && !HasKey(f, "project_connection_id") && HasKey(f, "server_url") ==>
            c == Some(Lookup(f, "server_url", JNull)))
      && (!HasKey(f, "server_label") && !HasKey(f, "project_connection_id") && !HasKey(f, "server_url") ==>
            c == IdConnection(f))
  {
    ParseToolSteps(t, rawResources);
    LongerNeverContained("mcp", "azure_ai_search");
    LongerNeverContained("mcp", "cognitive_search");
  }

  /** The file_search step on its own. */
  lemma FileSearchStep(rawResources: Json, current: Option<Json>)
    requires FileSearchConnection(rawResources, current).Ok?
    ensures rawResources.JObj?
    ensures var fs := Lookup(rawResources.fields, "file_search", EmptyObject);
      var c := FileSearchConnection(rawResources, current).value;
      && fs.JObj?
      && var ids := Lookup(fs.fields, "vector_store_ids", JArr([]));
         && (ids.JArr? && |ids.items| > 0 ==> c == Some(JStr("VS: " + PyStr(ids.items[0]))))
         && (!Truthy(ids) ==> c == current)
  {
  }

  /** file_search tools: "VS: " and the first vector store id when the
      agent's file_search resources list one, else the connection_id
      segment. */
  lemma FileSearchConnectionRule(t: Json, rawResources: Json)
    requires ParseTool(t, rawResources).Ok?
    requires t.JObj? && Lookup(t.fields, "type", DefaultToolType) == JStr("file_search")
    ensures HasKey(t.fields, "connection_id") ==> Lookup(t.fields, "connection_id", JNull).JStr?
    ensures rawResources.JObj?
    ensures var fs := Lookup(rawResources.fields, "file_search", EmptyObject);
      var c := ParseTool(t, rawResources).value.connection;
      && fs.JObj?
      && var ids := Lookup(fs.fields, "vector_store_ids", JArr([]));
         && (ids.JArr? && |ids.items| > 0 ==> c == Some(JStr("VS: " + PyStr(ids.items[0]))))
         && (!Truthy(ids) ==> c == IdConnection(t.fields))
  {
    ParseToolSteps(t, rawResources);
    var f := t.fields;
    var tType := JStr("file_search");
    var specific := SpecificConnection(f, tType, rawResources, IdConnection(f));
    assert specific == FileSearchConnection(rawResources, IdConnection(f));
    FileSearchStep(rawResources, IdConnection(f));
    LongerNeverContained("file_search", "azure_ai_search");
    LongerNeverContained("file_search", "cognitive_search");
    assert IndexConnection(f, tType, specific.value) == Ok(specific.value);
  }

  /** Memory and other search tools (a type naming "memory" or "search",
      other than mcp and file_search): the tool's own memory_store_name;
      else the memory_store_name of the resources stored under the tool's
      type, or of the memory_search resources when that entry is empty;
      else the connection_id segment. An index-backed type with an
      index_name is overridden instead (`IndexConnectionOverrides`). */
  lemma MemoryConnectionRule(t: Json, rawResources: Json)
    requires ParseTool(t, rawResources).Ok?
    requires t.JObj?
    requires var ty := Lookup(t.fields, "type", DefaultToolType);
      && ty.JStr? && ty.s != "mcp" && ty.s != "file_search"
      && (Contains(ty.s, "memory") || Contains(ty.s, "search"))
      && !(IsIndexType(ty) && HasKey(t.fields, "index_name"))
    ensures HasKey(t.fields, "connection_id") ==> Lookup(t.fields, "connection_id", JNull).JStr?
    ensures var f := t.fields;
      var c := ParseTool(t, rawResources).value.connection;
      && (HasKey(f, "memory_store_name") ==> c == Some(Lookup(f, "memory_store_name", JNull)))
      && (!HasKey(f, "memory_store_name") ==> rawResources.JObj?)
      && (!HasKey(f, "memory_store_name") && rawResources.JObj? ==>
            var found := Lookup(rawResources.fields, Lookup(f, "type", DefaultToolType).s, EmptyObject);
            var mem := if !Truthy(found) && HasKey(rawResources.fields, "memory_search")
                       then Lookup(rawResources.fields, "memory_search", JNull) else found;
            c == if mem.JObj? && HasKey(mem.fields, "memory_store_name")
                 then Some(Lookup(mem.fields, "memory_store_name", JNull)) else IdConnection(f))
  {
    ParseToolSteps(t, rawResources);
    var f := t.fields;
    var tType := Lookup(f, "type", DefaultToolType);
    var specific := SpecificConnection(f, tType, rawResources, IdConnection(f));
    assert specific == MemoryConnection(f, tType, rawResources, IdConnection(f));
    assert IndexConnection(f, tType, specific.value) == Ok(specific.value);
  }

  /** An index-backed search tool with an index_name always shows
      "Index: " and that name, whatever the earlier steps chose. */
  lemma IndexConnectionOverrides(t: Json, rawResources: Json)
    requires ParseTool(t, rawResources).Ok?
    requires t.JObj? && IsIndexType(Lookup(t.fields, "type", DefaultToolType)) && HasKey(t.fields, "index_name")
    ensures ParseTool(t, rawResources).value.connection ==
              Some(JStr("Index: " + PyStr(Lookup(t.fields, "index_name", JNull))))
  {
    ParseToolSteps(t, rawResources);
  }

  /** Where "search" sits inside the tool types that contain it. */
  lemma SearchInsideToolTypes()
    ensures OccursAt("file_search", "search", 5)
    ensures OccursAt("azure_ai_search", "search", 9)
    ensures OccursAt("cognitive_search", "search", 10)
  {
  }

  /** The type-specific chain leaves the connection alone for any other
      string type. */
  lemma SpecificKeepsPlain(f: seq<(string, Json)>, tType: Json, rawResources: Json, current: Option<Json>)
    requires tType.JStr? && tType != JStr("mcp") && tType != JStr("file_search")
    requires !Contains(tType.s, "memory") && !Contains(tType.s, "search")
    ensures SpecificConnection(f, tType, rawResources, current) == Ok(current)
  {
    assert In("memory", tType) == Ok(false);
    assert In("search", tType) == Ok(false);
  }

  /** The index rule leaves the connection alone for any other string type. */
  lemma IndexKeepsPlain(f: seq<(string, Json)>, tType: Json, current: Option<Json>)
    requires tType.JStr? && !IsIndexType(tType)
    ensures IndexConnection(f, tType, current) == Ok(current)
  {
    assert In("azure_ai_search", tType) == Ok(false);
    assert In("cognitive_search", tType) == Ok(false);
  }

  /** A string type that mentions none of mcp, memory or search keeps the
      last segment of connection_id (or no connection). */
  lemma PlainToolKeepsIdConnection(t: Json, rawResources: Json)
    requires ParseTool(t, rawResources).Ok?
    requires t.JObj?
    requires var tType := Lookup(t.fields, "type", DefaultToolType);
      tType.JStr? && tType != JStr("mcp") && !Contains(tType.s, "memory") && !Contains(tType.s, "search")
    ensures HasKey(t.fields, "connection_id") ==> Lookup(t.fields, "connection_id", JNull).JStr?
    ensures ParseTool(t, rawResources).value.connection == IdConnection(t.fields)
  {
    ParseToolSteps(t, rawResources);
    var f := t.fields;
    var tType := Lookup(f, "type", DefaultToolType);
    SearchInsideToolTypes();
    NotContainedInLonger(tType.s, "search", "azure_ai_search", 9);
    NotContainedInLonger(tType.s, "search", "cognitive_search", 10);
    if tType == JStr("file_search") {
      OccurrenceGivesContains("file_search", "search", 5);
      assert false;
    }
    SpecificKeepsPlain(f, tType, rawResources, IdConnection(f));
    IndexKeepsPlain(f, tType, IdConnection(f));
  }

  /** If `sub` is absent from `s`, so is any string that has `sub` inside it. */
  lemma NotContainedInLonger(s: string, sub: string, big: string, at: nat)
    requires OccursAt(big, sub, at)
    requires !Contains(s, sub)
    ensures !Contains(s, big)
  {
    if Contains(s, big) {
      ContainsGivesOccurrence(s, big);
      var i :| OccursAt(s, big, i);
      OccursWithin(s, big, sub, i, at);
      OccurrenceGivesContains(s, sub, i + at);
    }
  }

  /** An occurrence inside an occurrence. */
  lemma OccursWithin(s: string, big: string, sub: string, i: nat, at: nat)
    requires OccursAt(s, big, i) && OccursAt(big, sub, at)
    ensures OccursAt(s, sub, i + at)
  {
    forall k | 0 <= k < |sub|
      ensures s[i + at + k] == sub[k]
    {
      assert sub[k] == big[at + k];
      assert big[at + k] == s[i..i + |big|][at + k];
    }
  }

  /** Field precedence of the normalised record: model from the latest
      definition, then the agent, then "Unknown Model" (falsy values fall
      through); name and id take their defaults only when the key is absent;
      tools come one per raw tool, in order, from the definition's tools or
      else the agent's. */
  lemma ParseAgentFields(agent: Json)
    requires ParseAgent(agent).Ok?
    ensures agent.JObj? && Definition(agent).Ok? && Definition(agent).value.JObj?
    ensures var a := agent.fields;
      var d := Definition(agent).value.fields;
      var r := ParseAgent(agent).value;
      && (HasKey(a, "name") ==> exists i :: 0 <= i < |a| && a[i] == ("name", r.name))
      && (!HasKey(a, "name") ==> r.name == JStr("Unknown Agent"))
      && (HasKey(a, "id") ==> exists i :: 0 <= i < |a| && a[i] == ("id", r.id))
      && (!HasKey(a, "id") ==> r.id == JStr("unknown"))
      && (Truthy(Lookup(d, "model", JNull)) ==> r.model == Lookup(d, "model", JNull))
      && (!Truthy(Lookup(d, "model", JNull)) && Truthy(Lookup(a, "model", JNull)) ==>
            r.model == Lookup(a, "model", JNull))
      && (!Truthy(Lookup(d, "model", JNull)) && !Truthy(Lookup(a, "model", JNull)) ==>
            r.model == JStr("Unknown Model"))
      && (Truthy(Lookup(d, "tools", JNull)) ==> RawTools(agent, Definition(agent).value) == Lookup(d, "tools", JNull))
      && (!Truthy(Lookup(d, "tools", JNull)) ==>
            RawTools(agent, Definition(agent).value) == Lookup(a, "tools", JArr([])))
      && var items := Iterate(RawTools(agent, Definition(agent).value));
         && items.Ok?
         && |r.tools| == |items.value|
         && (forall i :: 0 <= i < |r.tools| ==>
               items.value[i].JObj? && r.tools[i].toolType == Lookup(items.value[i].fields, "type", JStr("unknown")))
  {
    var definition := Definition(agent).value;
    var items := Iterate(RawTools(agent, definition)).value;
    var tools := ParseTools(items, RawResources(agent, definition));
    assert tools.Ok?;
    forall i | 0 <= i < |items|
      ensures items[i].JObj? && tools.value[i].toolType == Lookup(items[i].fields, "type", JStr("unknown"))
    {
      assert ParseTool(items[i], RawResources(agent, definition)) == Ok(tools.value[i]);
    }
  }

  /** The shape of agent document the service is expected to return. */
  predicate WellFormedTool(t: Json, rawResources: Json) {
    && t.JObj?
    && rawResources.JObj?
    && Lookup(t.fields, "type", DefaultToolType).JStr?
    && (HasKey(t.fields, "connection_id") ==> Lookup(t.fields, "connection_id", JNull).JStr?)
    && var fs := Lookup(rawResources.fields, "file_search", EmptyObject);
       && fs.JObj?
       && Lookup(fs.fields, "vector_store_ids", JArr([])).JArr?
  }

  predicate WellFormedAgent(agent: Json) {
    && agent.JObj?
    && Definition(agent).Ok?
    && Definition(agent).value.JObj?
    && var definition := Definition(agent).value;
       && RawTools(agent, definition).JArr?
       && (RawResources(agent, definition).JObj? || !Truthy(RawResources(agent, definition)))
       && forall t :: t in RawTools(agent, definition).items ==> WellFormedTool(t, RawResources(agent, definition))
  }

  lemma WellFormedToolParses(t: Json, rawResources: Json)
    requires WellFormedTool(t, rawResources)
    ensures ParseTool(t, rawResources).Ok?
  {
    var f := t.fields;
    var tType := Lookup(f, "type", DefaultToolType);
    if HasKey(f, "connection_id") {
      assert SplitOf(Lookup(f, "connection_id", JNull), '/').Ok?;
    }
    var fromId := ConnectionFromId(f);
    assert fromId.Ok?;
    SpecificParses(f, tType, rawResources, fromId.value);
    var specific := SpecificConnection(f, tType, rawResources, fromId.value);
    assert IndexConnection(f, tType, specific.value).Ok?;
    assert ToolConnection(f, tType, rawResources).Ok?;
  }

  /** The type-specific chain cannot raise on a string type and well-formed
      resources. */
  lemma SpecificParses(f: seq<(string, Json)>, tType: Json, rawResources: Json, current: Option<Json>)
    requires tType.JStr? && rawResources.JObj?
    requires var fs := Lookup(rawResources.fields, "file_search", EmptyObject);
      fs.JObj? && Lookup(fs.fields, "vector_store_ids", JArr([])).JArr?
    ensures SpecificConnection(f, tType, rawResources, current).Ok?
  {
    assert FileSearchConnection(rawResources, current).Ok?;
    assert MemoryConnection(f, tType, rawResources, current).Ok?;
  }

  /** A well-formed agent document never makes the normaliser raise. */
  lemma {:induction false} WellFormedAgentParses(agent: Json)
    requires WellFormedAgent(agent)
    ensures ParseAgent(agent).Ok?
  {
    var definition := Definition(agent).value;
    var items := RawTools(agent, definition).items;
    var rr := RawResources(agent, definition);
    forall i | 0 <= i < |items|
      ensures ParseTool(items[i], rr).Ok?
    {
      assert items[i] in items;
      WellFormedToolParses(items[i], rr);
    }
    assert ParseTools(items, rr).Ok?;
  }
}

=== FILE: agents_api.dfy ===
/** The pure parts of `get_agents` in src/backend/foundry_client.py (the
    agents URL, the access count, assembling the parsed agents), and the
    leading-slash handling of a project id on its way from the browser
    (src/frontend/static/js/graph.js) to the access endpoint
    (src/backend/api.py). */
module AgentsApi {
  import opened Text
  import opened Optional
  import opened Json
  import opened AgentParser
  import opened Seqs

  const AgentsSuffix := "/agents"

  /** The agents list URL. Both branches of the source build the same
      string: the endpoint without trailing slashes, then `/agents`. */
  function AgentsUrl(endpoint: string): (url: string)
    ensures |url| >= |AgentsSuffix| && url[|url| - |AgentsSuffix|..] == AgentsSuffix
    ensures var base := url[..|url| - |AgentsSuffix|];
      && base <= endpoint
      && (|base| == 0 || base[|base| - 1] != '/')
      && forall i :: |base| <= i < |endpoint| ==> endpoint[i] == '/'
  {
    if Contains(endpoint, "/api/projects/") then StripTrailing(endpoint, '/') + AgentsSuffix
    else StripTrailing(endpoint, '/') + AgentsSuffix
  }

  /** The principal of one role assignment,
      `r["properties"]["principalId"]`; lists and dicts cannot be put in a
      set. */
  function PrincipalOf(assignment: Json): (r: Result<Json>)
    ensures r.Ok? <==>
      && assignment.JObj? && HasKey(assignment.fields, "properties")
      && var props := Lookup(assignment.fields, "properties", JNull);
         && props.JObj? && HasKey(props.fields, "principalId")
         && var p := Lookup(props.fields, "principalId", JNull); !p.JArr? && !p.JObj?
    ensures r.Ok? ==> r.value == Lookup(Lookup(assignment.fields, "properties", JNull).fields, "principalId", JNull)
  {
    var props :- Subscript(assignment, "properties");
    var principal :- Subscript(props, "principalId");
    if principal.JArr? || principal.JObj? then Err(TypeError) else Ok(principal)
  }

  function Principals(assignments: seq<Json>): (r: Result<seq<Json>>)
    ensures r.Ok? <==> forall i :: 0 <= i < |assignments| ==> PrincipalOf(assignments[i]).Ok?
    ensures r.Ok? ==> |r.value| == |assignments|
    ensures r.Ok? ==> forall i :: 0 <= i < |assignments| ==> PrincipalOf(assignments[i]) == Ok(r.value[i])
  {
    if |assignments| == 0 then Ok([])
    else
      var p :- PrincipalOf(assignments[0]);
      var rest :- Principals(assignments[1..]);
      assert forall i :: 1 <= i < |assignments| ==> assignments[i] == assignments[1..][i - 1];
      Ok([p] + rest)
  }

  /** The value a Python set compares a principal by: `True == 1` and
      `False == 0`, so booleans meet the integers. */
  function PyKey(j: Json): Json {
    if j.JBool? then JNum(if j.b then 1 else 0) else j
  }

  function PyKeys(ps: seq<Json>): (ks: seq<Json>)
    ensures |ks| == |ps| && forall i :: 0 <= i < |ps| ==> ks[i] == PyKey(ps[i])
  {
    seq(|ps|, i requires 0 <= i < |ps| => PyKey(ps[i]))
  }

  /** `len(set(...))` of the principals: the number of distinct principals
      in Python's sense, so at most one per assignment, and exactly one per
      assignment when no two principals are equal. */
  function AccessCount(assignments: seq<Json>): (r: Result<nat>)
    ensures r.Ok? <==> forall i :: 0 <= i < |assignments| ==> PrincipalOf(assignments[i]).Ok?
    ensures r.Ok? ==> (Principals(assignments).Ok?
      && r.value == FirstOccurrences(PyKeys(Principals(assignments).value)))
    ensures r.Ok? ==> r.value <= |assignments|
    ensures r.Ok? ==> (r.value == |assignments| <==> PairwiseDistinct(PyKeys(Principals(assignments).value)))
  {
    var ps :- Principals(assignments);
    var ks := PyKeys(ps);
    DistinctCountBound(ks);
    DistinctCountIsFirstOccurrences(ks);
    Ok(|set k | k in ks|)
  }

  /** An agent as `get_agents` returns it. */
  datatype ListedAgent = ListedAgent(record: AgentRecord, accessCount: nat, projectId: Option<string>)

  /** `data.get("value") or data.get("data") or []`: the first truthy of
      the two fields, else an empty list. */
  function ListedItems(data: Json): (r: Result<Json>)
    ensures r.Ok? <==> data.JObj?
    ensures r.Ok? ==> var value := Lookup(data.fields, "value", JNull);
      var alt := Lookup(data.fields, "data", JNull);
      && (Truthy(value) ==> r.value == value)
      && (!Truthy(value) && Truthy(alt) ==> r.value == alt)
      && (!Truthy(value) && !Truthy(alt) ==> r.value == JArr([]))
  {
    if !data.JObj? then Err(AttributeError)
    else
      var value := Lookup(data.fields, "value", JNull);
      var alt := Lookup(data.fields, "data", JNull);
      OrAssociative(value, alt, JArr([]));
      Ok(Or(value, Or(alt, JArr([]))))
  }

  /** The items `for item in items` visits. */
  function ListingItems(data: Json): Result<seq<Json>> {
    var items :- ListedItems(data);
    Iterate(items)
  }

  /** The document each listed item is parsed from: the agent's details
      when they were fetched and are truthy, else the list item itself. */
  function FullAgent(item: Json, details: map<Json, Json>): (r: Result<Json>)
    ensures r.Ok? <==> item.JObj?
    ensures r.Ok? ==> r.value == item || (r.value in details.Values && Truthy(r.value))
    ensures r.Ok? && r.value != item ==> Truthy(Lookup(item.fields, "id", JNull))
  {
    var id :- DictGet(item, "id", JNull);
    if Truthy(id) && id in details && Truthy(details[id]) then Ok(details[id]) else Ok(item)
  }

  /** One loop iteration: pick the document, then parse it. */
  function ItemResult(item: Json, details: map<Json, Json>): Result<AgentRecord> {
    var full :- FullAgent(item, details);
    ParseAgent(full)
  }

  /** One listed item goes through: it is a dict and its document parses. */
  predicate ItemParses(item: Json, details: map<Json, Json>) {
    ItemResult(item, details).Ok?
  }

  function ItemRecord(item: Json, details: map<Json, Json>): AgentRecord
    requires ItemParses(item, details)
  {
    ItemResult(item, details).value
  }

  /** The loop, over the outcome of each iteration: stops at the first
      exception, else one agent per item with the access count and
      project id. */
  function Collect(results: seq<Result<AgentRecord>>, count: nat, projectId: Option<string>)
    : (r: Result<seq<ListedAgent>>)
    ensures r.Ok? <==> forall i :: 0 <= i < |results| ==> results[i].Ok?
    ensures r.Ok? ==> |r.value| == |results|
    ensures r.Ok? ==> forall i :: 0 <= i < |results| ==>
      r.value[i] == ListedAgent(results[i].value, count, projectId)
  {
    if |results| == 0 then Ok([])
    else
      var record :- results[0];
      var rest :- Collect(results[1..], count, projectId);
      assert forall i :: 1 <= i < |results| ==> results[i] == results[1..][i - 1];
      Ok([ListedAgent(record, count, projectId)] + rest)
  }

  /** The loop over the items: one agent per item, in order, each with the
      access count and project id; any item that raises fails the whole
      loop. */
  function ParseListed(items: seq<Json>, details: map<Json, Json>, count: nat,
                       projectId: Option<string>): (r: Result<seq<ListedAgent>>)
    ensures r.Ok? <==> forall i :: 0 <= i < |items| ==> ItemParses(items[i], details)
    ensures r.Ok? ==> |r.value| == |items|
    ensures r.Ok? ==> forall i :: 0 <= i < |items| ==>
      r.value[i] == ListedAgent(ItemRecord(items[i], details), count, projectId)
  {
    var results := seq(|items|, i requires 0 <= i < |items| => ItemResult(items[i], details));
    assert forall i :: 0 <= i < |items| ==> results[i] == ItemResult(items[i], details);
    Collect(results, count, projectId)
  }

  /** The access count `get_agents` attaches: the unique principals when a
      project id is given, else 0. */
  function CountFor(projectId: Option<string>, roleAssignments: seq<Json>): Result<nat> {
    if projectId.Some? && projectId.value != "" then AccessCount(roleAssignments) else Ok(0)
  }

  /** `get_agents`. The URL it requests is `AgentsUrl`; `roleAssignments`
      is what the role-assignment request returned (its own failures
      already turned into `[]`); `listing` is the decoded agents response,
      `None` when the token, the request or the status check failed;
      `details` holds the per-agent detail responses that came back with
      status 200. An exception while counting access escapes (`Err`); any
      exception inside the listing `try` yields `[]`. */
  function GetAgents(projectId: Option<string>, roleAssignments: seq<Json>,
                     listing: Option<Json>, details: map<Json, Json>): (r: Result<seq<ListedAgent>>)
    ensures r.Ok? <==> CountFor(projectId, roleAssignments).Ok?
    ensures projectId.Some? && projectId.value != "" && AccessCount(roleAssignments).Err? ==> r.Err?
    ensures r.Ok? ==> forall a :: a in r.value ==>
      && a.projectId == projectId
      && (projectId.Some? && projectId.value != "" ==> a.accessCount == AccessCount(roleAssignments).value)
      && (projectId.None? || projectId.value == "" ==> a.accessCount == 0)
    ensures r.Ok? && listing.Some? && ListingItems(listing.value).Ok?
            && (forall i :: 0 <= i < |ListingItems(listing.value).value| ==>
                  ItemParses(ListingItems(listing.value).value[i], details))
            ==> var items := ListingItems(listing.value).value;
                && |r.value| == |items|
                && forall i :: 0 <= i < |items| ==> r.value[i].record == ItemRecord(items[i], details)
    ensures r.Ok? && r.value != [] ==>
      && listing.Some? && ListingItems(listing.value).Ok?
      && forall i :: 0 <= i < |ListingItems(listing.value).value| ==>
           ItemParses(ListingItems(listing.value).value[i], details)
  {
    var count :- CountFor(projectId, roleAssignments);
    if listing.None? then Ok([])
    else
      var parsed :=
        var items :- ListingItems(listing.value);
        ParseListed(items, details, count, projectId);
      Ok(if parsed.Ok? then parsed.value else [])
  }
}

/** Composition of the backend steps. */
module AgentsApiProperties {
  import opened Optional
  import opened Json
  import opened AgentParser
  import opened AgentParserProperties
  import opened AgentsApi

  /** When the listing is a list under `value` and every document it
      leads to is well formed, `get_agents` returns one parsed agent per
      listed item, in order. */
  lemma WellFormedListingParses(projectId: Option<string>, roleAssignments: seq<Json>,
                                listing: Json, details: map<Json, Json>)
    requires CountFor(projectId, roleAssignments).Ok?
    requires ListingItems(listing).Ok?
    requires forall i :: 0 <= i < |ListingItems(listing).value| ==>
      var item := ListingItems(listing).value[i];
      FullAgent(item, details).Ok? && WellFormedAgent(FullAgent(item, details).value)
    ensures var r := GetAgents(projectId, roleAssignments, Some(listing), details);
      var items := ListingItems(listing).value;
      && r.Ok? && |r.value| == |items|
      && forall i :: 0 <= i < |items| ==> r.value[i].record == ItemRecord(items[i], details)
  {
    var items := ListingItems(listing).value;
    forall i | 0 <= i < |items|
      ensures ItemParses(items[i], details)
    {
      WellFormedAgentParses(FullAgent(items[i], details).value);
    }
  }
}

/** The project id on its way to the access endpoint: the browser strips
    one leading `/` (graph.js) and the API puts one back when missing
    (api.py). */
module AccessPath {

  function StripOneLeadingSlash(id: string): (r: string)
    ensures |id| > 0 && id[0] == '/' ==> id == "/" + r
    ensures (|id| == 0 || id[0] != '/') ==> r == id
  {
    if |id| > 0 && id[0] == '/' then id[1..] else id
  }

  function EnsureLeadingSlash(id: string): (r: string)
    ensures |r| > 0 && r[0] == '/'
    ensures |id| > 0 && id[0] == '/' ==> r == id
    ensures (|id| == 0 || id[0] != '/') ==> r == "/" + id
  {
    if |id| > 0 && id[0] == '/' then id else "/" + id
  }

  /** The API always receives an id with exactly the browser's id when
      that id starts with one `/` and no second one; an id starting with
      `//` loses one slash, and an id without a slash gains one. */
  lemma ResourceIdRoundTrip(id: string)
    ensures EnsureLeadingSlash(StripOneLeadingSlash(id)) == id
            <==> (|id| > 0 && id[0] == '/' && !(|id| > 1 && id[1] == '/'))
    ensures |id| > 1 && id[0] == '/' && id[1] == '/' ==> EnsureLeadingSlash(StripOneLeadingSlash(id)) == id[1..]
    ensures (|id| == 0 || id[0] != '/') ==> EnsureLeadingSlash(StripOneLeadingSlash(id)) == "/" + id
  {
    var r := EnsureLeadingSlash(StripOneLeadingSlash(id));
    if |id| > 0 && id[0] == '/' && !(|id| > 1 && id[1] == '/') {
      assert r == "/" + id[1..];
      assert id == [id[0]] + id[1..];
    }
  }
}

=== FILE: dashboard.dfy ===
/** The page state of src/frontend/static/js/graph.js and what it shows:
    `loadAllData` fills the agent list and the resource cache, the filter
    inputs set the criteria, and the KPIs, charts, table and graph are
    functions of that state. */
module Dashboard {
  import opened Optional
  import opened Records
  import opened Filter
  import opened FilterProperties
  import opened GraphBuilder
  import opened GraphProperties
  import opened Histogram
  import opened Metrics
  import opened Fanout
  import Loading

  /** What one subscription's branch of `loadAllData` met: the resources
      request threw, answered with an error status, or returned a snapshot,
      after which every project got a response and each chunk's responses
      settled in the order given. */
  datatype SubResult =
    | ResourcesThrew
    | ResourcesNotOk
    | Resources(id: string, snapshot: Snapshot, responses: seq<Response>, completion: seq<seq<nat>>)

  /** The responses of a subscription line up with its projects and each
      chunk's completion order lists that chunk's positions. */
  predicate Consistent(r: SubResult) {
    r.Resources? ==>
      var ps := ProjectsOf(r.snapshot);
      && |r.responses| == |ps|
      && |r.completion| == |Chunks(ps)|
      && forall k :: 0 <= k < |r.completion| ==> CompletesChunk(r.completion[k], k, |ps|)
  }

  predicate AllConsistent(results: seq<SubResult>) {
    forall r :: r in results ==> Consistent(r)
  }

  /** Every chunk of the subscription settled in request order. */
  predicate InRequestOrder(r: SubResult) {
    r.Resources? ==>
      forall k :: 0 <= k < |r.completion| ==> r.completion[k] == ChunkRange(k, |ProjectsOf(r.snapshot)|)
  }

  /** The subscriptions request failed (`SubscriptionsFailed`), or listed
      subscriptions whose branches ended as given, in list order. */
  datatype Outcome = SubscriptionsFailed | Subscriptions(results: seq<SubResult>)

  datatype State = State(agents: seq<Agent>, cache: Cache, loading: Loading.State, criteria: Criteria)

  const Initial := State([], [], Loading.Idle, NoCriteria)

  /** The agents a subscription contributes: none when its resources
      request failed. */
  function SubAgents(r: SubResult): seq<Agent>
    requires Consistent(r)
  {
    if r.Resources? then Contributions(ProjectsOf(r.snapshot), r.responses) else []
  }

  /** `agentsArrays.flat()` when every chunk settles in request order. */
  function Loaded(results: seq<SubResult>): seq<Agent>
    requires AllConsistent(results)
  {
    if |results| == 0 then []
    else
      assert forall r :: r in results[..|results| - 1] ==> r in results;
      Loaded(results[..|results| - 1]) + SubAgents(results[|results| - 1])
  }

  /** The subscriptions whose resources were cached. */
  function CachedIds(results: seq<SubResult>): set<string> {
    set r | r in results && r.Resources? :: r.id
  }

  /** The cache after every arrived snapshot was stored, in subscription
      order: each such subscription has an entry, and entries of other
      subscriptions are kept. */
  function CacheAfter(cache: Cache, results: seq<SubResult>): (r: Cache)
    ensures forall s :: s in results && s.Resources? ==> exists e :: e in r && e.0 == s.id
    ensures forall e :: e in cache && e.0 !in CachedIds(results) ==> e in r
  {
    if |results| == 0 then cache
    else
      var init, last := results[..|results| - 1], results[|results| - 1];
      assert results == init + [last];
      assert CachedIds(results) == CachedIds(init) + (if last.Resources? then {last.id} else {});
      var c := CacheAfter(cache, init);
      if last.Resources? then Put(c, last.id, last.snapshot) else c
  }

  /** The snapshot the last arrived result for `id` carried, if any. */
  function LastSnapshot(results: seq<SubResult>, id: string): Option<Snapshot> {
    if |results| == 0 then None
    else
      var last := results[|results| - 1];
      if last.Resources? && last.id == id then Some(last.snapshot)
      else LastSnapshot(results[..|results| - 1], id)
  }

  /** After `CacheAfter`, a subscription reads back as the last snapshot
      that arrived for it, or as before when none did; and the cache never
      holds a key twice. */
  lemma {:induction false} CacheAfterReadsBack(cache: Cache, results: seq<SubResult>)
    ensures forall id :: (Stored(CacheAfter(cache, results), id) ==
      if LastSnapshot(results, id).Some? then LastSnapshot(results, id) else Stored(cache, id))
    ensures UniqueKeys(cache) ==> UniqueKeys(CacheAfter(cache, results))
  {
    if |results| > 0 {
      var init, last := results[..|results| - 1], results[|results| - 1];
      CacheAfterReadsBack(cache, init);
      var c := CacheAfter(cache, init);
      if last.Resources? {
        PutReadsBack(c, last.id, last.snapshot);
        if UniqueKeys(cache) {
          PutKeepsKeysUnique(c, last.id, last.snapshot);
        }
      }
    }
  }

  /** One subscription's branch: cache the snapshot, then fetch its
      projects' agents. */
  method LoadSubscription(cache: Cache, r: SubResult) returns (cache': Cache, agents: seq<Agent>)
    requires Consistent(r)
    ensures multiset(agents) == multiset(SubAgents(r))
    ensures InRequestOrder(r) ==> agents == SubAgents(r)
    ensures !r.Resources? ==> cache' == cache && agents == []
    ensures r.Resources? ==> cache' == Put(cache, r.id, r.snapshot)
  {
    if r.Resources? {
      cache' := Put(cache, r.id, r.snapshot);
      var batches;
      agents, batches := FetchAgentsForProjects(ProjectsOf(r.snapshot), r.responses, r.completion);
    } else {
      cache', agents := cache, [];
    }
  }

  /** `loadAllData`. A failed subscriptions request leaves agents and cache
      as they were; otherwise the agent list is replaced by every
      subscription's agents, in subscription order, and every snapshot
      that arrived is cached. The loading counter goes up once and down
      once. */
  method LoadAll(d: State, outcome: Outcome) returns (r: State)
    requires outcome.Subscriptions? ==> AllConsistent(outcome.results)
    ensures r.loading == Loading.End(Loading.Start(d.loading))
    ensures r.criteria == d.criteria
    ensures outcome.SubscriptionsFailed? ==> r.agents == d.agents && r.cache == d.cache
    ensures outcome.Subscriptions? ==> multiset(r.agents) == multiset(Loaded(outcome.results))
    ensures outcome.Subscriptions? && (forall s :: s in outcome.results ==> InRequestOrder(s))
            ==> r.agents == Loaded(outcome.results)
    ensures outcome.Subscriptions? ==> r.cache == CacheAfter(d.cache, outcome.results)
    ensures outcome.Subscriptions? ==>
      forall s :: s in outcome.results && s.Resources? ==> exists e :: e in r.cache && e.0 == s.id
    ensures outcome.Subscriptions? ==>
      forall e :: e in d.cache && e.0 !in CachedIds(outcome.results) ==> e in r.cache
  {
    var loading := Loading.Start(d.loading);
    if outcome.SubscriptionsFailed? {
      return State(d.agents, d.cache, Loading.End(loading), d.criteria);
    }
    var results := outcome.results;
    var cache := d.cache;
    var agents: seq<Agent> := [];
    var t := 0;
    while t < |results|
      invariant 0 <= t <= |results|
      invariant AllConsistent(results[..t])
      invariant cache == CacheAfter(d.cache, results[..t])
      invariant multiset(agents) == multiset(Loaded(results[..t]))
      invariant (forall s :: s in results[..t] ==> InRequestOrder(s)) ==> agents == Loaded(results[..t])
      decreases |results| - t
    {
      var s := results[t];
      assert s in results;
      var cache', more := LoadSubscription(cache, s);
      assert results[..t + 1][..t] == results[..t];
      cache, agents := cache', agents + more;
      t := t + 1;
    }
    assert results[..t] == results;
    r := State(agents, cache, Loading.End(loading), d.criteria);
  }

  // ---------------------------------------------------------------------
  // Views

  datatype Kpis = Kpis(totalAgents: nat, activeModels: nat, totalProjects: nat, activeProjects: nat, emptyProjects: nat)

  /** The KPI cards and the utilization chart, over every loaded agent
      whatever the filter. */
  function KpisOf(d: State): (k: Kpis)
    ensures k.totalAgents == |d.agents|
    ensures k.activeModels <= ModelCount(d.agents) <= k.totalAgents
    ensures k.activeProjects + k.emptyProjects == k.totalProjects == |CachedProjects(d.cache)|
  {
    var active := ActiveEndpoints(d.cache, d.agents);
    Kpis(|d.agents|, ActiveModels(d.agents), TotalProjects(d.cache), |active|, EmptyProjects(d.cache, d.agents))
  }

  /** The filter's result: the agents the criteria keep, in load order,
      or `None` when a tool with neither name nor type makes the filter
      throw. */
  function Visible(d: State): (r: Option<seq<Agent>>)
    ensures r.Some? <==> AllLabelled(d.agents)
    ensures r.Some? ==> forall a :: a in r.value <==> a in d.agents && Matches(a, d.criteria)
    ensures r.Some? ==> IsSubsequence(r.value, d.agents)
  {
    if AllLabelled(d.agents) then FilterIsSubsequence(d.agents, d.criteria); Some(Apply(d.agents, d.criteria))
    else None
  }

  /** The graph elements of the visible agents, or `None` when the filter
      or the builder (a tool without a type) throws. Every edge joins
      nodes emitted before it. */
  function GraphOf(d: State): (r: Option<seq<Element>>)
    ensures r.Some? <==> Visible(d).Some? && AllTyped(Visible(d).value)
    ensures r.Some? ==> EdgesLinked(r.value) && ModelNodesFresh(r.value)
  {
    var v := Visible(d);
    if v.Some? && AllTyped(v.value) then BuildSound(v.value); Some(Build(v.value)) else None
  }

  /** The table rows. `applyGlobalFilters` draws the graph before the
      table, so when the filter or the builder throws the table is not
      redrawn (`None`); otherwise it lists exactly the matching agents, in
      load order, the same agents the graph shows. */
  function TableOf(d: State): (r: Option<seq<Agent>>)
    ensures r.Some? <==> GraphOf(d).Some?
    ensures r.Some? ==> forall a :: a in r.value <==> a in d.agents && Matches(a, d.criteria)
    ensures r.Some? ==> IsSubsequence(r.value, d.agents)
    ensures r.Some? ==> AllTyped(r.value) && GraphOf(d) == Some(Build(r.value))
  {
    if GraphOf(d).Some? then Visible(d) else None
  }

  /** Typing in a filter input: only the criteria change, so the KPIs and
      charts stay as they were. */
  function SetCriteria(d: State, c: Criteria): (r: State)
    ensures r.criteria == c && r.agents == d.agents && r.cache == d.cache && r.loading == d.loading
    ensures KpisOf(r) == KpisOf(d)
    ensures ModelHistogram(r.agents) == ModelHistogram(d.agents) && ToolHistogram(r.agents) == ToolHistogram(d.agents)
  {
    d.(criteria := c)
  }

  /** "Clear filters": every input emptied. */
  function ClearFilters(d: State): (r: State)
    ensures AllLabelled(d.agents) ==> Visible(r) == Some(d.agents)
    ensures AllLabelled(d.agents) && AllTyped(d.agents) ==> GraphOf(r) == Some(Build(d.agents))
    ensures AllLabelled(d.agents) && AllTyped(d.agents) ==> TableOf(r) == Some(d.agents)
    ensures r.agents == d.agents && r.cache == d.cache && KpisOf(r) == KpisOf(d)
  {
    if AllLabelled(d.agents) then EmptyCriteriaKeepAll(d.agents); SetCriteria(d, NoCriteria)
    else SetCriteria(d, NoCriteria)
  }

  /** Filtering twice with the same inputs shows the same rows. */
  lemma RefilterStable(d: State)
    requires Visible(d).Some?
    ensures Visible(d.(agents := Visible(d).value)) == Visible(d)
  {
    FilterIdempotent(d.agents, d.criteria);
  }
}

=== FILE: fanout.dfy ===
/** `fetchAgentsForProjects` (src/frontend/static/js/graph.js): the agents
    of every project, fetched five projects at a time. A chunk is sent only
    after every request of the previous chunk has settled; inside a chunk,
    agents are appended in the order their responses complete. */
module Fanout {
  import opened Optional
  import opened Records

  const ChunkSize: nat := 5

  /** Concatenation of a sequence of sequences, in order. */
  function Flatten<T>(xss: seq<seq<T>>): (r: seq<T>) {
    if |xss| == 0 then [] else Flatten(xss[..|xss| - 1]) + xss[|xss| - 1]
  }

  lemma {:induction false} FlattenAppend<T>(xss: seq<seq<T>>, yss: seq<seq<T>>)
    ensures Flatten(xss + yss) == Flatten(xss) + Flatten(yss)
    decreases |yss|
  {
    if |yss| > 0 {
      assert (xss + yss)[..|xss + yss| - 1] == xss + yss[..|yss| - 1];
      FlattenAppend(xss, yss[..|yss| - 1]);
    } else {
      assert xss + yss == xss;
    }
  }

  /** The slices `xs.slice(i, i + 5)` for `i = 0, 5, 10, …`: every chunk
      holds one to five elements. */
  function Chunks<T>(xs: seq<T>): (cs: seq<seq<T>>)
    ensures forall k :: 0 <= k < |cs| ==> 1 <= |cs[k]| <= ChunkSize
    decreases |xs|
  {
    if |xs| == 0 then []
    else if |xs| <= ChunkSize then [xs]
    else [xs[..ChunkSize]] + Chunks(xs[ChunkSize..])
  }

  /** Chunking loses nothing and reorders nothing. */
  lemma {:induction false} ChunksFlatten<T>(xs: seq<T>)
    ensures Flatten(Chunks(xs)) == xs
    decreases |xs|
  {
    if |xs| > ChunkSize {
      ChunksFlatten(xs[ChunkSize..]);
      FlattenAppend([xs[..ChunkSize]], Chunks(xs[ChunkSize..]));
      assert Flatten([xs[..ChunkSize]]) == xs[..ChunkSize] by {
        assert [xs[..ChunkSize]][..0] == [];
      }
      assert xs == xs[..ChunkSize] + xs[ChunkSize..];
    } else if |xs| > 0 {
      assert [xs][..0] == [];
    }
  }

  /** Only the last chunk may be short, and there are `ceil(n / 5)` chunks. */
  lemma {:induction false} ChunksShape<T>(xs: seq<T>)
    ensures forall k :: 0 <= k < |Chunks(xs)| - 1 ==> |Chunks(xs)[k]| == ChunkSize
    ensures |Chunks(xs)| == (|xs| + ChunkSize - 1) / ChunkSize
    decreases |xs|
  {
    if |xs| > ChunkSize {
      ChunksShape(xs[ChunkSize..]);
      var rest := Chunks(xs[ChunkSize..]);
      assert forall k :: 1 <= k < |Chunks(xs)| ==> Chunks(xs)[k] == rest[k - 1];
    }
  }

  /** What one project's request yields: it threw, came back with an error
      status, or listed agents. */
  datatype Response = Threw | NotOk | Listed(agents: seq<Agent>)

  /** `a.projectName = p.name; a.projectEndpoint = p.endpoint`. */
  function Decorate(a: Agent, p: Project): (r: Agent)
    ensures r.projectName == p.name && r.projectEndpoint == p.endpoint
    ensures r.(projectName := a.projectName, projectEndpoint := a.projectEndpoint) == a
  {
    a.(projectName := p.name, projectEndpoint := p.endpoint)
  }

  /** The agents one project adds: none when its request failed, else
      every listed agent in order, carrying the project's name and endpoint
      and otherwise as the backend sent it. */
  function Contribution(p: Project, resp: Response): (r: seq<Agent>)
    ensures !resp.Listed? ==> r == []
    ensures resp.Listed? ==> |r| == |resp.agents|
    ensures forall a :: a in r ==> a.projectName == p.name && a.projectEndpoint == p.endpoint
    ensures resp.Listed? ==> forall i :: 0 <= i < |r| ==>
      r[i].(projectName := resp.agents[i].projectName, projectEndpoint := resp.agents[i].projectEndpoint)
        == resp.agents[i]
  {
    if resp.Listed? then seq(|resp.agents|, i requires 0 <= i < |resp.agents| => Decorate(resp.agents[i], p))
    else []
  }

  /** The reference result: every project's agents, project by project,
      with no chunking. */
  function Contributions(projects: seq<Project>, responses: seq<Response>): (r: seq<Agent>)
    requires |responses| == |projects|
    ensures forall a :: a in r ==>
      exists j :: 0 <= j < |projects| && a in Contribution(projects[j], responses[j])
    ensures forall j, a :: 0 <= j < |projects| && a in Contribution(projects[j], responses[j]) ==> a in r
  {
    if |projects| == 0 then []
    else Contributions(projects[..|projects| - 1], responses[..|projects| - 1])
         + Contribution(projects[|projects| - 1], responses[|projects| - 1])
  }

  /** The agents of the project at position `j`; none past the end. */
  function Slot(projects: seq<Project>, responses: seq<Response>, j: nat): seq<Agent>
    requires |responses| == |projects|
  {
    if j < |projects| then Contribution(projects[j], responses[j]) else []
  }

  /** The agents of the projects at positions `order`, in that order. */
  function Fetched(projects: seq<Project>, responses: seq<Response>, order: seq<nat>): seq<Agent>
    requires |responses| == |projects|
  {
    if |order| == 0 then []
    else Fetched(projects, responses, order[..|order| - 1]) + Slot(projects, responses, order[|order| - 1])
  }

  /** The positions `lo, lo + 1, …, hi - 1`. */
  function Range(lo: nat, hi: nat): (r: seq<nat>)
    requires lo <= hi
    ensures |r| == hi - lo && forall i :: 0 <= i < |r| ==> r[i] == lo + i
    decreases hi - lo
  {
    if lo == hi then [] else Range(lo, hi - 1) + [hi - 1]
  }

  lemma RangeMembers(lo: nat, hi: nat, j: nat)
    requires lo <= hi
    ensures j in multiset(Range(lo, hi)) <==> lo <= j < hi
  {
    if lo <= j < hi {
      assert Range(lo, hi)[j - lo] == j;
    }
  }

  /** Visiting the next chunk's positions, in any order, extends a
      permutation of `0 .. i` to one of `0 .. hi`. */
  lemma VisitChunk(visited: seq<nat>, order: seq<nat>, i: nat, hi: nat)
    requires i <= hi
    requires multiset(visited) == multiset(Range(0, i)) && multiset(order) == multiset(Range(i, hi))
    ensures multiset(visited + order) == multiset(Range(0, hi))
    ensures visited == Range(0, i) && order == Range(i, hi) ==> visited + order == Range(0, hi)
  {
    RangeAppend(0, i, hi);
    assert multiset(visited + order) == multiset(visited) + multiset(order);
    assert multiset(Range(0, i) + Range(i, hi)) == multiset(Range(0, i)) + multiset(Range(i, hi));
  }

  lemma RangeAppend(lo: nat, mid: nat, hi: nat)
    requires lo <= mid <= hi
    ensures Range(lo, mid) + Range(mid, hi) == Range(lo, hi)
  {
  }

  /** The positions of the `k`-th chunk of `n` projects. */
  function ChunkRange(k: nat, n: nat): (r: seq<nat>) {
    var lo := if ChunkSize * k <= n then ChunkSize * k else n;
    var hi := if ChunkSize * k + ChunkSize <= n then ChunkSize * k + ChunkSize else n;
    Range(lo, hi)
  }

  /** `order` lists the positions of chunk `k`, each once, in the order
      their responses completed. */
  predicate CompletesChunk(order: seq<nat>, k: nat, n: nat) {
    multiset(order) == multiset(ChunkRange(k, n))
  }

  lemma {:induction false} FetchedAppend(projects: seq<Project>, responses: seq<Response>, xs: seq<nat>, ys: seq<nat>)
    requires |responses| == |projects|
    ensures Fetched(projects, responses, xs + ys) == Fetched(projects, responses, xs) + Fetched(projects, responses, ys)
    decreases |ys|
  {
    if |ys| > 0 {
      assert (xs + ys)[..|xs + ys| - 1] == xs + ys[..|ys| - 1];
      FetchedAppend(projects, responses, xs, ys[..|ys| - 1]);
      assert (xs + ys)[|xs + ys| - 1] == ys[|ys| - 1];
    } else {
      assert xs + ys == xs;
    }
  }

  /** Helper: where the last element of `xs` sits in a permutation of it. */
  lemma PositionOf(xs: seq<nat>, ys: seq<nat>) returns (p: nat)
    requires |xs| > 0 && multiset(xs) == multiset(ys)
    ensures p < |ys| && ys[p] == xs[|xs| - 1]
  {
    assert xs[|xs| - 1] in multiset(xs);
    assert xs[|xs| - 1] in ys;
    p :| 0 <= p < |ys| && ys[p] == xs[|xs| - 1];
  }

  /** Helper: removing the element at `p` from a permutation of `xs` leaves
      a permutation of `xs` without its last element. */
  lemma RemoveMatching(xs: seq<nat>, ys: seq<nat>, p: nat)
    requires |xs| > 0 && multiset(xs) == multiset(ys)
    requires p < |ys| && ys[p] == xs[|xs| - 1]
    ensures multiset(xs[..|xs| - 1]) == multiset(ys[..p] + ys[p + 1..])
  {
    var x := xs[|xs| - 1];
    assert xs == xs[..|xs| - 1] + [x];
    assert ys == ys[..p] + [x] + ys[p + 1..];
    assert multiset(xs[..|xs| - 1]) == multiset(xs) - multiset{x};
    assert multiset(ys[..p] + ys[p + 1..]) == multiset(ys) - multiset{x};
  }

  /** Helper: the agents of `x`, taken out of the middle. */
  lemma FetchedSplit(projects: seq<Project>, responses: seq<Response>, a: seq<nat>, x: nat, b: seq<nat>)
    requires |responses| == |projects|
    ensures multiset(Fetched(projects, responses, a + [x] + b))
         == multiset(Fetched(projects, responses, a + b)) + multiset(Fetched(projects, responses, [x]))
  {
    FetchedAppend(projects, responses, a + [x], b);
    FetchedAppend(projects, responses, a, [x]);
    FetchedAppend(projects, responses, a, b);
    var fa, fx, fb := Fetched(projects, responses, a), Fetched(projects, responses, [x]), Fetched(projects, responses, b);
    assert multiset(fa + fx + fb) == multiset(fa + fb) + multiset(fx);
  }

  /** Helper: the agents of position `p` of `ys`, taken out of the middle. */
  lemma FetchedMiddle(projects: seq<Project>, responses: seq<Response>, ys: seq<nat>, p: nat)
    requires |responses| == |projects| && p < |ys|
    ensures multiset(Fetched(projects, responses, ys))
         == multiset(Fetched(projects, responses, ys[..p] + ys[p + 1..])) + multiset(Fetched(projects, responses, [ys[p]]))
  {
    assert ys == ys[..p] + [ys[p]] + ys[p + 1..];
    FetchedSplit(projects, responses, ys[..p], ys[p], ys[p + 1..]);
  }

  /** Helper: the agents of the last position. */
  lemma FetchedLast(projects: seq<Project>, responses: seq<Response>, xs: seq<nat>)
    requires |responses| == |projects| && |xs| > 0
    ensures Fetched(projects, responses, xs)
         == Fetched(projects, responses, xs[..|xs| - 1]) + Fetched(projects, responses, [xs[|xs| - 1]])
  {
    var x := xs[|xs| - 1];
    assert Fetched(projects, responses, [x]) == Slot(projects, responses, x) by {
      assert [x][..0] == [];
    }
  }

  /** Completion order does not change which agents are collected. */
  lemma {:induction false} FetchedPermutation(projects: seq<Project>, responses: seq<Response>, xs: seq<nat>, ys: seq<nat>)
    requires |responses| == |projects|
    requires multiset(xs) == multiset(ys)
    ensures multiset(Fetched(projects, responses, xs)) == multiset(Fetched(projects, responses, ys))
    decreases |xs|
  {
    if |xs| > 0 {
      var p := PositionOf(xs, ys);
      RemoveMatching(xs, ys, p);
      FetchedPermutation(projects, responses, xs[..|xs| - 1], ys[..p] + ys[p + 1..]);
      FetchedMiddle(projects, responses, ys, p);
      FetchedLast(projects, responses, xs);
    } else {
      assert |multiset(ys)| == 0;
    }
  }

  /** Fetching the first `m` positions in order gives the reference result
      for the first `m` projects. */
  lemma {:induction false} FetchedInOrder(projects: seq<Project>, responses: seq<Response>, m: nat)
    requires |responses| == |projects| && m <= |projects|
    ensures Fetched(projects, responses, Range(0, m)) == Contributions(projects[..m], responses[..m])
  {
    if m > 0 {
      FetchedInOrder(projects, responses, m - 1);
      assert Range(0, m)[..m - 1] == Range(0, m - 1);
      assert projects[..m][..m - 1] == projects[..m - 1];
      assert responses[..m][..m - 1] == responses[..m - 1];
    }
  }

  /** Chunk `i / 5` of `xs` and the chunks after it. */
  lemma ChunksFrom<T>(xs: seq<T>, i: nat, hi: nat)
    requires i < |xs| && hi == (if i + ChunkSize <= |xs| then i + ChunkSize else |xs|)
    ensures Chunks(xs[i..]) == [xs[i..hi]] + Chunks(xs[hi..])
  {
    if |xs| - i > ChunkSize {
      assert xs[i..][..ChunkSize] == xs[i..hi];
      assert xs[i..][ChunkSize..] == xs[hi..];
    } else {
      assert xs[hi..] == [];
      assert xs[i..hi] == xs[i..];
    }
  }

  /** One chunk: each response that settles, in `order`, appends its
      project's agents. */
  method CollectChunk(projects: seq<Project>, responses: seq<Response>, order: seq<nat>, lo: nat, hi: nat)
    returns (added: seq<Agent>)
    requires |responses| == |projects| && lo <= hi <= |projects|
    requires multiset(order) == multiset(Range(lo, hi))
    ensures added == Fetched(projects, responses, order)
  {
    added := [];
    var t := 0;
    while t < |order|
      invariant 0 <= t <= |order|
      invariant added == Fetched(projects, responses, order[..t])
      decreases |order| - t
    {
      var j := order[t];
      assert j in multiset(order);
      RangeMembers(lo, hi, j);
      assert order[..t + 1][..t] == order[..t];
      added := added + Contribution(projects[j], responses[j]);
      t := t + 1;
    }
    assert order[..t] == order;
  }

  /** Helper: sending the chunk at `i` extends the batches sent so far. */
  lemma BatchStep(projects: seq<Project>, batches: seq<seq<Project>>, i: nat, hi: nat)
    requires i < |projects| && hi == (if i + ChunkSize <= |projects| then i + ChunkSize else |projects|)
    requires batches + Chunks(projects[i..]) == Chunks(projects)
    ensures (batches + [projects[i..hi]]) + Chunks(projects[hi..]) == Chunks(projects)
    ensures |batches| < |Chunks(projects)|
  {
    ChunksFrom(projects, i, hi);
  }

  /** Helper: the agents collected once every position was visited. */
  lemma AllVisited(projects: seq<Project>, responses: seq<Response>, visited: seq<nat>)
    requires |responses| == |projects|
    requires multiset(visited) == multiset(Range(0, |projects|))
    ensures multiset(Fetched(projects, responses, visited)) == multiset(Contributions(projects, responses))
    ensures visited == Range(0, |projects|) ==> Fetched(projects, responses, visited) == Contributions(projects, responses)
  {
    FetchedPermutation(projects, responses, visited, Range(0, |projects|));
    FetchedAll(projects, responses);
  }

  /** Helper: every position in order gives the reference result. */
  lemma FetchedAll(projects: seq<Project>, responses: seq<Response>)
    requires |responses| == |projects|
    ensures Fetched(projects, responses, Range(0, |projects|)) == Contributions(projects, responses)
  {
    var n := |projects|;
    FetchedInOrder(projects, responses, n);
    assert projects[..n] == projects && responses[..n] == responses;
  }

  /** The invariant of the chunk loop after `i` projects: the batches
      sent, the positions whose responses were collected, and what those
      positions are when every chunk so far completed in request order. */
  ghost predicate Progress(projects: seq<Project>, completion: seq<seq<nat>>, batches: seq<seq<Project>>,
                           visited: seq<nat>, i: nat)
  {
    && i <= |projects| && (i < |projects| ==> i == ChunkSize * |batches|)
    && batches + Chunks(projects[i..]) == Chunks(projects)
    && multiset(visited) == multiset(Range(0, i))
    && |batches| <= |completion|
    && ((forall k :: 0 <= k < |batches| ==> completion[k] == ChunkRange(k, |projects|)) ==> visited == Range(0, i))
  }

  /** Helper: one chunk keeps `Progress`. */
  lemma ProgressStep(projects: seq<Project>, completion: seq<seq<nat>>, batches: seq<seq<Project>>,
                     visited: seq<nat>, i: nat, hi: nat)
    requires |completion| == |Chunks(projects)|
    requires forall k :: 0 <= k < |completion| ==> CompletesChunk(completion[k], k, |projects|)
    requires Progress(projects, completion, batches, visited, i)
    requires i < |projects| && hi == (if i + ChunkSize <= |projects| then i + ChunkSize else |projects|)
    ensures |batches| < |completion|
    ensures multiset(completion[|batches|]) == multiset(Range(i, hi))
    ensures Progress(projects, completion, batches + [projects[i..hi]], visited + completion[|batches|], hi)
  {
    var k, n := |batches|, |projects|;
    BatchStep(projects, batches, i, hi);
    ChunkRangeAt(k, n, i, hi);
    VisitChunk(visited, completion[k], i, hi);
    InOrderStep(projects, completion, batches, visited, i, hi);
  }

  /** Helper: the positions of chunk `k` when it starts at `i`. */
  lemma ChunkRangeAt(k: nat, n: nat, i: nat, hi: nat)
    requires i < n && i == ChunkSize * k && hi == (if i + ChunkSize <= n then i + ChunkSize else n)
    ensures ChunkRange(k, n) == Range(i, hi)
  {
  }

  /** Helper: the in-order part of `Progress` after one more chunk. */
  lemma InOrderStep(projects: seq<Project>, completion: seq<seq<nat>>, batches: seq<seq<Project>>,
                    visited: seq<nat>, i: nat, hi: nat)
    requires |batches| < |completion| && i <= hi
    requires ChunkRange(|batches|, |projects|) == Range(i, hi)
    requires (forall k :: 0 <= k < |batches| ==> completion[k] == ChunkRange(k, |projects|)) ==> visited == Range(0, i)
    ensures (forall k :: 0 <= k < |batches| + 1 ==> completion[k] == ChunkRange(k, |projects|))
            ==> visited + completion[|batches|] == Range(0, hi)
  {
    if forall k :: 0 <= k < |batches| + 1 ==> completion[k] == ChunkRange(k, |projects|) {
      assert completion[|batches|] == Range(i, hi);
      RangeAppend(0, i, hi);
    }
  }

  /** The chunk loop. `completion[k]` is the order in which the responses
      of chunk `k` settled. The chunks sent are exactly the slices of five;
      the agents are those of the unchunked reference, and in the same
      order when every chunk completes in request order. */
  method FetchAgentsForProjects(projects: seq<Project>, responses: seq<Response>, completion: seq<seq<nat>>)
    returns (agents: seq<Agent>, batches: seq<seq<Project>>)
    requires |responses| == |projects|
    requires |completion| == |Chunks(projects)|
    requires forall k :: 0 <= k < |completion| ==> CompletesChunk(completion[k], k, |projects|)
    ensures batches == Chunks(projects)
    ensures forall k :: 0 <= k < |batches| ==> 1 <= |batches[k]| <= ChunkSize
    ensures multiset(agents) == multiset(Contributions(projects, responses))
    ensures (forall k :: 0 <= k < |completion| ==> completion[k] == ChunkRange(k, |projects|))
            ==> agents == Contributions(projects, responses)
  {
    var n := |projects|;
    ghost var visited: seq<nat> := [];
    agents, batches := [], [];
    var i := 0;
    while i < n
      invariant Progress(projects, completion, batches, visited, i)
      invariant agents == Fetched(projects, responses, visited)
      decreases n - i
    {
      var hi := if i + ChunkSize <= n then i + ChunkSize else n;
      ProgressStep(projects, completion, batches, visited, i, hi);
      var order := completion[|batches|];
      var added := CollectChunk(projects, responses, order, i, hi);
      FetchedAppend(projects, responses, visited, order);
      agents := agents + added;
      visited := visited + order;
      batches := batches + [projects[i..hi]];
      i := hi;
    }
    assert projects[n..] == [];
    AllVisited(projects, responses, visited);
  }
}

=== FILE: filter.dfy ===
/** The global filter of graph.js (`applyGlobalFilters`): four free-text
    criteria, each matched case-insensitively as a substring of one field
    of an agent, all of them required. */
module Filter {
  import opened Text
  import opened Optional
  import opened Records

  /** The four filter inputs as typed: project, agent, model and tool. */
  datatype Criteria = Criteria(project: string, agent: string, model: string, tool: string)

  const NoCriteria := Criteria("", "", "", "")

  /** The criteria after `toLowerCase()`. */
  function Lowered(c: Criteria): (q: Criteria)
    ensures (q.project == "") == (c.project == "") && (q.agent == "") == (c.agent == "")
    ensures (q.model == "") == (c.model == "") && (q.tool == "") == (c.tool == "")
  {
    Criteria(Lower(c.project), Lower(c.agent), Lower(c.model), Lower(c.tool))
  }

  /** The lowered display names of the tools, in order. */
  function ToolNames(tools: seq<Tool>): (names: seq<string>)
    requires forall t :: t in tools ==> Labelled(t)
    ensures |names| == |tools|
    ensures forall i :: 0 <= i < |tools| ==> names[i] == Lower(DisplayName(tools[i]))
  {
    seq(|tools|, i requires 0 <= i < |tools| => Lower(DisplayName(tools[i])))
  }

  /** The text the tool criterion is matched against: the lowered names
      joined with single spaces. */
  function ToolText(tools: seq<Tool>): string
    requires forall t :: t in tools ==> Labelled(t)
  {
    Join(ToolNames(tools), " ")
  }

  /** An empty criterion accepts everything; a non-empty one must occur. */
  predicate Accepts(field: string, criterion: string) {
    criterion == "" || Contains(field, criterion)
  }

  predicate Matches(a: Agent, c: Criteria)
    requires forall t :: t in a.tools ==> Labelled(t)
  {
    var q := Lowered(c);
    && Accepts(Lower(OrEmpty(a.projectName)), q.project)
    && Accepts(Lower(OrEmpty(a.name)), q.agent)
    && Accepts(Lower(OrEmpty(a.model)), q.model)
    && Accepts(ToolText(a.tools), q.tool)
  }

  /** `allLoadedAgents.filter(...)`. A tool with neither name nor type
      makes the source throw, so every tool must be labelled. */
  function Apply(agents: seq<Agent>, c: Criteria): (r: seq<Agent>)
    requires AllLabelled(agents)
    ensures |r| <= |agents|
    ensures forall a :: a in r <==> a in agents && Matches(a, c)
  {
    if |agents| == 0 then []
    else
      var rest := Apply(agents[1..], c);
      assert forall a :: a in agents[1..] ==> a in agents;
      if Matches(agents[0], c) then [agents[0]] + rest else rest
  }

  /** `idx` lists, in increasing order, the positions of `ys` that `xs`
      was taken from. */
  ghost predicate EmbedsAt(xs: seq<Agent>, ys: seq<Agent>, idx: seq<nat>) {
    && |idx| == |xs|
    && (forall i :: 0 <= i < |idx| ==> idx[i] < |ys| && xs[i] == ys[idx[i]])
    && (forall i, j :: 0 <= i < j < |idx| ==> idx[i] < idx[j])
  }

  ghost predicate IsSubsequence(xs: seq<Agent>, ys: seq<Agent>) {
    exists idx :: EmbedsAt(xs, ys, idx)
  }
}

module FilterProperties {
  import opened Text
  import opened Optional
  import opened Records
  import opened Filter

  function Shift(idx: seq<nat>): (r: seq<nat>)
    ensures |r| == |idx| && forall i :: 0 <= i < |idx| ==> r[i] == idx[i] + 1
  {
    seq(|idx|, i requires 0 <= i < |idx| => idx[i] + 1)
  }

  lemma ShiftEmbeds(xs: seq<Agent>, ys: seq<Agent>, idx: seq<nat>)
    requires |ys| > 0 && EmbedsAt(xs, ys[1..], idx)
    ensures EmbedsAt(xs, ys, Shift(idx))
    ensures EmbedsAt([ys[0]] + xs, ys, [0] + Shift(idx))
  {
    var r := Shift(idx);
    assert forall i :: 0 <= i < |idx| ==> ys[r[i]] == ys[1..][idx[i]];
    var r0 := [0] + r;
    forall i | 0 <= i < |r0|
      ensures r0[i] < |ys| && ([ys[0]] + xs)[i] == ys[r0[i]]
    {
      if i > 0 {
        assert r0[i] == r[i - 1];
      }
    }
  }

  /** The positions `Apply` keeps, in order. */
  ghost function KeptPositions(agents: seq<Agent>, c: Criteria): (idx: seq<nat>)
    requires AllLabelled(agents)
    ensures EmbedsAt(Apply(agents, c), agents, idx)
  {
    if |agents| == 0 then []
    else
      assert AllLabelled(agents[1..]) by {
        assert forall a :: a in agents[1..] ==> a in agents;
      }
      var tail := KeptPositions(agents[1..], c);
      ShiftEmbeds(Apply(agents[1..], c), agents, tail);
      if Matches(agents[0], c) then [0] + Shift(tail) else Shift(tail)
  }

  /** The result keeps the agents' relative order. */
  lemma FilterIsSubsequence(agents: seq<Agent>, c: Criteria)
    requires AllLabelled(agents)
    ensures IsSubsequence(Apply(agents, c), agents)
  {
    var idx := KeptPositions(agents, c);
  }

  /** Filtering distributes over concatenation. */
  lemma {:induction false} FilterConcat(xs: seq<Agent>, ys: seq<Agent>, c: Criteria)
    requires AllLabelled(xs) && AllLabelled(ys)
    ensures AllLabelled(xs + ys)
    ensures Apply(xs + ys, c) == Apply(xs, c) + Apply(ys, c)
  {
    assert forall a :: a in xs + ys ==> a in xs || a in ys;
    if |xs| > 0 {
      assert (xs + ys)[1..] == xs[1..] + ys;
      assert forall a :: a in xs[1..] ==> a in xs;
      FilterConcat(xs[1..], ys, c);
    } else {
      assert xs + ys == ys;
    }
  }

  /** Filtering the filtered list again changes nothing. */
  lemma {:induction false} FilterIdempotent(agents: seq<Agent>, c: Criteria)
    requires AllLabelled(agents)
    ensures AllLabelled(Apply(agents, c))
    ensures Apply(Apply(agents, c), c) == Apply(agents, c)
  {
    if |agents| > 0 {
      assert forall a :: a in agents[1..] ==> a in agents;
      FilterIdempotent(agents[1..], c);
    }
  }

  /** With every input empty the list comes back unchanged. */
  lemma {:induction false} EmptyCriteriaKeepAll(agents: seq<Agent>)
    requires AllLabelled(agents)
    ensures Apply(agents, NoCriteria) == agents
  {
    if |agents| > 0 {
      assert forall a :: a in agents[1..] ==> a in agents;
      EmptyCriteriaKeepAll(agents[1..]);
    }
  }

  /** Each criterion read as "empty, or occurring at some position of the
      lowered field". */
  lemma MatchesMeaning(a: Agent, c: Criteria)
    requires forall t :: t in a.tools ==> Labelled(t)
    ensures Matches(a, c) <==>
      && (c.project == "" || exists i :: OccursAt(Lower(OrEmpty(a.projectName)), Lower(c.project), i))
      && (c.agent == "" || exists i :: OccursAt(Lower(OrEmpty(a.name)), Lower(c.agent), i))
      && (c.model == "" || exists i :: OccursAt(Lower(OrEmpty(a.model)), Lower(c.model), i))
      && (c.tool == "" || exists i :: OccursAt(ToolText(a.tools), Lower(c.tool), i))
  {
    assert Matches(a, c) <==>
      && Accepts(Lower(OrEmpty(a.projectName)), Lower(c.project))
      && Accepts(Lower(OrEmpty(a.name)), Lower(c.agent))
      && Accepts(Lower(OrEmpty(a.model)), Lower(c.model))
      && Accepts(ToolText(a.tools), Lower(c.tool));
    AcceptsMeaning(Lower(OrEmpty(a.projectName)), c.project);
    AcceptsMeaning(Lower(OrEmpty(a.name)), c.agent);
    AcceptsMeaning(Lower(OrEmpty(a.model)), c.model);
    AcceptsMeaning(ToolText(a.tools), c.tool);
  }

  lemma AcceptsMeaning(field: string, typed: string)
    ensures Accepts(field, Lower(typed)) <==> typed == "" || exists i :: OccursAt(field, Lower(typed), i)
  {
    ContainsIffOccurrence(field, Lower(typed));
  }

  /** Every part occurs in the joined text. */
  lemma {:induction false} PartOccursInJoin(parts: seq<string>, sep: string, k: nat)
    requires k < |parts|
    ensures exists i :: OccursAt(Join(parts, sep), parts[k], i)
  {
    var s := Join(parts, sep);
    if |parts| == 1 {
      assert OccursAt(s, parts[k], 0);
    } else if k == 0 {
      assert s == parts[0] + (sep + Join(parts[1..], sep));
      assert s[..|parts[0]|] == parts[0];
      assert OccursAt(s, parts[k], 0);
    } else {
      PartOccursInJoin(parts[1..], sep, k - 1);
      var t := Join(parts[1..], sep);
      var i :| OccursAt(t, parts[1..][k - 1], i);
      var off := |parts[0] + sep|;
      assert s == (parts[0] + sep) + t;
      assert s[off + i..off + i + |parts[k]|] == t[i..i + |parts[k]|];
      assert OccursAt(s, parts[k], off + i);
    }
  }

  /** Typing (in any case) the name of one of an agent's tools into the tool
      filter keeps that agent, as far as that criterion goes. */
  lemma ToolNameIsFound(a: Agent, k: nat)
    requires forall t :: t in a.tools ==> Labelled(t)
    requires k < |a.tools|
    ensures Accepts(ToolText(a.tools), Lower(DisplayName(a.tools[k])))
  {
    var names := ToolNames(a.tools);
    PartOccursInJoin(names, " ", k);
    var i :| OccursAt(Join(names, " "), names[k], i);
    OccurrenceGivesContains(Join(names, " "), names[k], i);
  }
}

/** The model filter from the design notes: "gpt-4" against "gpt-4-turbo"
    and "claude". */
module FilterExamples {
  import opened Text
  import opened Optional
  import opened Records
  import opened Filter

  const Turbo := Agent("a1", Some("A"), Some("gpt-4-turbo"), [], None, None, None, None)
  const Claude := Agent("a2", Some("B"), Some("claude"), [], None, None, None, None)
  const Gpt4 := Criteria("", "", "gpt-4", "")

  lemma LowerGpt4()
    ensures Lower("gpt-4") == "gpt-4" && Lowered(Gpt4) == Criteria("", "", "gpt-4", "")
  {
    LowerKeepsLowercase("gpt-4");
  }

  lemma LowerTurbo()
    ensures Lower("gpt-4-turbo") == "gpt-4-turbo"
  {
    LowerKeepsLowercase("gpt-4-turbo");
  }

  lemma LowerClaude()
    ensures Lower("claude") == "claude"
  {
    LowerKeepsLowercase("claude");
  }

  /** Helper: with only a model criterion, an agent without tools matches
      when its lowered model contains it. */
  lemma ModelOnlyMatch(a: Agent, c: Criteria)
    requires a.tools == [] && c.project == "" && c.agent == "" && c.tool == ""
    requires Contains(Lower(OrEmpty(a.model)), Lower(c.model))
    ensures Matches(a, c)
  {
  }

  lemma TurboMatches()
    ensures Matches(Turbo, Gpt4)
  {
    LowerGpt4();
    LowerTurbo();
    assert Contains("gpt-4-turbo", "gpt-4") by {
      assert "gpt-4" <= "gpt-4-turbo";
    }
    ModelOnlyMatch(Turbo, Gpt4);
  }

  lemma ClaudeRejected()
    ensures !Matches(Claude, Gpt4)
  {
    LowerGpt4();
    LowerClaude();
    var s := "claude";
    LongerNeverContained(s[2..], "gpt-4");
    assert !("gpt-4" <= s[1..]) by { assert s[1..][0] == 'l'; }
    assert !("gpt-4" <= s) by { assert s[0] == 'c'; }
    assert !Contains(s[1..], "gpt-4") by { assert s[1..][1..] == s[2..]; }
    assert !Contains(s, "gpt-4");
  }

  /** Keeps exactly the agents that match, for a two-agent list. */
  lemma ApplyPair(x: Agent, y: Agent, c: Criteria)
    requires x.tools == [] && y.tools == []
    ensures AllLabelled([x, y])
    ensures Matches(x, c) && !Matches(y, c) ==> Apply([x, y], c) == [x]
  {
    assert [x, y][1..] == [y];
    assert [y][1..] == [];
  }

  /** A model filter "gpt-4" keeps "gpt-4-turbo" and drops "claude". */
  lemma ModelFilterExample()
    ensures Apply([Turbo, Claude], Gpt4) == [Turbo]
  {
    TurboMatches();
    ClaudeRejected();
    ApplyPair(Turbo, Claude, Gpt4);
  }
}

=== FILE: foundry_resources.dfy ===
/** The pure part of `get_foundry_resources` in
    src/backend/foundry_client.py: from the already-fetched lists of
    Cognitive Services accounts ("hubs"), ML workspaces and per-hub child
    projects, derive the hub list and the project list. Each loop's body
    runs inside a `try`, so an exception keeps whatever was appended before
    it and drops the rest of that loop. */
module FoundryResources {
  import opened Text
  import opened Optional
  import opened Json

  datatype Hub = Hub(
    id: string,
    name: Json,
    location: Json,
    resourceGroup: string,
    kind: string,
    endpoint: Json,
    defaultProject: Json)

  datatype FoundryProject = FoundryProject(
    id: string,
    name: Json,
    location: Json,
    resourceGroup: string,
    endpoint: Json,
    hubId: Json)

  datatype Resources = Resources(hubs: seq<Hub>, projects: seq<FoundryProject>)

  const HubKind := "aiservices"
  const ProjectKind := "project"

  /** The Agents API endpoint of a project hosted by a hub. */
  function HubProjectEndpoint(hubName: string, projectName: string): string {
    "https://" + hubName + ".services.ai.azure.com/api/projects/" + projectName
  }

  /** The legacy ML workspace endpoint. */
  function WorkspaceEndpoint(name: string, location: string): string {
    "https://" + name + "." + location + ".api.azureml.ms"
  }

  /** `item.get("kind", "").lower()`. */
  function KindOf(item: Json): (r: Result<string>)
    ensures r.Ok? ==> item.JObj?
  {
    var k :- DictGet(item, "kind", JStr(""));
    LowerOf(k)
  }

  /** `item["id"].split("/")[4]`: the resource group of an Azure id. */
  function ResourceGroupOf(id: Json): Result<string> {
    var parts :- SplitOf(id, '/');
    At(parts, 4)
  }

  // ---------------------------------------------------------------------
  // Hubs

  /** One account: `None` when its kind is not AIServices. A hub takes
      its id, name and location from the account, its resource group from
      the id, and its endpoint and default project from the account's
      properties. */
  function HubFromItem(item: Json): (r: Result<Option<Hub>>)
    ensures r.Ok? && r.value.Some? ==> r.value.value.kind == HubKind && KindOf(item) == Ok(HubKind)
    ensures r.Ok? && r.value.None? ==> KindOf(item).Ok? && KindOf(item).value != HubKind
    ensures r.Ok? && r.value.Some? ==> var h := r.value.value;
      && Subscript(item, "id") == Ok(JStr(h.id))
      && Subscript(item, "name") == Ok(h.name)
      && Subscript(item, "location") == Ok(h.location)
      && ResourceGroupOf(JStr(h.id)) == Ok(h.resourceGroup)
      && var props := Lookup(item.fields, "properties", EmptyObject);
         && props.JObj?
         && h.endpoint == Lookup(props.fields, "endpoint", JNull)
         && h.defaultProject == Lookup(props.fields, "defaultProject", JNull)
  {
    var kind :- KindOf(item);
    if kind != HubKind then Ok(None)
    else
      var props := Lookup(item.fields, "properties", EmptyObject);
      var endpoint :- DictGet(props, "endpoint", JNull);
      var defaultProject := Lookup(props.fields, "defaultProject", JNull);
      var id :- Subscript(item, "id");
      var _ :- LowerOf(id);  // the hub_endpoints key
      var name :- Subscript(item, "name");
      var location :- Subscript(item, "location");
      var rg :- ResourceGroupOf(id);
      Ok(Some(Hub(id.s, name, location, rg, kind, endpoint, defaultProject)))
  }

  /** The hub loop: kept accounts in order, cut short at the first item
      that raises. */
  function CollectHubs(items: seq<Json>): (r: seq<Hub>)
    ensures |r| <= |items|
    ensures forall h :: h in r ==> h.kind == HubKind
    ensures forall h :: h in r ==> exists i :: 0 <= i < |items| && HubFromItem(items[i]) == Ok(Some(h))
  {
    if |items| == 0 then []
    else
      assert forall i :: 1 <= i < |items| ==> items[1..][i - 1] == items[i];
      match HubFromItem(items[0])
      case Err(_) => []
      case Ok(None) => CollectHubs(items[1..])
      case Ok(Some(h)) => [h] + CollectHubs(items[1..])
  }

  /** How many accounts are of kind AIServices. */
  function CountKind(items: seq<Json>, kind: string): nat {
    if |items| == 0 then 0
    else (if KindOf(items[0]) == Ok(kind) then 1 else 0) + CountKind(items[1..], kind)
  }

  lemma {:induction false} CollectHubsKeepsExactlyAiServices(items: seq<Json>)
    requires forall i :: 0 <= i < |items| ==> HubFromItem(items[i]).Ok?
    ensures |CollectHubs(items)| == CountKind(items, HubKind)
  {
    if |items| > 0 {
      CollectHubsKeepsExactlyAiServices(items[1..]);
    }
  }

  // ---------------------------------------------------------------------
  // Workspaces

  /** The endpoint of a workspace of kind project, by precedence:
      the hub's Agents API endpoint, then discoveryUrl, then the legacy
      azureml endpoint. */
  function WorkspaceProjectEndpoint(item: Json, props: Json, hubId: Json): Result<Json>
    requires props.JObj?
  {
    var fromHub :-
      if Truthy(hubId) then
        var parts :- SplitOf(hubId, '/');
        var name :- Subscript(item, "name");
        Ok(JStr(HubProjectEndpoint(parts[|parts| - 1], PyStr(name))))
      else Ok(JNull);
    if Truthy(fromHub) then Ok(fromHub)
    else
      var discovery := Lookup(props.fields, "discoveryUrl", JNull);
      if Truthy(discovery) then Ok(discovery)
      else
        var name :- Subscript(item, "name");
        var location :- Subscript(item, "location");
        Ok(JStr(WorkspaceEndpoint(PyStr(name), PyStr(location))))
  }

  /** One workspace: `None` when its kind is not project. A project takes
      its id, name and location from the workspace, its resource group from
      the id, its hub from `hubResourceId` and its endpoint by the
      precedence above. */
  function ProjectFromWorkspace(item: Json): (r: Result<Option<FoundryProject>>)
    ensures r.Ok? && r.value.None? ==> KindOf(item).Ok? && KindOf(item).value != ProjectKind
    ensures r.Ok? && r.value.Some? ==> KindOf(item) == Ok(ProjectKind)
    ensures r.Ok? && r.value.Some? ==> var p := r.value.value;
      && Subscript(item, "id") == Ok(JStr(p.id))
      && Subscript(item, "name") == Ok(p.name)
      && Subscript(item, "location") == Ok(p.location)
      && ResourceGroupOf(JStr(p.id)) == Ok(p.resourceGroup)
      && var props := Lookup(item.fields, "properties", EmptyObject);
         && props.JObj?
         && p.hubId == Lookup(props.fields, "hubResourceId", JNull)
         && WorkspaceProjectEndpoint(item, props, p.hubId) == Ok(p.endpoint)
  {
    var kind :- KindOf(item);
    if kind != ProjectKind then Ok(None)
    else
      var props := Lookup(item.fields, "properties", EmptyObject);
      var hubId :- DictGet(props, "hubResourceId", JNull);
      var endpoint :- WorkspaceProjectEndpoint(item, props, hubId);
      var id :- Subscript(item, "id");
      var name :- Subscript(item, "name");
      var location :- Subscript(item, "location");
      var rg :- ResourceGroupOf(id);
      Ok(Some(FoundryProject(id.s, name, location, rg, endpoint, hubId)))
  }

  /** The workspace loop: projects in order, cut short at the first item
      that raises. Each comes from a workspace of kind project. */
  function CollectWorkspaceProjects(items: seq<Json>): (r: seq<FoundryProject>)
    ensures |r| <= |items|
    ensures forall p :: p in r ==> exists i :: 0 <= i < |items| && ProjectFromWorkspace(items[i]) == Ok(Some(p))
  {
    if |items| == 0 then []
    else
      assert forall i :: 1 <= i < |items| ==> items[1..][i - 1] == items[i];
      match ProjectFromWorkspace(items[0])
      case Err(_) => []
      case Ok(None) => CollectWorkspaceProjects(items[1..])
      case Ok(Some(p)) => [p] + CollectWorkspaceProjects(items[1..])
  }

  /** When no workspace raises, there is one project per workspace of
      kind project. */
  lemma {:induction false} CollectWorkspaceProjectsKeepsExactlyProjects(items: seq<Json>)
    requires forall i :: 0 <= i < |items| ==> ProjectFromWorkspace(items[i]).Ok?
    ensures |CollectWorkspaceProjects(items)| == CountKind(items, ProjectKind)
  {
    if |items| > 0 {
      CollectWorkspaceProjectsKeepsExactlyProjects(items[1..]);
    }
  }

  // ---------------------------------------------------------------------
  // Child projects of hubs

  /** One child project listed under `hub`: its id, name and location
      from the listing, its endpoint under the hub's name, linked to the
      hub. */
  function ChildProject(hub: Hub, sp: Json): (r: Result<FoundryProject>)
    ensures r.Ok? ==> var p := r.value;
      && Subscript(sp, "id") == Ok(JStr(p.id))
      && Subscript(sp, "name") == Ok(p.name)
      && Subscript(sp, "location") == Ok(p.location)
      && ResourceGroupOf(JStr(p.id)) == Ok(p.resourceGroup)
      && p.endpoint == JStr(HubProjectEndpoint(PyStr(hub.name), PyStr(p.name)))
      && p.hubId == JStr(hub.id)
  {
    var name :- Subscript(sp, "name");
    var endpoint := HubProjectEndpoint(PyStr(hub.name), PyStr(name));
    var id :- Subscript(sp, "id");
    var location :- Subscript(sp, "location");
    var rg :- ResourceGroupOf(id);
    Ok(FoundryProject(id.s, name, location, rg, JStr(endpoint), JStr(hub.id)))
  }

  /** A loop inside a `try` whose iterations yield `results`: the values
      of the iterations before the first one that raises. */
  function OkPrefix<T>(results: seq<Result<T>>): (r: seq<T>)
    ensures |r| <= |results|
    ensures forall i :: 0 <= i < |r| ==> results[i] == Ok(r[i])
    ensures |r| < |results| ==> results[|r|].Err?
  {
    if |results| == 0 then []
    else match results[0]
      case Err(_) => []
      case Ok(v) =>
        assert forall i :: 1 <= i < |results| ==> results[1..][i - 1] == results[i];
        [v] + OkPrefix(results[1..])
  }

  /** The loop over one hub's listing: the projects of the items before
      the first item that raises, in order. */
  function CollectChildProjects(hub: Hub, items: seq<Json>): (r: seq<FoundryProject>)
    ensures |r| <= |items|
    ensures forall i :: 0 <= i < |r| ==> ChildProject(hub, items[i]) == Ok(r[i])
    ensures |r| < |items| ==> ChildProject(hub, items[|r|]).Err?
    ensures forall p :: p in r ==> p.hubId == JStr(hub.id)
    ensures forall p :: p in r ==> exists i :: 0 <= i < |items| && ChildProject(hub, items[i]) == Ok(p)
  {
    var results := seq(|items|, i requires 0 <= i < |items| => ChildProject(hub, items[i]));
    assert forall i :: 0 <= i < |items| ==> results[i] == ChildProject(hub, items[i]);
    OkPrefix(results)
  }

  /** When no listed item raises, there is one project per item, in
      order. */
  lemma CollectChildProjectsKeepsAll(hub: Hub, items: seq<Json>)
    requires forall i :: 0 <= i < |items| ==> ChildProject(hub, items[i]).Ok?
    ensures |CollectChildProjects(hub, items)| == |items|
    ensures forall i :: 0 <= i < |items| ==> CollectChildProjects(hub, items)[i] == ChildProject(hub, items[i]).value
  {
  }

  /** Child projects of every hub, in hub order. `listings` holds the
      fetched list per hub id; a hub whose request failed or did not answer
      200 has no entry. */
  function ChildProjectsOfHubs(hubs: seq<Hub>, listings: map<string, seq<Json>>): (r: seq<FoundryProject>)
    ensures forall p :: p in r ==> exists h :: h in hubs && h.id in listings && p.hubId == JStr(h.id)
                                     && exists i :: 0 <= i < |listings[h.id]| && ChildProject(h, listings[h.id][i]) == Ok(p)
  {
    if |hubs| == 0 then []
    else
      (if hubs[0].id in listings then CollectChildProjects(hubs[0], listings[hubs[0].id]) else [])
      + ChildProjectsOfHubs(hubs[1..], listings)
  }

  /** Every project of a hub whose listing came back and raised nowhere
      is among the child projects. */
  lemma {:induction false} ChildProjectsOfHubsComplete(hubs: seq<Hub>, listings: map<string, seq<Json>>, h: Hub, i: nat)
    requires h in hubs && h.id in listings && i < |listings[h.id]|
    requires forall j :: 0 <= j < |listings[h.id]| ==> ChildProject(h, listings[h.id][j]).Ok?
    ensures ChildProject(h, listings[h.id][i]).value in ChildProjectsOfHubs(hubs, listings)
  {
    var rest := ChildProjectsOfHubs(hubs[1..], listings);
    if hubs[0] == h {
      CollectChildProjectsKeepsAll(h, listings[h.id]);
      var own := CollectChildProjects(h, listings[h.id]);
      assert own[i] in own;
      assert ChildProjectsOfHubs(hubs, listings) == own + rest;
    } else {
      assert h in hubs[1..];
      ChildProjectsOfHubsComplete(hubs[1..], listings, h, i);
      assert ChildProjectsOfHubs(hubs, listings)
          == (if hubs[0].id in listings then CollectChildProjects(hubs[0], listings[hubs[0].id]) else []) + rest;
    }
  }

  // ---------------------------------------------------------------------
  // Self-projects

  function ProjectIds(projects: seq<FoundryProject>): set<string> {
    set p | p in projects :: p.id
  }

  /** A hub acting as its own project. */
  function SelfProject(hub: Hub): FoundryProject {
    var projectName := Or(hub.defaultProject, hub.name);
    FoundryProject(hub.id, hub.name, hub.location, hub.resourceGroup,
            JStr(HubProjectEndpoint(PyStr(hub.name), PyStr(projectName))), JStr(hub.id))
  }

  /** Hubs whose id is not among `existing` become projects, in hub order.
      `existing` is computed once, before the loop. */
  function SelfProjects(hubs: seq<Hub>, existing: set<string>): (r: seq<FoundryProject>)
    ensures |r| <= |hubs|
    ensures forall p :: p in r ==> p.id !in existing
  {
    if |hubs| == 0 then []
    else (if hubs[0].id in existing then [] else [SelfProject(hubs[0])]) + SelfProjects(hubs[1..], existing)
  }

  lemma {:induction false} SelfProjectsExactlyUnlisted(hubs: seq<Hub>, existing: set<string>)
    ensures forall h :: h in hubs && h.id !in existing ==> SelfProject(h) in SelfProjects(hubs, existing)
    ensures forall p :: p in SelfProjects(hubs, existing) ==> exists h :: h in hubs && h.id !in existing && p == SelfProject(h)
  {
    if |hubs| > 0 {
      SelfProjectsExactlyUnlisted(hubs[1..], existing);
      forall p | p in SelfProjects(hubs, existing)
        ensures exists h :: h in hubs && h.id !in existing && p == SelfProject(h)
      {
        if p in SelfProjects(hubs[1..], existing) {
          var h :| h in hubs[1..] && h.id !in existing && p == SelfProject(h);
          assert h in hubs;
        } else {
          assert hubs[0] in hubs;
        }
      }
    }
  }

  // ---------------------------------------------------------------------
  // The whole derivation

  /** `tokenOk` is false when the management token could not be obtained;
      `accounts` / `workspaces` are `None` when that request failed. */
  function GetFoundryResources(tokenOk: bool, accounts: Option<seq<Json>>, workspaces: Option<seq<Json>>,
                               listings: map<string, seq<Json>>): (r: Resources)
    ensures !tokenOk ==> r == Resources([], [])
    ensures forall h :: h in r.hubs ==> h.kind == HubKind
  {
    if !tokenOk then Resources([], [])
    else
      var hubs := if accounts.Some? then CollectHubs(accounts.value) else [];
      var listed :=
        (if workspaces.Some? then CollectWorkspaceProjects(workspaces.value) else [])
        + ChildProjectsOfHubs(hubs, listings);
      Resources(hubs, listed + SelfProjects(hubs, ProjectIds(listed)))
  }

}

/** Properties of the project derivation. */
module FoundryResourcesProperties {
  import opened Text
  import opened Optional
  import opened Json
  import opened FoundryResources

  /** The endpoint precedence for one workspace, given its properties. */
  lemma EndpointStep(item: Json, props: Json, hubId: Json)
    requires props.JObj? && WorkspaceProjectEndpoint(item, props, hubId).Ok?
    ensures var discovery := Lookup(props.fields, "discoveryUrl", JNull);
      var e := WorkspaceProjectEndpoint(item, props, hubId).value;
      && (Truthy(hubId) ==>
            (&& hubId.JStr? && item.JObj?
             && e == JStr(HubProjectEndpoint(LastSegment(hubId.s, '/'), PyStr(Lookup(item.fields, "name", JNull))))))
      && (!Truthy(hubId) && Truthy(discovery) ==> e == discovery)
      && (!Truthy(hubId) && !Truthy(discovery) ==>
            (&& item.JObj?
             && e == JStr(WorkspaceEndpoint(PyStr(Lookup(item.fields, "name", JNull)),
                                            PyStr(Lookup(item.fields, "location", JNull))))))
  {
    if Truthy(hubId) {
      assert SplitOf(hubId, '/').Ok?;
      assert Subscript(item, "name").Ok?;
    } else if !Truthy(Lookup(props.fields, "discoveryUrl", JNull)) {
      assert Subscript(item, "name").Ok?;
    }
  }

  /** The workspace endpoint precedence: a truthy hubResourceId gives the
      hub's Agents API endpoint, otherwise a truthy discoveryUrl, otherwise
      the legacy azureml endpoint. */
  lemma WorkspaceEndpointPrecedence(item: Json)
    requires ProjectFromWorkspace(item).Ok? && ProjectFromWorkspace(item).value.Some?
    ensures item.JObj? && Lookup(item.fields, "properties", EmptyObject).JObj?
    ensures var props := Lookup(item.fields, "properties", EmptyObject).fields;
      var hubId := Lookup(props, "hubResourceId", JNull);
      var discovery := Lookup(props, "discoveryUrl", JNull);
      var name := Lookup(item.fields, "name", JNull);
      var location := Lookup(item.fields, "location", JNull);
      var e := ProjectFromWorkspace(item).value.value.endpoint;
      && (Truthy(hubId) ==> hubId.JStr? && e == JStr(HubProjectEndpoint(LastSegment(hubId.s, '/'), PyStr(name))))
      && (!Truthy(hubId) && Truthy(discovery) ==> e == discovery)
      && (!Truthy(hubId) && !Truthy(discovery) ==> e == JStr(WorkspaceEndpoint(PyStr(name), PyStr(location))))
  {
    assert KindOf(item).Ok?;
    var props := Lookup(item.fields, "properties", EmptyObject);
    assert DictGet(item, "properties", EmptyObject) == Ok(props);
    assert DictGet(props, "hubResourceId", JNull).Ok?;
    var hubId := Lookup(props.fields, "hubResourceId", JNull);
    assert WorkspaceProjectEndpoint(item, props, hubId).Ok?;
    assert ProjectFromWorkspace(item).value.value.endpoint == WorkspaceProjectEndpoint(item, props, hubId).value;
    EndpointStep(item, props, hubId);
  }

  /** Every project the derivation lists is either a workspace of kind
      project, a child of a hub, or a hub added as its own project; a hub is
      added as its own project exactly when no listed project has its id,
      and it is then named by its defaultProject, or by its own name. */
  lemma SelfProjectsOnlyForUnlistedHubs(tokenOk: bool, accounts: Option<seq<Json>>,
                                        workspaces: Option<seq<Json>>, listings: map<string, seq<Json>>)
    requires tokenOk
    ensures var r := GetFoundryResources(tokenOk, accounts, workspaces, listings);
      var listed := (if workspaces.Some? then CollectWorkspaceProjects(workspaces.value) else [])
                    + ChildProjectsOfHubs(r.hubs, listings);
      && r.projects[..|listed|] == listed
      && (forall h :: h in r.hubs && h.id !in ProjectIds(listed) ==> SelfProject(h) in r.projects[|listed|..])
      && (forall p :: p in r.projects[|listed|..] ==>
            p.id !in ProjectIds(listed)
            && exists h :: h in r.hubs && p == SelfProject(h)
                 && p.endpoint == JStr(HubProjectEndpoint(PyStr(h.name), PyStr(Or(h.defaultProject, h.name)))))
  {
    var r := GetFoundryResources(tokenOk, accounts, workspaces, listings);
    var listed := (if workspaces.Some? then CollectWorkspaceProjects(workspaces.value) else [])
                  + ChildProjectsOfHubs(r.hubs, listings);
    var selves := SelfProjects(r.hubs, ProjectIds(listed));
    assert r.projects == listed + selves;
    assert r.projects[|listed|..] == selves;
    SelfProjectsExactlyUnlisted(r.hubs, ProjectIds(listed));
  }
}

=== FILE: graph_builder.dfy ===
/** The element list `renderGlobalGraph` hands to Cytoscape
    (src/frontend/static/js/graph.js): per agent, in order, the agent node,
    its model node and edge, then per tool the tool node and edge and, when
    the tool names a connection, the connection node and edge. */
module GraphBuilder {
  import opened Text
  import opened Optional
  import opened Records
  import opened NodeKeys

  /** The node `type` field. */
  datatype Category = AgentCategory | ModelCategory | ToolCategory | ResourceCategory

  function CategoryName(c: Category): string {
    match c
    case AgentCategory => "agent"
    case ModelCategory => "model"
    case ToolCategory => "tool"
    case ResourceCategory => "resource"
  }

  /** The legend's fixed palette. */
  function CategoryColor(c: Category): string {
    match c
    case AgentCategory => "#a855f7"
    case ModelCategory => "#3b82f6"
    case ToolCategory => "#eab308"
    case ResourceCategory => "#22c55e"
  }

  const AgentIcon := "/static/images/agent_logo.png"
  const ModelIcon := "https://img.icons8.com/fluency/96/artificial-intelligence.png"
  const ToolIcon := "https://img.icons8.com/fluency/96/maintenance.png"
  const GithubIcon := "/static/images/github_logo.png"
  const SearchIcon := "https://img.icons8.com/fluency/96/search.png"
  const CodeIcon := "https://img.icons8.com/fluency/96/code.png"
  const DatabaseIcon := "https://img.icons8.com/fluency/96/database.png"
  const ResourceIcon := "https://img.icons8.com/fluency/96/folder-invoices.png"
  const McpIcon := "https://img.icons8.com/fluency/96/api-settings.png"

  /** A Cytoscape element: a node with its id (rendered from `key`), label,
      type, icon and colour, or an edge between two ids. */
  datatype Element =
    | Node(key: NodeKey, caption: Option<string>, category: Category, icon: string, color: string)
    | Edge(source: NodeKey, target: NodeKey, color: string)

  /** A tool's icon: the first of search, code, retrieval, mcp that occurs
      in the lowered type decides. */
  function ToolIconFor(toolType: string): (icon: string)
    ensures var t := Lower(toolType);
      && (icon == SearchIcon <==> Contains(t, "search"))
      && (icon == CodeIcon <==> !Contains(t, "search") && Contains(t, "code"))
      && (icon == DatabaseIcon <==> !Contains(t, "search") && !Contains(t, "code") && Contains(t, "retrieval"))
      && (icon == McpIcon <==>
            !Contains(t, "search") && !Contains(t, "code") && !Contains(t, "retrieval") && Contains(t, "mcp"))
      && (icon == ToolIcon <==>
            !Contains(t, "search") && !Contains(t, "code") && !Contains(t, "retrieval") && !Contains(t, "mcp"))
  {
    var t := Lower(toolType);
    if Contains(t, "search") then SearchIcon
    else if Contains(t, "code") then CodeIcon
    else if Contains(t, "retrieval") then DatabaseIcon
    else if Contains(t, "mcp") then McpIcon
    else ToolIcon
  }

  /** A connection's icon: github, then search, then database or sql, in
      the lowered connection name; a plain folder otherwise. */
  function ConnectionIconFor(connection: string): (icon: string)
    ensures var c := Lower(connection);
      && (icon == GithubIcon <==> Contains(c, "github"))
      && (icon == SearchIcon <==> !Contains(c, "github") && Contains(c, "search"))
      && (icon == DatabaseIcon <==>
            !Contains(c, "github") && !Contains(c, "search") && (Contains(c, "database") || Contains(c, "sql")))
      && (icon == ResourceIcon <==>
            !Contains(c, "github") && !Contains(c, "search") && !Contains(c, "database") && !Contains(c, "sql"))
  {
    var c := Lower(connection);
    if Contains(c, "github") then GithubIcon
    else if Contains(c, "search") then SearchIcon
    else if Contains(c, "database") || Contains(c, "sql") then DatabaseIcon
    else ResourceIcon
  }

  /** `tool.type.toLowerCase()` throws on a tool without a type. */
  predicate Typed(a: Agent) {
    forall t :: t in a.tools ==> t.toolType.Some?
  }

  predicate AllTyped(agents: seq<Agent>) {
    forall a :: a in agents ==> Typed(a)
  }

  /** `elements.find(e => e.data.id === id)` found a node; edges carry no id. */
  predicate HasNodeId(elems: seq<Element>, id: string) {
    exists i :: 0 <= i < |elems| && elems[i].Node? && KeyText(elems[i].key) == id
  }

  /** The keys of the nodes, in emission order. */
  function NodeKeysOf(elems: seq<Element>): (ks: seq<NodeKey>)
    ensures |ks| <= |elems|
  {
    if |elems| == 0 then []
    else
      var last := elems[|elems| - 1];
      NodeKeysOf(elems[..|elems| - 1]) + (if last.Node? then [last.key] else [])
  }

  function EdgeCount(elems: seq<Element>): nat {
    if |elems| == 0 then 0
    else EdgeCount(elems[..|elems| - 1]) + (if elems[|elems| - 1].Edge? then 1 else 0)
  }

  lemma {:induction false} CountsOfAppend(xs: seq<Element>, ys: seq<Element>)
    ensures NodeKeysOf(xs + ys) == NodeKeysOf(xs) + NodeKeysOf(ys)
    ensures EdgeCount(xs + ys) == EdgeCount(xs) + EdgeCount(ys)
    decreases |ys|
  {
    if |ys| == 0 {
      assert xs + ys == xs;
    } else {
      assert (xs + ys)[..|xs + ys| - 1] == xs + ys[..|ys| - 1];
      CountsOfAppend(xs, ys[..|ys| - 1]);
    }
  }

  lemma NodeThenEdge(n: Element, e: Element)
    requires n.Node? && e.Edge?
    ensures NodeKeysOf([n, e]) == [n.key] && EdgeCount([n, e]) == 1
  {
    assert [n, e][..1] == [n];
    assert [n][..0] == [];
    assert EdgeCount([n]) == EdgeCount([]) + 0;
  }

  function AgentNode(a: Agent): Element {
    Node(AgentKey(a.id), a.name, AgentCategory, AgentIcon, CategoryColor(AgentCategory))
  }

  /** The model node (unless a node with its id exists) and the agent-model
      edge, for an agent with a model. */
  function AddModel(acc: seq<Element>, a: Agent): (r: seq<Element>)
    ensures acc <= r
    ensures NodeKeysOf(r) == NodeKeysOf(acc)
      + (if Truthy(a.model) && !HasNodeId(acc, KeyText(ModelKey(a.id))) then [ModelKey(a.id)] else [])
    ensures EdgeCount(r) == EdgeCount(acc) + (if Truthy(a.model) then 1 else 0)
  {
    if !Truthy(a.model) then acc
    else
      var key := ModelKey(a.id);
      var node := Node(key, a.model, ModelCategory, ModelIcon, CategoryColor(ModelCategory));
      var added := if HasNodeId(acc, KeyText(key)) then [] else [node];
      var edge := Edge(AgentKey(a.id), key, CategoryColor(ModelCategory));
      CountsOfAppend(acc, added + [edge]);
      CountsOfAppend(added, [edge]);
      assert NodeKeysOf([node]) == [key] by { assert [node][..0] == []; }
      assert NodeKeysOf([edge]) == [] by { assert [edge][..0] == []; }
      acc + (added + [edge])
  }

  /** The keys of tool `i`: its node, and its connection when it has one. */
  function ToolKeysAt(a: Agent, i: nat): seq<NodeKey>
    requires i < |a.tools|
  {
    [ToolKey(a.id, i)] + (if Truthy(a.tools[i].connection) then [ConnKey(a.id, i)] else [])
  }

  /** The keys of the first `n` tools. */
  function ToolKeys(a: Agent, n: nat): seq<NodeKey>
    requires n <= |a.tools|
  {
    if n == 0 then [] else ToolKeys(a, n - 1) + ToolKeysAt(a, n - 1)
  }

  function ToolNode(a: Agent, i: nat): Element
    requires i < |a.tools| && a.tools[i].toolType.Some?
  {
    var t := a.tools[i];
    Node(ToolKey(a.id, i), Some(DisplayName(t)), ToolCategory, ToolIconFor(t.toolType.value), CategoryColor(ToolCategory))
  }

  /** The connection node and the tool-connection edge, when the tool
      names a connection. */
  function ConnectionPart(a: Agent, i: nat): seq<Element>
    requires i < |a.tools|
  {
    var c := a.tools[i].connection;
    if Truthy(c) then
      [Node(ConnKey(a.id, i), c, ResourceCategory, ConnectionIconFor(c.value), CategoryColor(ResourceCategory)),
       Edge(ToolKey(a.id, i), ConnKey(a.id, i), CategoryColor(ResourceCategory))]
    else []
  }

  /** The nodes and edges of tool `i`. */
  function AddTool(acc: seq<Element>, a: Agent, i: nat): (r: seq<Element>)
    requires i < |a.tools| && a.tools[i].toolType.Some?
    ensures acc <= r
  {
    acc + ([ToolNode(a, i), Edge(AgentKey(a.id), ToolKey(a.id, i), CategoryColor(ToolCategory))]
           + ConnectionPart(a, i))
  }

  /** Tool `i` adds its planned keys and one edge per key. */
  lemma AddToolCounts(acc: seq<Element>, a: Agent, i: nat)
    requires i < |a.tools| && a.tools[i].toolType.Some?
    ensures NodeKeysOf(AddTool(acc, a, i)) == NodeKeysOf(acc) + ToolKeysAt(a, i)
    ensures EdgeCount(AddTool(acc, a, i)) == EdgeCount(acc) + |ToolKeysAt(a, i)|
  {
    var toolPart := [ToolNode(a, i), Edge(AgentKey(a.id), ToolKey(a.id, i), CategoryColor(ToolCategory))];
    var connPart := ConnectionPart(a, i);
    CountsOfAppend(acc, toolPart + connPart);
    CountsOfAppend(toolPart, connPart);
    NodeThenEdge(toolPart[0], toolPart[1]);
    if connPart != [] {
      NodeThenEdge(connPart[0], connPart[1]);
    }
  }

  /** The elements of the first `n` tools, in order. */
  function AddTools(acc: seq<Element>, a: Agent, n: nat): (r: seq<Element>)
    requires n <= |a.tools| && Typed(a)
    ensures acc <= r
  {
    if n == 0 then acc
    else
      assert a.tools[n - 1] in a.tools;
      AddTool(AddTools(acc, a, n - 1), a, n - 1)
  }

  /** The tools add their planned keys, in order. */
  lemma {:induction false} AddToolsKeys(acc: seq<Element>, a: Agent, n: nat)
    requires n <= |a.tools| && Typed(a)
    ensures NodeKeysOf(AddTools(acc, a, n)) == NodeKeysOf(acc) + ToolKeys(a, n)
  {
    if n > 0 {
      var earlier, last := ToolKeys(a, n - 1), ToolKeysAt(a, n - 1);
      assert a.tools[n - 1] in a.tools;
      var prev := AddTools(acc, a, n - 1);
      assert AddTools(acc, a, n) == AddTool(prev, a, n - 1);
      assert NodeKeysOf(prev) == NodeKeysOf(acc) + earlier by {
        AddToolsKeys(acc, a, n - 1);
      }
      assert NodeKeysOf(AddTool(prev, a, n - 1)) == NodeKeysOf(prev) + last by {
        AddToolCounts(prev, a, n - 1);
      }
      assert (NodeKeysOf(acc) + earlier) + last == NodeKeysOf(acc) + (earlier + last);
    }
  }

  /** The tools add one edge per planned key. */
  lemma {:induction false} AddToolsEdges(acc: seq<Element>, a: Agent, n: nat)
    requires n <= |a.tools| && Typed(a)
    ensures EdgeCount(AddTools(acc, a, n)) == EdgeCount(acc) + |ToolKeys(a, n)|
  {
    if n > 0 {
      var earlier, last := ToolKeys(a, n - 1), ToolKeysAt(a, n - 1);
      assert a.tools[n - 1] in a.tools;
      var prev := AddTools(acc, a, n - 1);
      assert AddTools(acc, a, n) == AddTool(prev, a, n - 1);
      assert EdgeCount(prev) == EdgeCount(acc) + |earlier| by {
        AddToolsEdges(acc, a, n - 1);
      }
      assert EdgeCount(AddTool(prev, a, n - 1)) == EdgeCount(prev) + |last| by {
        AddToolCounts(prev, a, n - 1);
      }
      assert |ToolKeys(a, n)| == |earlier| + |last|;
    }
  }

  /** The agent's node, then its model and tools, after `acc`. */
  function AddAgent(acc: seq<Element>, a: Agent): (r: seq<Element>)
    requires Typed(a)
    ensures acc + [AgentNode(a)] <= r
  {
    AddTools(AddModel(acc + [AgentNode(a)], a), a, |a.tools|)
  }

  /** All elements for `agents`, agent by agent: every agent has its
      node. */
  function Build(agents: seq<Agent>): (r: seq<Element>)
    requires AllTyped(agents)
    ensures forall a :: a in agents ==> AgentNode(a) in r
  {
    if |agents| == 0 then []
    else
      var init, last := agents[..|agents| - 1], agents[|agents| - 1];
      assert agents == init + [last];
      var prev := Build(init);
      var r := AddAgent(prev, last);
      assert forall e :: e in prev ==> e in r;
      r
  }
}

=== FILE: graph_properties.dfy ===
/** What the element list of `renderGlobalGraph` guarantees: every edge
    joins ids of nodes emitted before it, a model node never repeats an
    existing id, and, when agent ids are distinct and never coincide with a
    synthesized id, node ids are unique and the counts add up. */
module GraphProperties {
  import opened Text
  import opened Optional
  import opened Records
  import opened NodeKeys
  import opened Seqs
  import opened GraphBuilder

  // ---------------------------------------------------------------------
  // The keys an agent is meant to contribute

  /** `k` names a node the builder synthesizes for `a`. */
  predicate KeyOfAgent(k: NodeKey, a: Agent) {
    match k
    case AgentKey(x) => x == a.id
    case ModelKey(x) => x == a.id && Truthy(a.model)
    case ToolKey(x, i) => x == a.id && i < |a.tools|
    case ConnKey(x, i) => x == a.id && i < |a.tools| && Truthy(a.tools[i].connection)
  }

  function PlannedKeys(a: Agent): seq<NodeKey> {
    [AgentKey(a.id)] + (if Truthy(a.model) then [ModelKey(a.id)] else []) + ToolKeys(a, |a.tools|)
  }

  function AllPlanned(agents: seq<Agent>): seq<NodeKey> {
    if |agents| == 0 then [] else AllPlanned(agents[..|agents| - 1]) + PlannedKeys(agents[|agents| - 1])
  }

  ghost predicate DistinctIds(agents: seq<Agent>) {
    forall i, j :: 0 <= i < j < |agents| ==> agents[i].id != agents[j].id
  }

  /** No agent id equals an id the builder synthesizes for some agent's
      model, tool or connection. */
  ghost predicate NoIdClash(agents: seq<Agent>) {
    forall a, b, k :: a in agents && b in agents && KeyOfAgent(k, b) && !k.AgentKey? ==> a.id != KeyText(k)
  }

  lemma {:induction false} ToolKeysMembers(a: Agent, n: nat)
    requires n <= |a.tools|
    ensures forall k :: k in ToolKeys(a, n) <==>
      (!k.AgentKey? && !k.ModelKey? && k.index < n && KeyOfAgent(k, a))
  {
    if n > 0 {
      ToolKeysMembers(a, n - 1);
    }
  }

  lemma {:induction false} ToolKeysDistinct(a: Agent, n: nat)
    requires n <= |a.tools|
    ensures PairwiseDistinct(ToolKeys(a, n))
  {
    if n > 0 {
      ToolKeysDistinct(a, n - 1);
      ToolKeysMembers(a, n - 1);
      var here := ToolKeysAt(a, n - 1);
      assert PairwiseDistinct(here);
      DistinctConcat(ToolKeys(a, n - 1), here);
    }
  }

  lemma {:induction false} ToolKeysLength(a: Agent, n: nat)
    requires n <= |a.tools|
    ensures |ToolKeys(a, n)| == n + ConnectionsOf(a.tools[..n])
  {
    if n > 0 {
      ToolKeysLength(a, n - 1);
      assert a.tools[..n][..n - 1] == a.tools[..n - 1];
    }
  }

  lemma PlannedKeysFacts(a: Agent)
    ensures forall k :: k in PlannedKeys(a) <==> KeyOfAgent(k, a)
    ensures PairwiseDistinct(PlannedKeys(a))
    ensures |PlannedKeys(a)| == 1 + (if Truthy(a.model) then 1 else 0) + |a.tools| + ConnectionsOf(a.tools)
  {
    ToolKeysMembers(a, |a.tools|);
    ToolKeysDistinct(a, |a.tools|);
    ToolKeysLength(a, |a.tools|);
    assert a.tools[..|a.tools|] == a.tools;
    var head := [AgentKey(a.id)] + (if Truthy(a.model) then [ModelKey(a.id)] else []);
    assert PairwiseDistinct(head);
    DistinctConcat(head, ToolKeys(a, |a.tools|));
  }

  lemma {:induction false} AllPlannedMembers(agents: seq<Agent>)
    ensures forall k :: k in AllPlanned(agents) <==> exists b :: b in agents && KeyOfAgent(k, b)
  {
    if |agents| > 0 {
      var init := agents[..|agents| - 1];
      var last := agents[|agents| - 1];
      AllPlannedMembers(init);
      PlannedKeysFacts(last);
      assert agents == init + [last];
      forall k
        ensures k in AllPlanned(agents) <==> exists b :: b in agents && KeyOfAgent(k, b)
      {
        if exists b :: b in agents && KeyOfAgent(k, b) {
          var b :| b in agents && KeyOfAgent(k, b);
          if b != last {
            assert b in init;
          }
        }
      }
    }
  }

  /** Keys of an earlier agent never belong to a later one. */
  lemma EarlierKeysDiffer(agents: seq<Agent>, k: NodeKey)
    requires |agents| > 0 && DistinctIds(agents)
    requires k in AllPlanned(agents[..|agents| - 1])
    ensures !KeyOfAgent(k, agents[|agents| - 1])
  {
    var init := agents[..|agents| - 1];
    AllPlannedMembers(init);
    var b :| b in init && KeyOfAgent(k, b);
    var i :| 0 <= i < |init| && init[i] == b;
    assert agents[i] == b;
  }

  lemma {:induction false} AllPlannedDistinct(agents: seq<Agent>)
    requires DistinctIds(agents)
    ensures PairwiseDistinct(AllPlanned(agents))
  {
    if |agents| > 0 {
      var init := agents[..|agents| - 1];
      var last := agents[|agents| - 1];
      assert DistinctIds(init);
      AllPlannedDistinct(init);
      PlannedKeysFacts(last);
      forall x, y | x in AllPlanned(init) && y in PlannedKeys(last)
        ensures x != y
      {
        EarlierKeysDiffer(agents, x);
      }
      DistinctConcat(AllPlanned(init), PlannedKeys(last));
    }
  }

  lemma {:induction false} AllPlannedLength(agents: seq<Agent>)
    ensures |AllPlanned(agents)| == |agents| + ModelCount(agents) + ToolCount(agents) + ConnectionCount(agents)
  {
    if |agents| > 0 {
      AllPlannedLength(agents[..|agents| - 1]);
      PlannedKeysFacts(agents[|agents| - 1]);
    }
  }

  /** Distinct keys of these agents render to distinct ids. */
  lemma KeyTextInjective(agents: seq<Agent>, k1: NodeKey, k2: NodeKey)
    requires NoIdClash(agents)
    requires exists b :: b in agents && KeyOfAgent(k1, b)
    requires exists b :: b in agents && KeyOfAgent(k2, b)
    requires k1 != k2
    ensures KeyText(k1) != KeyText(k2)
  {
    var b1 :| b1 in agents && KeyOfAgent(k1, b1);
    var b2 :| b2 in agents && KeyOfAgent(k2, b2);
    if !k1.AgentKey? && !k2.AgentKey? {
      SynthesizedTextInjective(k1, k2);
    }
  }

  function Texts(ks: seq<NodeKey>): (ts: seq<string>)
    ensures |ts| == |ks| && forall i :: 0 <= i < |ks| ==> ts[i] == KeyText(ks[i])
  {
    seq(|ks|, i requires 0 <= i < |ks| => KeyText(ks[i]))
  }

  lemma PlannedTextsDistinct(agents: seq<Agent>)
    requires DistinctIds(agents) && NoIdClash(agents)
    ensures PairwiseDistinct(Texts(AllPlanned(agents)))
  {
    var ks := AllPlanned(agents);
    AllPlannedMembers(agents);
    AllPlannedDistinct(agents);
    forall i, j | 0 <= i < j < |ks|
      ensures KeyText(ks[i]) != KeyText(ks[j])
    {
      assert ks[i] in ks && ks[j] in ks;
      KeyTextInjective(agents, ks[i], ks[j]);
    }
  }

  // ---------------------------------------------------------------------
  // The builder emits exactly the planned nodes

  lemma {:induction false} HasNodeIdMeans(elems: seq<Element>, id: string)
    ensures HasNodeId(elems, id) <==> exists k :: k in NodeKeysOf(elems) && KeyText(k) == id
  {
    if |elems| > 0 {
      var init := elems[..|elems| - 1];
      HasNodeIdMeans(init, id);
      if HasNodeId(elems, id) {
        var i :| 0 <= i < |elems| && elems[i].Node? && KeyText(elems[i].key) == id;
        if i < |elems| - 1 {
          assert init[i] == elems[i];
        }
      }
      if HasNodeId(init, id) {
        var i :| 0 <= i < |init| && init[i].Node? && KeyText(init[i].key) == id;
        assert elems[i] == init[i];
      }
    }
  }

  /** Under the two id assumptions the existence check never suppresses a
      model node. */
  lemma ModelNodeIsNew(agents: seq<Agent>, acc: seq<Element>)
    requires |agents| > 0 && DistinctIds(agents) && NoIdClash(agents)
    requires NodeKeysOf(acc) == AllPlanned(agents[..|agents| - 1])
    requires Truthy(agents[|agents| - 1].model)
    ensures var a := agents[|agents| - 1];
      !HasNodeId(acc + [AgentNode(a)], KeyText(ModelKey(a.id)))
  {
    var a := agents[|agents| - 1];
    var init := agents[..|agents| - 1];
    var acc1 := acc + [AgentNode(a)];
    CountsOfAppend(acc, [AgentNode(a)]);
    assert NodeKeysOf([AgentNode(a)]) == [AgentKey(a.id)] by { assert [AgentNode(a)][..0] == []; }
    HasNodeIdMeans(acc1, KeyText(ModelKey(a.id)));
    AllPlannedMembers(init);
    assert a in agents && KeyOfAgent(ModelKey(a.id), a);
    forall k | k in NodeKeysOf(acc1)
      ensures KeyText(k) != KeyText(ModelKey(a.id))
    {
      if k in AllPlanned(init) {
        EarlierKeysDiffer(agents, k);
        var b :| b in init && KeyOfAgent(k, b);
        assert b in agents;
      } else {
        assert k == AgentKey(a.id);
      }
      KeyTextInjective(agents, k, ModelKey(a.id));
    }
  }

  lemma AgentNodeCounts(acc: seq<Element>, a: Agent)
    ensures NodeKeysOf(acc + [AgentNode(a)]) == NodeKeysOf(acc) + [AgentKey(a.id)]
    ensures EdgeCount(acc + [AgentNode(a)]) == EdgeCount(acc)
  {
    CountsOfAppend(acc, [AgentNode(a)]);
    assert [AgentNode(a)][..0] == [];
  }

  /** Under the two id assumptions the builder emits exactly the planned
      nodes, in the planned order. */
  lemma NoIdClashOfPrefix(agents: seq<Agent>)
    requires |agents| > 0 && DistinctIds(agents) && NoIdClash(agents)
    ensures DistinctIds(agents[..|agents| - 1]) && NoIdClash(agents[..|agents| - 1])
  {
    assert forall b :: b in agents[..|agents| - 1] ==> b in agents;
  }

  /** An agent adds its planned keys when its model id is new. */
  lemma AddAgentKeys(acc: seq<Element>, a: Agent)
    requires Typed(a)
    requires Truthy(a.model) ==> !HasNodeId(acc + [AgentNode(a)], KeyText(ModelKey(a.id)))
    ensures NodeKeysOf(AddAgent(acc, a)) == NodeKeysOf(acc) + PlannedKeys(a)
  {
    var before, head := NodeKeysOf(acc), [AgentKey(a.id)];
    var m := if Truthy(a.model) then [ModelKey(a.id)] else [];
    var tools := ToolKeys(a, |a.tools|);
    assert (before + head + m) + tools == before + (head + m + tools);
    var acc1 := acc + [AgentNode(a)];
    AgentNodeCounts(acc, a);
    var acc2 := AddModel(acc1, a);
    assert NodeKeysOf(acc2) == NodeKeysOf(acc1) + m;
    AddToolsKeys(acc2, a, |a.tools|);
    assert NodeKeysOf(AddAgent(acc, a)) == NodeKeysOf(acc2) + tools;
  }

  lemma {:induction false} BuildEmitsPlannedNodes(agents: seq<Agent>)
    requires AllTyped(agents) && DistinctIds(agents) && NoIdClash(agents)
    ensures NodeKeysOf(Build(agents)) == AllPlanned(agents)
  {
    if |agents| > 0 {
      var init := agents[..|agents| - 1];
      var a := agents[|agents| - 1];
      assert forall b :: b in init ==> b in agents;
      NoIdClashOfPrefix(agents);
      BuildEmitsPlannedNodes(init);
      var acc := Build(init);
      if Truthy(a.model) {
        ModelNodeIsNew(agents, acc);
      }
      assert a in agents;
      AddAgentKeys(acc, a);
    }
  }

  /** One edge per model, per tool and per connection, whatever the ids. */
  lemma {:induction false} BuildEdgeCount(agents: seq<Agent>)
    requires AllTyped(agents)
    ensures EdgeCount(Build(agents)) == ModelCount(agents) + ToolCount(agents) + ConnectionCount(agents)
  {
    if |agents| > 0 {
      var init := agents[..|agents| - 1];
      var a := agents[|agents| - 1];
      assert forall b :: b in init ==> b in agents;
      BuildEdgeCount(init);
      AgentNodeCounts(Build(init), a);
      assert a in agents;
      AddToolsEdges(AddModel(Build(init) + [AgentNode(a)], a), a, |a.tools|);
      ToolKeysLength(a, |a.tools|);
      assert a.tools[..|a.tools|] == a.tools;
      assert a in agents;
    }
  }

  /** Node ids are unique when agent ids are distinct and never equal a
      synthesized id. */
  lemma BuildNodeIdsUnique(agents: seq<Agent>)
    requires AllTyped(agents) && DistinctIds(agents) && NoIdClash(agents)
    ensures PairwiseDistinct(Texts(NodeKeysOf(Build(agents))))
  {
    BuildEmitsPlannedNodes(agents);
    PlannedTextsDistinct(agents);
  }

  /** Under the same assumptions: one node per agent, per model, per tool
      and per connection. */
  lemma BuildNodeCount(agents: seq<Agent>)
    requires AllTyped(agents) && DistinctIds(agents) && NoIdClash(agents)
    ensures |NodeKeysOf(Build(agents))| == |agents| + ModelCount(agents) + ToolCount(agents) + ConnectionCount(agents)
  {
    BuildEmitsPlannedNodes(agents);
    AllPlannedLength(agents);
  }

  // ---------------------------------------------------------------------
  // Edge endpoints and model nodes, with no assumption on the ids

  /** Some node before position `j` has id `id`. */
  ghost predicate NodeBefore(elems: seq<Element>, j: nat, id: string)
    requires j <= |elems|
  {
    exists i :: 0 <= i < j && elems[i].Node? && KeyText(elems[i].key) == id
  }

  /** Every edge joins two ids of nodes emitted before it. */
  ghost predicate EdgesLinked(elems: seq<Element>) {
    forall j :: 0 <= j < |elems| && elems[j].Edge? ==>
      NodeBefore(elems, j, KeyText(elems[j].source)) && NodeBefore(elems, j, KeyText(elems[j].target))
  }

  /** No model node repeats the id of a node emitted before it. */
  ghost predicate ModelNodesFresh(elems: seq<Element>) {
    forall j :: 0 <= j < |elems| && elems[j].Node? && elems[j].category == ModelCategory ==>
      !NodeBefore(elems, j, KeyText(elems[j].key))
  }

  ghost predicate Sound(elems: seq<Element>) {
    EdgesLinked(elems) && ModelNodesFresh(elems)
  }

  lemma NodeBeforeInPrefix(acc: seq<Element>, e: Element, j: nat, id: string)
    requires j <= |acc|
    ensures NodeBefore(acc + [e], j, id) <==> NodeBefore(acc, j, id)
    ensures j == |acc| ==> (NodeBefore(acc, j, id) <==> HasNodeId(acc, id))
  {
    var z := acc + [e];
    if NodeBefore(z, j, id) {
      var i :| 0 <= i < j && z[i].Node? && KeyText(z[i].key) == id;
      assert acc[i] == z[i];
    }
    if NodeBefore(acc, j, id) {
      var i :| 0 <= i < j && acc[i].Node? && KeyText(acc[i].key) == id;
      assert z[i] == acc[i];
    }
  }

  /** Appending one element keeps the list sound when an edge's endpoints
      are already there and a model node's id is not. */
  lemma Push(acc: seq<Element>, e: Element)
    requires Sound(acc)
    requires e.Edge? ==> HasNodeId(acc, KeyText(e.source)) && HasNodeId(acc, KeyText(e.target))
    requires e.Node? && e.category == ModelCategory ==> !HasNodeId(acc, KeyText(e.key))
    ensures Sound(acc + [e])
    ensures forall id :: HasNodeId(acc, id) ==> HasNodeId(acc + [e], id)
    ensures e.Node? ==> HasNodeId(acc + [e], KeyText(e.key))
  {
    var z := acc + [e];
    forall j | 0 <= j < |z| && z[j].Edge?
      ensures NodeBefore(z, j, KeyText(z[j].source)) && NodeBefore(z, j, KeyText(z[j].target))
    {
      NodeBeforeInPrefix(acc, e, j, KeyText(z[j].source));
      NodeBeforeInPrefix(acc, e, j, KeyText(z[j].target));
      if j < |acc| {
        assert z[j] == acc[j];
      }
    }
    forall j | 0 <= j < |z| && z[j].Node? && z[j].category == ModelCategory
      ensures !NodeBefore(z, j, KeyText(z[j].key))
    {
      NodeBeforeInPrefix(acc, e, j, KeyText(z[j].key));
      if j < |acc| {
        assert z[j] == acc[j];
      }
    }
    forall id | HasNodeId(acc, id)
      ensures HasNodeId(z, id)
    {
      var i :| 0 <= i < |acc| && acc[i].Node? && KeyText(acc[i].key) == id;
      assert z[i] == acc[i];
    }
    if e.Node? {
      assert z[|acc|] == e;
    }
  }

  lemma AddModelSound(acc: seq<Element>, a: Agent)
    requires Sound(acc) && HasNodeId(acc, a.id)
    ensures Sound(AddModel(acc, a)) && HasNodeId(AddModel(acc, a), a.id)
  {
    if Truthy(a.model) {
      var key := ModelKey(a.id);
      var node := Node(key, a.model, ModelCategory, ModelIcon, CategoryColor(ModelCategory));
      var edge := Edge(AgentKey(a.id), key, CategoryColor(ModelCategory));
      if HasNodeId(acc, KeyText(key)) {
        assert AddModel(acc, a) == acc + [edge];
        Push(acc, edge);
      } else {
        assert AddModel(acc, a) == acc + [node] + [edge];
        Push(acc, node);
        Push(acc + [node], edge);
      }
    }
  }

  lemma ConnectionPartSound(acc: seq<Element>, a: Agent, i: nat)
    requires i < |a.tools|
    requires Sound(acc) && HasNodeId(acc, a.id) && HasNodeId(acc, KeyText(ToolKey(a.id, i)))
    ensures Sound(acc + ConnectionPart(a, i)) && HasNodeId(acc + ConnectionPart(a, i), a.id)
  {
    var part := ConnectionPart(a, i);
    if part == [] {
      assert acc + part == acc;
    } else {
      Push(acc, part[0]);
      Push(acc + [part[0]], part[1]);
      assert acc + part == acc + [part[0]] + [part[1]];
    }
  }

  lemma ToolPartSound(acc: seq<Element>, a: Agent, i: nat)
    requires i < |a.tools| && a.tools[i].toolType.Some?
    requires Sound(acc) && HasNodeId(acc, a.id)
    ensures var acc2 := acc + [ToolNode(a, i), Edge(AgentKey(a.id), ToolKey(a.id, i), CategoryColor(ToolCategory))];
      Sound(acc2) && HasNodeId(acc2, a.id) && HasNodeId(acc2, KeyText(ToolKey(a.id, i)))
  {
    var toolNode := ToolNode(a, i);
    var toolEdge := Edge(AgentKey(a.id), ToolKey(a.id, i), CategoryColor(ToolCategory));
    Push(acc, toolNode);
    Push(acc + [toolNode], toolEdge);
    assert acc + [toolNode] + [toolEdge] == acc + [toolNode, toolEdge];
  }

  lemma AddToolSound(acc: seq<Element>, a: Agent, i: nat)
    requires i < |a.tools| && a.tools[i].toolType.Some?
    requires Sound(acc) && HasNodeId(acc, a.id)
    ensures Sound(AddTool(acc, a, i)) && HasNodeId(AddTool(acc, a, i), a.id)
  {
    var acc2 := acc + [ToolNode(a, i), Edge(AgentKey(a.id), ToolKey(a.id, i), CategoryColor(ToolCategory))];
    ToolPartSound(acc, a, i);
    ConnectionPartSound(acc2, a, i);
    assert AddTool(acc, a, i) == acc2 + ConnectionPart(a, i);
  }

  lemma {:induction false} AddToolsSound(acc: seq<Element>, a: Agent, n: nat)
    requires n <= |a.tools| && Typed(a)
    requires Sound(acc) && HasNodeId(acc, a.id)
    ensures Sound(AddTools(acc, a, n)) && HasNodeId(AddTools(acc, a, n), a.id)
  {
    if n > 0 {
      AddToolsSound(acc, a, n - 1);
      assert a.tools[n - 1] in a.tools;
      AddToolSound(AddTools(acc, a, n - 1), a, n - 1);
    }
  }

  /** Every edge joins ids of earlier nodes, and no model node repeats an
      earlier id, for any agents. */
  lemma {:induction false} BuildSound(agents: seq<Agent>)
    requires AllTyped(agents)
    ensures EdgesLinked(Build(agents)) && ModelNodesFresh(Build(agents))
  {
    if |agents| > 0 {
      var init := agents[..|agents| - 1];
      var a := agents[|agents| - 1];
      assert forall b :: b in init ==> b in agents;
      BuildSound(init);
      var acc := Build(init);
      Push(acc, AgentNode(a));
      AddModelSound(acc + [AgentNode(a)], a);
      assert a in agents;
      AddToolsSound(AddModel(acc + [AgentNode(a)], a), a, |a.tools|);
    }
  }
}

/** The graph of two small inventories. */
module GraphExamples {
  import opened Text
  import opened Optional
  import opened Records
  import opened NodeKeys
  import opened GraphBuilder

  /** The elements of a single agent with no model and one tool. */
  lemma SingleToolAgent(a: Agent)
    requires !Truthy(a.model) && |a.tools| == 1 && a.tools[0].toolType.Some?
    ensures Build([a]) == [AgentNode(a), ToolNode(a, 0), Edge(AgentKey(a.id), ToolKey(a.id, 0), "#eab308")]
      + ConnectionPart(a, 0)
  {
    assert AllTyped([a]);
    assert [a][..0] == [];
    assert Build([a]) == AddAgent([], a);
    var acc1 := [AgentNode(a)];
    assert AddModel(acc1, a) == acc1;
    assert AddTools(acc1, a, 0) == acc1;
    assert AddTools(acc1, a, 1) == AddTool(acc1, a, 0);
    assert CategoryColor(ToolCategory) == "#eab308";
    var edge := Edge(AgentKey(a.id), ToolKey(a.id, 0), CategoryColor(ToolCategory));
    var tn := ToolNode(a, 0);
    var cp := ConnectionPart(a, 0);
    assert AddTool(acc1, a, 0) == acc1 + ([tn, edge] + cp);
    assert acc1 + ([tn, edge] + cp) == [AgentNode(a), tn, edge] + cp;
  }

  const FileSearchAgent := Agent("a1", Some("Helper"), None, [Tool(Some("file_search"), None, None)],
                                 None, None, None, None)

  lemma FileSearchIcon()
    ensures ToolIconFor("file_search") == SearchIcon
  {
    LowerKeepsLowercase("file_search");
    assert "file_search"[5..11] == "search";
    OccurrenceGivesContains("file_search", "search", 5);
    SearchTypeIcon("file_search");
  }

  /** Helper: a type containing "search" gets the search icon. */
  lemma SearchTypeIcon(t: string)
    requires Contains(Lower(t), "search")
    ensures ToolIconFor(t) == SearchIcon
  {
  }

  lemma FileSearchParts()
    ensures ConnectionPart(FileSearchAgent, 0) == []
    ensures ToolNode(FileSearchAgent, 0) == Node(ToolKey("a1", 0), Some("file_search"), ToolCategory, SearchIcon, "#eab308")
  {
    FileSearchIcon();
    assert DisplayName(FileSearchAgent.tools[0]) == "file_search";
  }

  /** The id the browser gives the first tool of agent `a1`. */
  lemma FirstToolId()
    ensures KeyText(ToolKey("a1", 0)) == "a1_tool_0"
  {
    assert NatText(0) == "0";
  }

  /** An agent without a model and with one file-search tool: the agent
      node, the tool node `a1_tool_0` with the search icon, and one edge. */
  lemma FileSearchAgentGraph()
    ensures Build([FileSearchAgent]) == [
      AgentNode(FileSearchAgent),
      Node(ToolKey("a1", 0), Some("file_search"), ToolCategory, SearchIcon, "#eab308"),
      Edge(AgentKey("a1"), ToolKey("a1", 0), "#eab308")]
  {
    var a := FileSearchAgent;
    SingleToolAgent(a);
    FileSearchParts();
    assert [AgentNode(a), ToolNode(a, 0), Edge(AgentKey("a1"), ToolKey("a1", 0), "#eab308")] + []
        == [AgentNode(a), ToolNode(a, 0), Edge(AgentKey("a1"), ToolKey("a1", 0), "#eab308")];
  }

  const GithubToolAgent := Agent("a2", Some("Coder"), None, [Tool(Some("custom_fn"), None, Some("github-conn"))],
                                 None, None, None, None)

  lemma GithubConnectionIcon()
    ensures ConnectionIconFor("github-conn") == GithubIcon
  {
    LowerKeepsLowercase("github-conn");
    assert "github" <= "github-conn";
  }

  lemma GithubParts()
    ensures ConnectionPart(GithubToolAgent, 0) == [
      Node(ConnKey("a2", 0), Some("github-conn"), ResourceCategory, GithubIcon, "#22c55e"),
      Edge(ToolKey("a2", 0), ConnKey("a2", 0), "#22c55e")]
    ensures ToolNode(GithubToolAgent, 0).key == ToolKey("a2", 0)
    ensures ToolNode(GithubToolAgent, 0).category == ToolCategory
  {
    GithubConnectionIcon();
  }

  /** A tool with a GitHub connection: tool node, connection node with the
      GitHub icon, and the edges agent-tool and tool-connection. */
  lemma GithubToolGraph()
    ensures Build([GithubToolAgent]) == [
      AgentNode(GithubToolAgent),
      ToolNode(GithubToolAgent, 0),
      Edge(AgentKey("a2"), ToolKey("a2", 0), "#eab308"),
      Node(ConnKey("a2", 0), Some("github-conn"), ResourceCategory, GithubIcon, "#22c55e"),
      Edge(ToolKey("a2", 0), ConnKey("a2", 0), "#22c55e")]
    ensures ToolNode(GithubToolAgent, 0).key == ToolKey("a2", 0)
    ensures ToolNode(GithubToolAgent, 0).category == ToolCategory
  {
    var a := GithubToolAgent;
    SingleToolAgent(a);
    GithubParts();
  }
}

=== FILE: json.dfy ===
/** Optional values, used for fields a record may lack. */
module Optional {

  datatype Option<+T> = None | Some(value: T) {

    function GetOr(default: T): T {
      match this
      case Some(v) => v
      case None => default
    }
  }
}

/** Decoded JSON values, and the slice of Python's semantics the backend
    applies to them: `dict.get`, subscripting, the `in` operator,
    truthiness, iteration and `str()`. Exceptions are `Err` values. */
module Json {
  import opened Text

  /** A decoded JSON document. Objects keep their keys in document order
      (Python dicts preserve insertion order); `json.loads` yields distinct
      keys, and lookups return the first match. Numbers are integers. */
  datatype Json =
    | JNull
    | JBool(b: bool)
    | JNum(n: int)
    | JStr(s: string)
    | JArr(items: seq<Json>)
    | JObj(fields: seq<(string, Json)>)

  /** The Python exceptions the modelled code can raise. */
  datatype PyError = AttributeError | TypeError | KeyError | IndexError

  /** A value or the exception raised while computing it. */
  datatype Result<+T> = Ok(value: T) | Err(error: PyError) {
    predicate IsFailure() {
      Err?
    }

    function PropagateFailure<U>(): Result<U>
      requires Err?
    {
      Err(error)
    }

    function Extract(): T
      requires Ok?
    {
      value
    }
  }

  const EmptyObject: Json := JObj([])

  /** Python truthiness of a JSON value. */
  predicate Truthy(j: Json) {
    match j
    case JNull => false
    case JBool(b) => b
    case JNum(n) => n != 0
    case JStr(s) => s != ""
    case JArr(xs) => xs != []
    case JObj(fs) => fs != []
  }

  /** Python `a or b`: one of the operands, truthy exactly when either
      is, and the left one whenever it is truthy. */
  function Or(a: Json, b: Json): (r: Json)
    ensures r == a || r == b
    ensures Truthy(r) <==> Truthy(a) || Truthy(b)
    ensures Truthy(a) ==> r == a
    ensures !Truthy(a) ==> r == b
  {
    if Truthy(a) then a else b
  }

  /** A chain of `or`s picks the first truthy operand however it is
      grouped, and the last operand when none is truthy. */
  lemma OrAssociative(a: Json, b: Json, c: Json)
    ensures Or(Or(a, b), c) == Or(a, Or(b, c))
    ensures Truthy(a) ==> Or(a, Or(b, c)) == a
    ensures !Truthy(a) && Truthy(b) ==> Or(a, Or(b, c)) == b
    ensures !Truthy(a) && !Truthy(b) ==> Or(a, Or(b, c)) == c
  {
  }

  predicate HasKey(fields: seq<(string, Json)>, k: string) {
    exists i :: 0 <= i < |fields| && fields[i].0 == k
  }

  /** The value stored under `k` (first occurrence), or `default`. */
  function Lookup(fields: seq<(string, Json)>, k: string, default: Json): (r: Json)
    ensures !HasKey(fields, k) ==> r == default
    ensures HasKey(fields, k) ==> exists i :: 0 <= i < |fields| && fields[i] == (k, r)
  {
    if |fields| == 0 then default
    else if fields[0].0 == k then fields[0].1
    else
      var r := Lookup(fields[1..], k, default);
      assert HasKey(fields, k) ==> HasKey(fields[1..], k) by {
        if HasKey(fields, k) {
          var i :| 0 <= i < |fields| && fields[i].0 == k;
          assert fields[1..][i - 1].0 == k;
        }
      }
      assert HasKey(fields[1..], k) ==> HasKey(fields, k) by {
        if HasKey(fields[1..], k) {
          var i :| 0 <= i < |fields[1..]| && fields[1..][i].0 == k;
          assert fields[i + 1].0 == k;
        }
      }
      r
  }

  /** `d.get(k, default)`: only dicts have `get`. */
  function DictGet(d: Json, k: string, default: Json): (r: Result<Json>)
    ensures r.Ok? <==> d.JObj?
    ensures d.JObj? && !HasKey(d.fields, k) ==> r == Ok(default)
  {
    if d.JObj? then Ok(Lookup(d.fields, k, default)) else Err(AttributeError)
  }

  /** `d[k]` for a string key. */
  function Subscript(d: Json, k: string): (r: Result<Json>)
    ensures r.Ok? <==> d.JObj? && HasKey(d.fields, k)
  {
    match d
    case JObj(fs) => if HasKey(fs, k) then Ok(Lookup(fs, k, JNull)) else Err(KeyError)
    case _ => Err(TypeError)
  }

  /** `d.get(key, default)` where the key is itself a decoded value: lists
      and dicts are unhashable; only a string can equal an object key. */
  function DictGetByValue(d: Json, key: Json, default: Json): (r: Result<Json>)
    ensures r.Ok? <==> d.JObj? && !key.JArr? && !key.JObj?
  {
    if !d.JObj? then Err(AttributeError)
    else match key
      case JArr(_) => Err(TypeError)
      case JObj(_) => Err(TypeError)
      case JStr(s) => Ok(Lookup(d.fields, s, default))
      case _ => Ok(default)
  }

  /** Python `needle in container` for a string needle. */
  function In(needle: string, container: Json): (r: Result<bool>)
    ensures container.JStr? ==> r == Ok(Contains(container.s, needle))
    ensures container.JObj? ==> r == Ok(HasKey(container.fields, needle))
    ensures r.Err? <==> !(container.JStr? || container.JArr? || container.JObj?)
  {
    match container
    case JStr(s) => Ok(Contains(s, needle))
    case JArr(xs) => Ok(JStr(needle) in xs)
    case JObj(fs) => Ok(HasKey(fs, needle))
    case _ => Err(TypeError)
  }

  /** Python `a in c or b in c`. The second test runs only when the first
      is false, and it raises exactly when the first would have. */
  function InEither(a: string, b: string, container: Json): (r: Result<bool>)
    ensures r.Err? <==> In(a, container).Err?
    ensures r.Ok? ==> (r.value <==> In(a, container).value || In(b, container).value)
  {
    var first :- In(a, container);
    if first then Ok(true)
    else match container
      case JStr(s) => Ok(Contains(s, b))
      case JArr(xs) => Ok(JStr(b) in xs)
      case JObj(fs) => Ok(HasKey(fs, b))
  }

  /** `x[0]` on a value already known to be truthy. */
  function First(j: Json): (r: Result<Json>)
    ensures j.JArr? && |j.items| > 0 ==> r == Ok(j.items[0])
  {
    match j
    case JArr(xs) => if |xs| > 0 then Ok(xs[0]) else Err(IndexError)
    case JStr(s) => if |s| > 0 then Ok(JStr([s[0]])) else Err(IndexError)
    case JObj(_) => Err(KeyError)
    case _ => Err(TypeError)
  }

  /** The elements a Python `for` loop visits: list items, the characters
      of a string, the keys of a dict. */
  function Iterate(j: Json): (r: Result<seq<Json>>)
    ensures j.JArr? ==> r == Ok(j.items)
    ensures r.Ok? <==> (j.JArr? || j.JStr? || j.JObj?)
  {
    match j
    case JArr(xs) => Ok(xs)
    case JStr(s) => Ok(seq(|s|, i requires 0 <= i < |s| => JStr([s[i]])))
    case JObj(fs) => Ok(seq(|fs|, i requires 0 <= i < |fs| => JStr(fs[i].0)))
    case _ => Err(TypeError)
  }

  /** `x.lower()`: only strings have it. */
  function LowerOf(j: Json): (r: Result<string>)
    ensures r.Ok? <==> j.JStr?
    ensures j.JStr? ==> r == Ok(Lower(j.s))
  {
    if j.JStr? then Ok(Lower(j.s)) else Err(AttributeError)
  }

  /** `x.split(c)`: only strings have it. */
  function SplitOf(j: Json, c: char): (r: Result<seq<string>>)
    ensures r.Ok? <==> j.JStr?
    ensures r.Ok? ==> |r.value| >= 1 && Join(r.value, [c]) == j.s
  {
    if j.JStr? then SplitJoinRoundTrip(j.s, c); Ok(Split(j.s, c)) else Err(AttributeError)
  }

  /** `parts[i]` for a non-negative index. */
  function At(parts: seq<string>, i: nat): (r: Result<string>)
    ensures r.Ok? <==> i < |parts|
  {
    if i < |parts| then Ok(parts[i]) else Err(IndexError)
  }

  /** `str(x)` as an f-string renders it. Strings render as themselves;
      inside lists and dicts they render in quotes (Python's `repr`). */
  function PyStr(j: Json): string
    decreases j, 1
  {
    match j
    case JNull => "None"
    case JBool(b) => if b then "True" else "False"
    case JNum(n) => IntText(n)
    case JStr(s) => s
    case JArr(xs) => "[" + Join(seq(|xs|, i requires 0 <= i < |xs| => Repr(xs[i])), ", ") + "]"
    case JObj(fs) =>
      "{" + Join(seq(|fs|, i requires 0 <= i < |fs| => "'" + fs[i].0 + "': " + Repr(fs[i].1)), ", ") + "}"
  }

  /** `repr(x)`: strings in single quotes, everything else as `str`. */
  function Repr(j: Json): string
    decreases j, 2
  {
    if j.JStr? then "'" + j.s + "'" else PyStr(j)
  }
}

=== FILE: loading.dfy ===
/** The global loading indicator (`updateLoadingState` in
    src/frontend/static/js/graph.js): a counter of loads in flight, the
    indicator's visibility, its "ready" message, and the three-second hide
    timers it has scheduled. Time is left out: a timer's expiry is an
    event of its own. */
module Loading {

  datatype State = State(active: int, visible: bool, ready: bool, pendingHides: nat)

  /** Events: a load starts (`updateLoadingState(true)`), a load ends
      (`updateLoadingState(false)`), or the oldest scheduled hide timer
      expires. */
  datatype Event = Begin | Finish | HideTimer

  /** Before any load: nothing in flight, nothing shown. */
  const Idle := State(0, false, false, 0)

  /** The states reachable from `Idle`: the counter is never negative, the
      ready message only shows with nothing in flight, and the indicator
      stays visible while anything is in flight. */
  ghost predicate Valid(s: State) {
    && s.active >= 0
    && (s.ready ==> s.active == 0)
    && (s.active > 0 ==> s.visible && !s.ready)
  }

  function Start(s: State): (r: State)
    ensures r.active == s.active + 1 && r.visible && !r.ready
    ensures r.pendingHides == s.pendingHides
  {
    State(s.active + 1, true, false, s.pendingHides)
  }

  /** Decrements the counter; at or below zero it is reset to zero, the
      ready message shows and a hide is scheduled. */
  function End(s: State): (r: State)
    ensures s.active >= 1 ==> r.active == s.active - 1
    ensures s.active <= 1 ==> r.active == 0 && r.ready && r.pendingHides == s.pendingHides + 1
    ensures s.active > 1 ==> r.ready == s.ready && r.pendingHides == s.pendingHides
    ensures r.visible == s.visible
  {
    var n := s.active - 1;
    if n <= 0 then State(0, s.visible, true, s.pendingHides + 1)
    else State(n, s.visible, s.ready, s.pendingHides)
  }

  /** A load that starts and ends with nothing else happening restores the
      counter and keeps the indicator visible; from idle it shows the ready
      message and schedules one hide, while an outer load in flight keeps
      the message hidden. */
  lemma EndUndoesStart(s: State)
    requires s.active >= 0
    ensures End(Start(s)).active == s.active && End(Start(s)).visible
    ensures s.active == 0 ==> End(Start(s)).ready && End(Start(s)).pendingHides == s.pendingHides + 1
    ensures s.active > 0 ==> !End(Start(s)).ready && End(Start(s)).pendingHides == s.pendingHides
  {
  }

  /** A scheduled hide hides the indicator only if nothing is in flight
      when it expires. */
  function TimerFires(s: State): (r: State)
    ensures r.active == s.active && r.ready == s.ready
    ensures s.pendingHides > 0 ==> r.pendingHides == s.pendingHides - 1
    ensures s.pendingHides == 0 ==> r == s
    ensures r.visible != s.visible ==> s.pendingHides > 0 && s.active == 0 && !r.visible
  {
    if s.pendingHides == 0 then s
    else State(s.active, s.visible && s.active != 0, s.ready, s.pendingHides - 1)
  }

  /** One event. It keeps a valid state valid, and the indicator is hidden
      only by a timer that expires with nothing in flight. */
  function Step(s: State, e: Event): (r: State)
    ensures Valid(s) ==> Valid(r)
    ensures s.visible && !r.visible ==> e == HideTimer && s.active == 0 && s.pendingHides > 0
  {
    match e
    case Begin => Start(s)
    case Finish => End(s)
    case HideTimer => TimerFires(s)
  }

  function Run(s: State, events: seq<Event>): State {
    if |events| == 0 then s else Step(Run(s, events[..|events| - 1]), events[|events| - 1])
  }

  /** Every state reached from `Idle`, whatever the interleaving of starts,
      ends and timers, is valid: in particular the counter never goes
      negative. */
  lemma {:induction false} RunValid(s: State, events: seq<Event>)
    requires Valid(s)
    ensures Valid(Run(s, events))
  {
    if |events| > 0 {
      RunValid(s, events[..|events| - 1]);
    }
  }

  function Repeat(e: Event, n: nat): (es: seq<Event>)
    ensures |es| == n && forall i :: 0 <= i < n ==> es[i] == e
  {
    if n == 0 then [] else Repeat(e, n - 1) + [e]
  }

  lemma {:induction false} StartsCount(s: State, n: nat)
    ensures Run(s, Repeat(Begin, n)).active == s.active + n
    ensures n > 0 ==> !Run(s, Repeat(Begin, n)).ready
  {
    if n > 0 {
      assert Repeat(Begin, n)[..n - 1] == Repeat(Begin, n - 1);
      StartsCount(s, n - 1);
    }
  }

  lemma {:induction false} EndsCount(s: State, n: nat)
    requires s.active >= n
    ensures Run(s, Repeat(Finish, n)).active == s.active - n
    ensures n > 0 && s.active == n ==> Run(s, Repeat(Finish, n)).ready
  {
    if n > 0 {
      assert Repeat(Finish, n)[..n - 1] == Repeat(Finish, n - 1);
      EndsCount(s, n - 1);
    }
  }

  lemma {:induction false} RunAppend(s: State, xs: seq<Event>, ys: seq<Event>)
    ensures Run(s, xs + ys) == Run(Run(s, xs), ys)
    decreases |ys|
  {
    if |ys| > 0 {
      assert (xs + ys)[..|xs + ys| - 1] == xs + ys[..|ys| - 1];
      RunAppend(s, xs, ys[..|ys| - 1]);
      assert (xs + ys)[|xs + ys| - 1] == ys[|ys| - 1];
    } else {
      assert xs + ys == xs;
    }
  }

  /** `n` overlapping loads that all finish bring the counter back to where
      it was and, from idle, show the ready message. */
  lemma BalancedLoads(s: State, n: nat)
    requires s.active >= 0
    ensures Run(s, Repeat(Begin, n) + Repeat(Finish, n)).active == s.active
    ensures n > 0 && s.active == 0 ==> Run(s, Repeat(Begin, n) + Repeat(Finish, n)).ready
  {
    RunAppend(s, Repeat(Begin, n), Repeat(Finish, n));
    StartsCount(s, n);
    EndsCount(Run(s, Repeat(Begin, n)), n);
  }
}

=== FILE: metrics.dfy ===
/** A JavaScript object used as a counter (`counts[k] = (counts[k] || 0) + 1`):
    keys in insertion order, each with its count. */
module Histogram {
  import opened Seqs

  type Counts = seq<(string, nat)>

  function Keys(h: Counts): (ks: seq<string>)
    ensures |ks| == |h| && forall i :: 0 <= i < |h| ==> ks[i] == h[i].0
  {
    seq(|h|, i requires 0 <= i < |h| => h[i].0)
  }

  /** `counts[k] || 0`. */
  function Get(h: Counts, k: string): nat {
    if |h| == 0 then 0 else if h[0].0 == k then h[0].1 else Get(h[1..], k)
  }

  function Total(h: Counts): nat {
    if |h| == 0 then 0 else h[0].1 + Total(h[1..])
  }

  /** One more occurrence of `k`: the count of `k` goes up by one, every
      other count stays, and a new key goes to the end. */
  function Bump(h: Counts, k: string): (r: Counts)
    ensures Get(r, k) == Get(h, k) + 1
    ensures forall j :: j != k ==> Get(r, j) == Get(h, j)
    ensures Total(r) == Total(h) + 1
    ensures k in Keys(h) ==> Keys(r) == Keys(h)
    ensures k !in Keys(h) ==> Keys(r) == Keys(h) + [k]
  {
    if |h| == 0 then [(k, 1)]
    else if h[0].0 == k then [(k, h[0].1 + 1)] + h[1..]
    else
      var rest := Bump(h[1..], k);
      assert Keys(h) == [h[0].0] + Keys(h[1..]);
      assert ([h[0]] + rest)[1..] == rest;
      [h[0]] + rest
  }

  /** The histogram of `labels`, counted in order. */
  function Tally(labels: seq<string>): Counts {
    if |labels| == 0 then [] else Bump(Tally(labels[..|labels| - 1]), labels[|labels| - 1])
  }

  /** Each label's count is its number of occurrences, the counts add up
      to the number of labels, and every label is a key exactly once. */
  lemma {:induction false} TallyCounts(labels: seq<string>)
    ensures forall k :: Get(Tally(labels), k) == multiset(labels)[k]
    ensures Total(Tally(labels)) == |labels|
    ensures forall k :: k in Keys(Tally(labels)) <==> k in labels
    ensures PairwiseDistinct(Keys(Tally(labels)))
  {
    if |labels| > 0 {
      var init := labels[..|labels| - 1];
      var last := labels[|labels| - 1];
      TallyCounts(init);
      assert labels == init + [last];
      assert multiset(labels) == multiset(init) + multiset{last};
      var ks := Keys(Tally(init));
      if last !in ks {
        forall i, j | 0 <= i < j < |ks + [last]|
          ensures (ks + [last])[i] != (ks + [last])[j]
        {
          if j == |ks| {
            assert (ks + [last])[i] == ks[i];
          } else {
            assert (ks + [last])[i] == ks[i] && (ks + [last])[j] == ks[j];
          }
        }
      }
    }
  }
}

/** The dashboard numbers of `updateKPIs` and `updateDashboardCharts`
    (src/frontend/static/js/graph.js), computed over every loaded agent. */
module Metrics {
  import opened Text
  import opened Optional
  import opened Seqs
  import opened Records
  import opened Histogram

  const UnknownModel := "Unknown"
  const CustomTool := "custom"

  /** `a.model || "Unknown"`. */
  function ModelLabel(a: Agent): string {
    if Truthy(a.model) then a.model.value else UnknownModel
  }

  function ModelLabels(agents: seq<Agent>): (ls: seq<string>)
    ensures |ls| == |agents| && forall i :: 0 <= i < |agents| ==> ls[i] == ModelLabel(agents[i])
  {
    seq(|agents|, i requires 0 <= i < |agents| => ModelLabel(agents[i]))
  }

  function ModelHistogram(agents: seq<Agent>): Counts {
    Tally(ModelLabels(agents))
  }

  /** A tool's chart category: its type (or "custom"), renamed by the first
      of search, code, function, mcp it contains, case-sensitively. The
      category is never empty, and is one of the four names or the type. */
  function ToolCategory(t: Tool): (c: string)
    ensures c != ""
    ensures c in CategoryNames || c == (if Truthy(t.toolType) then t.toolType.value else CustomTool)
    ensures var ty := if Truthy(t.toolType) then t.toolType.value else CustomTool;
      && (Contains(ty, "search") ==> c == "File Search")
      && (!Contains(ty, "search") && Contains(ty, "code") ==> c == "Code Interpreter")
      && (!Contains(ty, "search") && !Contains(ty, "code") && Contains(ty, "function") ==> c == "Function")
      && ((!Contains(ty, "search") && !Contains(ty, "code") && !Contains(ty, "function") && Contains(ty, "mcp"))
            ==> c == "MCP Tool")
      && ((!Contains(ty, "search") && !Contains(ty, "code") && !Contains(ty, "function") && !Contains(ty, "mcp"))
            ==> c == ty)
  {
    var ty := if Truthy(t.toolType) then t.toolType.value else CustomTool;
    if Contains(ty, "search") then "File Search"
    else if Contains(ty, "code") then "Code Interpreter"
    else if Contains(ty, "function") then "Function"
    else if Contains(ty, "mcp") then "MCP Tool"
    else ty
  }

  const CategoryNames := {"File Search", "Code Interpreter", "Function", "MCP Tool"}

  /** The characters a category name lacks: together they rule out
      every word `ToolCategory` looks for. */
  predicate LacksKeywordChars(c: string) {
    's' !in c && 'f' !in c && 'm' !in c && ('c' !in c || 'd' !in c)
  }

  lemma FileSearchLacks() ensures LacksKeywordChars("File Search") { }
  lemma CodeInterpreterLacks() ensures LacksKeywordChars("Code Interpreter") { }
  lemma FunctionLacks() ensures LacksKeywordChars("Function") { }
  lemma McpToolLacks() ensures LacksKeywordChars("MCP Tool") { }

  /** A name lacking those characters contains none of the words. */
  lemma KeywordFree(c: string)
    requires LacksKeywordChars(c)
    ensures !Contains(c, "search") && !Contains(c, "code")
    ensures !Contains(c, "function") && !Contains(c, "mcp")
  {
    MissingCharNotContained(c, "search", 0);
    if 'c' !in c {
      MissingCharNotContained(c, "code", 0);
    } else {
      MissingCharNotContained(c, "code", 2);
    }
    MissingCharNotContained(c, "function", 0);
    MissingCharNotContained(c, "mcp", 0);
  }

  /** Every category name lacks those characters. */
  lemma CategoryNamesLack(c: string)
    requires c in CategoryNames
    ensures LacksKeywordChars(c)
  {
    FileSearchLacks();
    CodeInterpreterLacks();
    FunctionLacks();
    McpToolLacks();
  }

  /** Categorizing is idempotent: a tool whose type is already a category
      charts under that same category. */
  lemma ToolCategoryFixedPoint(t: Tool, other: Tool)
    requires other.toolType == Some(ToolCategory(t))
    ensures ToolCategory(other) == ToolCategory(t)
  {
    var c := ToolCategory(t);
    if c in CategoryNames {
      CategoryNamesLack(c);
      KeywordFree(c);
    }
  }

  /** The categories of every tool of every agent, agent by agent. */
  function ToolLabels(agents: seq<Agent>): (ls: seq<string>)
    ensures |ls| == ToolCount(agents)
  {
    if |agents| == 0 then []
    else
      var tools := agents[|agents| - 1].tools;
      ToolLabels(agents[..|agents| - 1]) + seq(|tools|, i requires 0 <= i < |tools| => ToolCategory(tools[i]))
  }

  function ToolHistogram(agents: seq<Agent>): Counts {
    Tally(ToolLabels(agents))
  }

  /** The model histogram counts every agent once, under its model or
      "Unknown". */
  lemma ModelHistogramCounts(agents: seq<Agent>)
    ensures Total(ModelHistogram(agents)) == |agents|
    ensures forall m :: Get(ModelHistogram(agents), m) == multiset(ModelLabels(agents))[m]
    ensures PairwiseDistinct(Keys(ModelHistogram(agents)))
  {
    TallyCounts(ModelLabels(agents));
  }

  /** The tool histogram counts every tool once. */
  lemma ToolHistogramCounts(agents: seq<Agent>)
    ensures Total(ToolHistogram(agents)) == ToolCount(agents)
    ensures forall c :: Get(ToolHistogram(agents), c) == multiset(ToolLabels(agents))[c]
    ensures PairwiseDistinct(Keys(ToolHistogram(agents)))
  {
    TallyCounts(ToolLabels(agents));
  }

  /** The models of the agents that have one. */
  function PresentModels(agents: seq<Agent>): (ms: seq<string>)
    ensures |ms| == ModelCount(agents)
    ensures forall m :: m in ms <==> exists a :: a in agents && Truthy(a.model) && a.model.value == m
  {
    if |agents| == 0 then []
    else
      var init := agents[..|agents| - 1];
      var last := agents[|agents| - 1];
      assert agents == init + [last];
      PresentModels(init) + (if Truthy(last.model) then [last.model.value] else [])
  }

  lemma {:induction false} ModelCountBound(agents: seq<Agent>)
    ensures ModelCount(agents) <= |agents|
  {
    if |agents| > 0 {
      ModelCountBound(agents[..|agents| - 1]);
    }
  }

  /** `new Set(models.filter(m => m)).size`: the number of distinct
      models among the agents that have one, which is the number of such
      agents exactly when no two of them share a model. */
  function ActiveModels(agents: seq<Agent>): (n: nat)
    ensures n == |set a | a in agents && Truthy(a.model) :: a.model.value|
    ensures n <= ModelCount(agents) <= |agents|
    ensures n == ModelCount(agents) <==> PairwiseDistinct(PresentModels(agents))
  {
    var ms := PresentModels(agents);
    DistinctCountBound(ms);
    ModelCountBound(agents);
    assert (set m | m in ms) == (set a | a in agents && Truthy(a.model) :: a.model.value);
    |set m | m in ms|
  }

  // ---------------------------------------------------------------------
  // Projects

  /** `resourceCache`: subscription id to its last resources response, in
      insertion order. A JavaScript object holds each key once
      (`UniqueKeys`), which `Put` preserves. */
  type Cache = seq<(string, Snapshot)>

  predicate UniqueKeys(c: Cache) {
    forall i, j :: 0 <= i < j < |c| ==> c[i].0 != c[j].0
  }

  /** `resourceCache[sub]`, `None` for `undefined`. */
  function Stored(c: Cache, sub: string): Option<Snapshot> {
    if |c| == 0 then None else if c[0].0 == sub then Some(c[0].1) else Stored(c[1..], sub)
  }

  /** `resourceCache[sub] = data`: the new entry is present, other
      entries are kept, an existing key keeps its place and a new one is
      appended. */
  function Put(cache: Cache, sub: string, s: Snapshot): (r: Cache)
    ensures (sub, s) in r
    ensures forall e :: e in r && e.0 != sub ==> e in cache
    ensures forall e :: e in cache && e.0 != sub ==> e in r
    ensures forall i :: 0 <= i < |cache| && cache[i].0 == sub ==> |r| == |cache|
    ensures (forall i :: 0 <= i < |cache| ==> cache[i].0 != sub) ==> r == cache + [(sub, s)]
  {
    if |cache| == 0 then [(sub, s)]
    else if cache[0].0 == sub then
      assert forall i :: 1 <= i < |cache| ==> cache[1..][i - 1] == cache[i];
      [(sub, s)] + cache[1..]
    else
      assert forall i :: 1 <= i < |cache| ==> cache[1..][i - 1] == cache[i];
      [cache[0]] + Put(cache[1..], sub, s)
  }

  /** An existing subscription keeps its place: `Put` overwrites the first
      entry with that key, where the source's object assignment keeps the
      key's position. */
  lemma {:induction false} PutKeepsPlace(cache: Cache, sub: string, s: Snapshot, i: nat)
    requires i < |cache| && cache[i].0 == sub
    requires forall j :: 0 <= j < i ==> cache[j].0 != sub
    ensures Put(cache, sub, s) == cache[i := (sub, s)]
  {
    if i > 0 {
      assert forall j :: 0 <= j < i - 1 ==> cache[1..][j] == cache[j + 1];
      PutKeepsPlace(cache[1..], sub, s, i - 1);
      assert [cache[0]] + cache[1..][i - 1 := (sub, s)] == cache[i := (sub, s)];
    }
  }

  /** After `Put`, `sub` reads back as the new snapshot and every other
      key reads as before. */
  lemma {:induction false} PutReadsBack(cache: Cache, sub: string, s: Snapshot)
    ensures Stored(Put(cache, sub, s), sub) == Some(s)
    ensures forall k :: k != sub ==> Stored(Put(cache, sub, s), k) == Stored(cache, k)
  {
    if |cache| > 0 && cache[0].0 != sub {
      PutReadsBack(cache[1..], sub, s);
      assert Put(cache, sub, s) == [cache[0]] + Put(cache[1..], sub, s);
    }
  }

  /** `Put` never makes a key appear twice. */
  lemma {:induction false} PutKeepsKeysUnique(cache: Cache, sub: string, s: Snapshot)
    requires UniqueKeys(cache)
    ensures UniqueKeys(Put(cache, sub, s))
  {
    if |cache| > 0 && cache[0].0 != sub {
      var tail := cache[1..];
      assert forall i, j :: 0 <= i < j < |tail| ==> tail[i] == cache[i + 1] && tail[j] == cache[j + 1];
      PutKeepsKeysUnique(tail, sub, s);
      var rest := Put(tail, sub, s);
      assert forall e :: e in tail ==> e.0 != cache[0].0;
      assert forall e :: e in rest ==> e.0 != cache[0].0;
      var r := [cache[0]] + rest;
      assert Put(cache, sub, s) == r;
      assert forall j :: 1 <= j < |r| ==> r[j] in rest;
    }
  }

  /** Every cached project, subscription by subscription. */
  function CachedProjects(cache: Cache): (ps: seq<Project>)
    ensures forall p :: p in ps <==> exists i :: 0 <= i < |cache| && p in ProjectsOf(cache[i].1)
  {
    if |cache| == 0 then []
    else
      assert forall i :: 1 <= i < |cache| ==> cache[1..][i - 1] == cache[i];
      ProjectsOf(cache[0].1) + CachedProjects(cache[1..])
  }

  function TotalProjects(cache: Cache): nat {
    |CachedProjects(cache)|
  }

  /** Endpoints of cached projects that some loaded agent points at
      (`===` on possibly undefined endpoints). */
  function ActiveEndpoints(cache: Cache, agents: seq<Agent>): (active: set<Option<string>>)
    ensures forall e :: e in active <==>
      (exists p :: p in CachedProjects(cache) && p.endpoint == e) && (exists a :: a in agents && a.projectEndpoint == e)
  {
    set p, a | p in CachedProjects(cache) && a in agents && a.projectEndpoint == p.endpoint :: p.endpoint
  }

  lemma {:induction false} EndpointSetBound(ps: seq<Project>)
    ensures |set p | p in ps :: p.endpoint| <= |ps|
  {
    if |ps| > 0 {
      EndpointSetBound(ps[1..]);
      assert (set p | p in ps :: p.endpoint) == (set p | p in ps[1..] :: p.endpoint) + {ps[0].endpoint};
    }
  }

  lemma {:induction false} SubsetCardinality<T>(a: set<T>, b: set<T>)
    requires a <= b
    ensures |a| <= |b|
    decreases |b|
  {
    if a != {} {
      var x :| x in a;
      SubsetCardinality(a - {x}, b - {x});
    }
  }

  /** Projects with no loaded agent (`totalProjects - activeProjects`):
      every active endpoint belongs to a cached project, so the difference
      is never negative. */
  function EmptyProjects(cache: Cache, agents: seq<Agent>): (n: nat)
    ensures n + |ActiveEndpoints(cache, agents)| == TotalProjects(cache)
  {
    var ps := CachedProjects(cache);
    var all := set p | p in ps :: p.endpoint;
    assert ActiveEndpoints(cache, agents) <= all;
    SubsetCardinality(ActiveEndpoints(cache, agents), all);
    EndpointSetBound(ps);
    TotalProjects(cache) - |ActiveEndpoints(cache, agents)|
  }
}

/** The dashboard scenarios: one subscription with two projects, one
    agent in the first. */
module MetricsExamples {
  import opened Text
  import opened Optional
  import opened Records
  import opened Histogram
  import opened Metrics

  const E1 := Some("e1")
  const E2 := Some("e2")
  const Subscription1: Cache :=
    [("S1", Snapshot(Some([Project("p1", None, E1), Project("p2", None, E2)])))]
  const A1 := Agent("a1", None, Some("gpt-4"), [], None, None, None, E1)

  lemma CachedScenarioProjects()
    ensures CachedProjects(Subscription1) == [Project("p1", None, E1), Project("p2", None, E2)]
  {
    assert Subscription1[1..] == [];
  }

  /** Two projects in total, only `e1` active, one empty. */
  lemma UtilizationScenario()
    ensures TotalProjects(Subscription1) == 2
    ensures ActiveEndpoints(Subscription1, [A1]) == {E1}
    ensures EmptyProjects(Subscription1, [A1]) == 1
  {
    CachedScenarioProjects();
    var active := ActiveEndpoints(Subscription1, [A1]);
    assert E1 in active;
    forall e | e in active ensures e == E1 {
      assert exists a :: a in [A1] && a.projectEndpoint == e;
    }
    assert active == {E1};
  }

  /** The model chart of the scenario: `{"gpt-4": 1}`. */
  lemma ModelScenario()
    ensures ModelHistogram([A1]) == [("gpt-4", 1)]
  {
    assert ModelLabels([A1]) == ["gpt-4"];
    assert ["gpt-4"][..0] == [];
  }

  /** A `file_search` tool is charted as "File Search". */
  lemma FileSearchCategory()
    ensures ToolCategory(Tool(Some("file_search"), None, None)) == "File Search"
  {
    assert OccursAt("file_search", "search", 5);
    OccurrenceGivesContains("file_search", "search", 5);
  }

  /** The tool chart of an agent with one `file_search` tool:
      `{"File Search": 1}`. */
  lemma ToolScenario()
    ensures ToolHistogram([Agent("a1", None, None, [Tool(Some("file_search"), None, None)], None, None, None, None)])
            == [("File Search", 1)]
  {
    var a := Agent("a1", None, None, [Tool(Some("file_search"), None, None)], None, None, None, None);
    FileSearchCategory();
    assert [a][..0] == [];
    assert ToolLabels([a]) == ["File Search"];
    assert ["File Search"][..0] == [];
  }
}

=== FILE: node_keys.dfy ===
/** Graph node identities. The browser builds string ids by suffixing the
    agent id (`{id}_model`, `{id}_tool_{i}`, `{id}_tool_{i}_conn`); the
    model keeps the structured key and renders it with `KeyText`. */
module NodeKeys {
  import opened Text
  import opened Optional

  datatype NodeKey =
    | AgentKey(agentId: string)
    | ModelKey(agentId: string)
    | ToolKey(agentId: string, index: nat)
    | ConnKey(agentId: string, index: nat)

  const ModelSuffix := "_model"
  const ToolInfix := "_tool_"
  const ConnSuffix := "_conn"

  /** The id string Cytoscape receives for a key. */
  function KeyText(k: NodeKey): string {
    match k
    case AgentKey(a) => a
    case ModelKey(a) => a + ModelSuffix
    case ToolKey(a, i) => a + ToolInfix + NatText(i)
    case ConnKey(a, i) => a + ToolInfix + NatText(i) + ConnSuffix
  }

  predicate EndsWith(s: string, suffix: string) {
    |suffix| <= |s| && s[|s| - |suffix|..] == suffix
  }

  /** Length of the longest all-digit suffix. */
  function DigitSuffixLength(s: string): (d: nat)
    ensures d <= |s|
    ensures forall i :: |s| - d <= i < |s| ==> IsDigit(s[i])
    ensures d < |s| ==> !IsDigit(s[|s| - d - 1])
  {
    if |s| == 0 || !IsDigit(s[|s| - 1]) then 0 else 1 + DigitSuffixLength(s[..|s| - 1])
  }

  /** Reads `{a}_tool_{digits}` back as `(a, number)`. */
  function DecodeTool(s: string): Option<(string, nat)> {
    var d := DigitSuffixLength(s);
    var head := s[..|s| - d];
    if d > 0 && EndsWith(head, ToolInfix) then Some((head[..|head| - |ToolInfix|], ParseDigits(s[|s| - d..])))
    else None
  }

  /** Reads a synthesized id back as the key it was rendered from. */
  function DecodeSynthesized(s: string): Option<NodeKey> {
    if EndsWith(s, ModelSuffix) then Some(ModelKey(s[..|s| - |ModelSuffix|]))
    else if EndsWith(s, ConnSuffix) then
      match DecodeTool(s[..|s| - |ConnSuffix|])
      case Some(p) => Some(ConnKey(p.0, p.1))
      case None => None
    else
      match DecodeTool(s)
      case Some(p) => Some(ToolKey(p.0, p.1))
      case None => None
  }

  lemma {:induction false} DigitSuffixAfterSeparator(x: string, y: string)
    requires |x| > 0 && !IsDigit(x[|x| - 1])
    requires forall i :: 0 <= i < |y| ==> IsDigit(y[i])
    ensures DigitSuffixLength(x + y) == |y|
    decreases |y|
  {
    if |y| == 0 {
      assert x + y == x;
    } else {
      assert (x + y)[..|x + y| - 1] == x + y[..|y| - 1];
      DigitSuffixAfterSeparator(x, y[..|y| - 1]);
    }
  }

  lemma DecodeToolRoundTrip(a: string, i: nat)
    ensures DecodeTool(a + ToolInfix + NatText(i)) == Some((a, i))
  {
    var x := a + ToolInfix;
    var y := NatText(i);
    var s := x + y;
    assert s == a + ToolInfix + NatText(i);
    DigitSuffixAfterSeparator(x, y);
    assert s[..|s| - |y|] == x;
    assert x[..|x| - |ToolInfix|] == a;
    assert s[|s| - |y|..] == y;
    NatTextRoundTrip(i);
  }

  /** Every synthesized id decodes to the key it came from. */
  lemma DecodeRoundTrip(k: NodeKey)
    requires !k.AgentKey?
    ensures DecodeSynthesized(KeyText(k)) == Some(k)
  {
    var s := KeyText(k);
    match k
    case ModelKey(a) =>
      assert s[..|s| - |ModelSuffix|] == a;
    case ToolKey(a, i) =>
      var y := NatText(i);
      assert s[|s| - 1] == y[|y| - 1];
      assert !EndsWith(s, ModelSuffix) && !EndsWith(s, ConnSuffix);
      DecodeToolRoundTrip(a, i);
    case ConnKey(a, i) =>
      assert s[|s| - 1] == 'n';
      assert !EndsWith(s, ModelSuffix);
      assert s[..|s| - |ConnSuffix|] == a + ToolInfix + NatText(i);
      DecodeToolRoundTrip(a, i);
  }

  /** Distinct synthesized keys render to distinct ids, whatever the agent
      ids are. */
  lemma SynthesizedTextInjective(k1: NodeKey, k2: NodeKey)
    requires !k1.AgentKey? && !k2.AgentKey?
    ensures KeyText(k1) == KeyText(k2) ==> k1 == k2
  {
    DecodeRoundTrip(k1);
    DecodeRoundTrip(k2);
  }
}

=== FILE: records.dfy ===
/** The records the browser holds (src/frontend/static/js/graph.js): agents
    as `/api/agents` returns them, decorated with their project; projects as
    `/api/resources/{sub}` returns them. Fields JavaScript may find
    `undefined` are `Option`s. */
module Records {
  import opened Optional

  datatype Tool = Tool(toolType: Option<string>, name: Option<string>, connection: Option<string>)

  datatype Agent = Agent(
    id: string,
    name: Option<string>,
    model: Option<string>,
    tools: seq<Tool>,
    projectId: Option<string>,
    accessCount: Option<nat>,
    projectName: Option<string>,
    projectEndpoint: Option<string>)

  datatype Project = Project(id: string, name: Option<string>, endpoint: Option<string>)

  /** One subscription's resources as cached by the browser; only the
      `projects` list is read. */
  datatype Snapshot = Snapshot(projects: Option<seq<Project>>)

  /** JavaScript truthiness of an optional string: present and non-empty. */
  predicate Truthy(s: Option<string>) {
    s.Some? && s.value != ""
  }

  /** `s || ""`. */
  function OrEmpty(s: Option<string>): (r: string)
    ensures Truthy(s) ==> r == s.value
    ensures !Truthy(s) ==> r == ""
  {
    if s.Some? then s.value else ""
  }

  /** `tool.name || tool.type` is a string exactly when the tool has a
      non-empty name or any type; otherwise the `toLowerCase()` applied to
      it throws. */
  predicate Labelled(t: Tool) {
    Truthy(t.name) || t.toolType.Some?
  }

  /** `tool.name || tool.type`. */
  function DisplayName(t: Tool): (r: string)
    requires Labelled(t)
    ensures Truthy(t.name) ==> r == t.name.value
    ensures !Truthy(t.name) ==> r == t.toolType.value
  {
    if Truthy(t.name) then t.name.value else t.toolType.value
  }

  predicate AllLabelled(agents: seq<Agent>) {
    forall a, t :: a in agents && t in a.tools ==> Labelled(t)
  }

  /** `data.projects || []`: a present list is used even when empty. */
  function ProjectsOf(s: Snapshot): (r: seq<Project>)
    ensures s.projects.Some? ==> r == s.projects.value
    ensures s.projects.None? ==> r == []
  {
    s.projects.GetOr([])
  }

  // ---------------------------------------------------------------------
  // Inventory counts

  /** Tools that name a connection. */
  function ConnectionsOf(tools: seq<Tool>): nat {
    if |tools| == 0 then 0
    else ConnectionsOf(tools[..|tools| - 1]) + (if Truthy(tools[|tools| - 1].connection) then 1 else 0)
  }

  /** Agents with a model. */
  function ModelCount(agents: seq<Agent>): nat {
    if |agents| == 0 then 0
    else ModelCount(agents[..|agents| - 1]) + (if Truthy(agents[|agents| - 1].model) then 1 else 0)
  }

  function ToolCount(agents: seq<Agent>): nat {
    if |agents| == 0 then 0 else ToolCount(agents[..|agents| - 1]) + |agents[|agents| - 1].tools|
  }

  function ConnectionCount(agents: seq<Agent>): nat {
    if |agents| == 0 then 0
    else ConnectionCount(agents[..|agents| - 1]) + ConnectionsOf(agents[|agents| - 1].tools)
  }
}

=== FILE: seqs.dfy ===
/** Facts about sequences without repeated elements, shared by the access
    count and the graph builder. */
module Seqs {

  ghost predicate PairwiseDistinct<T>(xs: seq<T>) {
    forall i, j :: 0 <= i < j < |xs| ==> xs[i] != xs[j]
  }

  /** `len(set(xs))`: at most `|xs|`, and equal exactly when no element
      repeats. */
  lemma {:induction false} DistinctCountBound<T>(xs: seq<T>)
    ensures |set x | x in xs| <= |xs|
    ensures |set x | x in xs| == |xs| <==> PairwiseDistinct(xs)
  {
    if |xs| > 0 {
      var rest := xs[1..];
      DistinctCountBound(rest);
      var s := set x | x in xs;
      var t := set x | x in rest;
      assert s == t + {xs[0]};
      if xs[0] in t {
        assert s == t;
        var k :| 0 <= k < |rest| && rest[k] == xs[0];
        assert xs[0] == xs[k + 1];
        assert !PairwiseDistinct(xs);
      } else {
        assert |s| == |t| + 1;
        if PairwiseDistinct(xs) {
          assert PairwiseDistinct(rest) by {
            forall i, j | 0 <= i < j < |rest|
              ensures rest[i] != rest[j]
            {
              assert rest[i] == xs[i + 1] && rest[j] == xs[j + 1];
            }
          }
        }
        if PairwiseDistinct(rest) {
          forall i, j | 0 <= i < j < |xs|
            ensures xs[i] != xs[j]
          {
            if i == 0 {
              assert xs[j] == rest[j - 1];
              assert xs[j] in t;
            } else {
              assert xs[i] == rest[i - 1] && xs[j] == rest[j - 1];
            }
          }
        }
      }
    }
  }

  /** The number of positions whose element does not occur earlier in the
      sequence: one per distinct element, counted where it first appears. */
  function FirstOccurrences<T(==)>(xs: seq<T>): nat {
    if |xs| == 0 then 0
    else FirstOccurrences(xs[..|xs| - 1]) + (if xs[|xs| - 1] in xs[..|xs| - 1] then 0 else 1)
  }

  /** `len(set(xs))` is the number of first occurrences. */
  lemma {:induction false} DistinctCountIsFirstOccurrences<T>(xs: seq<T>)
    ensures |set x | x in xs| == FirstOccurrences(xs)
  {
    if |xs| > 0 {
      var init, last := xs[..|xs| - 1], xs[|xs| - 1];
      DistinctCountIsFirstOccurrences(init);
      assert xs == init + [last];
      var s := set x | x in xs;
      var t := set x | x in init;
      assert s == t + {last};
      if last in init {
        assert s == t;
      } else {
        assert last !in t;
      }
    }
  }

  /** Two repetition-free sequences with no common element concatenate to
      a repetition-free sequence. */
  lemma DistinctConcat<T>(xs: seq<T>, ys: seq<T>)
    requires PairwiseDistinct(xs) && PairwiseDistinct(ys)
    requires forall x, y :: x in xs && y in ys ==> x != y
    ensures PairwiseDistinct(xs + ys)
  {
    var zs := xs + ys;
    forall i, j | 0 <= i < j < |zs|
      ensures zs[i] != zs[j]
    {
      if j < |xs| {
        assert zs[i] == xs[i] && zs[j] == xs[j];
      } else if i >= |xs| {
        assert zs[i] == ys[i - |xs|] && zs[j] == ys[j - |xs|];
      } else {
        assert zs[i] == xs[i] && zs[j] == ys[j - |xs|];
        assert xs[i] in xs && ys[j - |xs|] in ys;
      }
    }
  }
}

=== FILE: text.dfy ===
/** String helpers shared by both layers: ASCII lower-casing, substring
    search, joining and splitting on a separator, trailing-separator
    stripping and decimal rendering of numbers. */
module Text {

  /** ASCII lower-casing of one character. */
  function LowerChar(c: char): char {
    if 'A' <= c <= 'Z' then (c as int + 32) as char else c
  }

  /** `toLowerCase()` / `lower()` restricted to ASCII letters, character
      by character. */
  function Lower(s: string): string {
    seq(|s|, i requires 0 <= i < |s| => LowerChar(s[i]))
  }

  /** Text without capital letters is its own lower-case form. */
  lemma LowerKeepsLowercase(s: string)
    requires forall i :: 0 <= i < |s| ==> !('A' <= s[i] <= 'Z')
    ensures Lower(s) == s
  {
  }

  /** `sub` occurs in `s` at some position (JavaScript `includes`, Python `in`). */
  predicate Contains(s: string, sub: string)
    decreases |s|
  {
    sub <= s || (|s| > 0 && Contains(s[1..], sub))
  }

  lemma {:induction false} LongerNeverContained(s: string, sub: string)
    requires |sub| > |s|
    ensures !Contains(s, sub)
    decreases |s|
  {
    if |s| > 0 {
      LongerNeverContained(s[1..], sub);
    }
  }

  /** Independent characterisation of `Contains` by an occurrence index. */
  ghost predicate OccursAt(s: string, sub: string, i: int) {
    0 <= i && i + |sub| <= |s| && s[i..i + |sub|] == sub
  }

  lemma {:induction false} OccurrenceGivesContains(s: string, sub: string, i: int)
    requires OccursAt(s, sub, i)
    ensures Contains(s, sub)
    decreases i
  {
    if i == 0 {
      assert s[..|sub|] == sub;
    } else {
      assert s[1..][i - 1..i - 1 + |sub|] == s[i..i + |sub|];
      OccurrenceGivesContains(s[1..], sub, i - 1);
    }
  }

  lemma {:induction false} ContainsGivesOccurrence(s: string, sub: string)
    requires Contains(s, sub)
    ensures exists i :: OccursAt(s, sub, i)
    decreases |s|
  {
    if sub <= s {
      assert OccursAt(s, sub, 0);
    } else {
      ContainsGivesOccurrence(s[1..], sub);
      var i :| OccursAt(s[1..], sub, i);
      assert s[i + 1..i + 1 + |sub|] == s[1..][i..i + |sub|];
      assert OccursAt(s, sub, i + 1);
    }
  }

  lemma ContainsIffOccurrence(s: string, sub: string)
    ensures Contains(s, sub) <==> exists i :: OccursAt(s, sub, i)
  {
    if Contains(s, sub) {
      ContainsGivesOccurrence(s, sub);
    }
    if exists i :: OccursAt(s, sub, i) {
      var i :| OccursAt(s, sub, i);
      OccurrenceGivesContains(s, sub, i);
    }
  }

  /** A needle with a character the text lacks never occurs in it. */
  lemma {:induction false} MissingCharNotContained(s: string, sub: string, k: nat)
    requires k < |sub| && sub[k] !in s
    ensures !Contains(s, sub)
    decreases |s|
  {
    if |sub| <= |s| {
      assert s[k] != sub[k];
    }
    if |s| > 0 {
      MissingCharNotContained(s[1..], sub, k);
    }
  }

  /** Joins `parts` with `sep` between consecutive parts (`join`). */
  function Join(parts: seq<string>, sep: string): string {
    if |parts| == 0 then ""
    else if |parts| == 1 then parts[0]
    else parts[0] + sep + Join(parts[1..], sep)
  }

  /** Python's `s.split(c)` for a one-character separator: keeps empty
      segments, and always yields at least one segment. */
  function Split(s: string, c: char): (r: seq<string>)
    ensures |r| >= 1
    decreases |s|
  {
    if |s| == 0 then [""]
    else if s[0] == c then [""] + Split(s[1..], c)
    else
      var rest := Split(s[1..], c);
      [[s[0]] + rest[0]] + rest[1..]
  }

  lemma {:induction false} SplitJoinRoundTrip(s: string, c: char)
    ensures Join(Split(s, c), [c]) == s
    ensures forall k :: 0 <= k < |Split(s, c)| ==> c !in Split(s, c)[k]
    decreases |s|
  {
    if |s| > 0 {
      SplitJoinRoundTrip(s[1..], c);
      var rest := Split(s[1..], c);
      if s[0] == c {
        assert Split(s, c) == [""] + rest;
        assert ([""] + rest)[1..] == rest;
      } else {
        var r := Split(s, c);
        assert r == [[s[0]] + rest[0]] + rest[1..];
        assert r[1..] == rest[1..];
        if |rest| > 1 {
          assert rest == [rest[0]] + rest[1..];
          assert Join(rest, [c]) == rest[0] + [c] + Join(rest[1..], [c]);
        }
        forall k | 0 <= k < |r|
          ensures c !in r[k]
        {
          if k > 0 {
            assert r[k] == rest[k];
          }
        }
      }
    }
  }

  /** The last segment of `s.split(c)`, i.e. Python's `s.split(c)[-1]`. */
  function LastSegment(s: string, c: char): string {
    var parts := Split(s, c);
    parts[|parts| - 1]
  }

  lemma {:induction false} LastSegmentIsMaximalSuffix(s: string, c: char)
    ensures var r := LastSegment(s, c);
      && |r| <= |s|
      && s[|s| - |r|..] == r
      && c !in r
      && (|r| == |s| || s[|s| - |r| - 1] == c)
    decreases |s|
  {
    if |s| > 0 {
      LastSegmentIsMaximalSuffix(s[1..], c);
      var rest := Split(s[1..], c);
      var t := s[1..];
      assert s[|s| - |LastSegment(t, c)|..] == t[|t| - |LastSegment(t, c)|..];
      if s[0] == c {
        assert Split(s, c) == [""] + rest;
        assert LastSegment(s, c) == LastSegment(t, c);
        if |LastSegment(t, c)| == |t| {
          assert s[|s| - |LastSegment(t, c)| - 1] == s[0];
        } else {
          assert s[|s| - |LastSegment(t, c)| - 1] == t[|t| - |LastSegment(t, c)| - 1];
        }
      } else if |rest| > 1 {
        assert LastSegment(s, c) == LastSegment(t, c);
        SplitJoinRoundTrip(t, c);
        assert c !in rest[0];
        assert |LastSegment(t, c)| < |t| by {
          LastSegmentShorterWhenSplit(t, c);
        }
        assert s[|s| - |LastSegment(t, c)| - 1] == t[|t| - |LastSegment(t, c)| - 1];
      } else {
        var r := Split(s, c);
        assert r == [[s[0]] + rest[0]];
        SplitJoinRoundTrip(t, c);
        assert rest == [rest[0]];
        assert LastSegment(t, c) == t;
        assert LastSegment(s, c) == [s[0]] + t == s;
      }
    }
  }

  /** Helper: when the split has more than one segment, the last one is a
      proper suffix. */
  lemma {:induction false} LastSegmentShorterWhenSplit(s: string, c: char)
    requires |Split(s, c)| > 1
    ensures |LastSegment(s, c)| < |s|
    decreases |s|
  {
    var t := s[1..];
    var rest := Split(t, c);
    LastSegmentIsMaximalSuffix(t, c);
    if s[0] == c {
      assert Split(s, c) == [""] + rest;
    } else {
      assert Split(s, c) == [[s[0]] + rest[0]] + rest[1..];
      assert LastSegment(s, c) == LastSegment(t, c);
    }
  }

  /** Python's `s.rstrip(c)`: removes every trailing occurrence of `c`. */
  function StripTrailing(s: string, c: char): (r: string)
    ensures r <= s
    ensures |r| == 0 || r[|r| - 1] != c
    ensures forall i :: |r| <= i < |s| ==> s[i] == c
  {
    if |s| == 0 then s
    else if s[|s| - 1] == c then StripTrailing(s[..|s| - 1], c)
    else s
  }

  // ---------------------------------------------------------------------
  // Decimal rendering

  function DigitChar(d: nat): char
    requires d < 10
  {
    "0123456789"[d]
  }

  predicate IsDigit(c: char) {
    '0' <= c <= '9'
  }

  function DigitValue(c: char): nat
    requires IsDigit(c)
  {
    c as int - '0' as int
  }

  /** Decimal digits of `n`, without leading zeros (`String(n)`, `str(n)`). */
  function NatText(n: nat): (r: string)
    ensures |r| >= 1
    ensures forall i :: 0 <= i < |r| ==> IsDigit(r[i])
  {
    if n < 10 then [DigitChar(n)] else NatText(n / 10) + [DigitChar(n % 10)]
  }

  /** Reads a digit string back as a number. */
  function ParseDigits(s: string): nat
    requires forall i :: 0 <= i < |s| ==> IsDigit(s[i])
  {
    if |s| == 0 then 0 else 10 * ParseDigits(s[..|s| - 1]) + DigitValue(s[|s| - 1])
  }

  lemma {:induction false} NatTextRoundTrip(n: nat)
    ensures ParseDigits(NatText(n)) == n
  {
    if n >= 10 {
      NatTextRoundTrip(n / 10);
      var s := NatText(n);
      assert s[..|s| - 1] == NatText(n / 10);
    }
  }

  lemma NatTextInjective(m: nat, n: nat)
    ensures NatText(m) == NatText(n) ==> m == n
  {
    NatTextRoundTrip(m);
    NatTextRoundTrip(n);
  }

  /** Decimal rendering of an integer, with a leading `-` when negative. */
  function IntText(i: int): string {
    if i < 0 then "-" + NatText(-i) else NatText(i)
  }
}
